=== FILE: README.md ===
# nodeSql in Dafny

A model of the core of nodeSql, a small Express + SQLite CRUD service. It
has three tables: `users`, `products` and `orders`. The `orders` table
refers to `users` through a foreign key declared `ON DELETE SET NULL`. The
service comes with three scripts: one creates and seeds the database, one
dumps it as SQL text, and one rewrites that dump for MySQL.

- **The store** (`store.dfy`, `schema.dfy`). The database is a class
  `Database.Store`. It holds one map per table and one AUTOINCREMENT counter
  per table, the table's `sqlite_sequence` entry. `Store.Valid()` states
  every declared constraint: NOT NULL, UNIQUE email, the CHECK on the order
  status, the foreign key, and ids issued in `1..counter`.
- **The three routers** (`users.dfy`, `products.dfy`, `orders.dfy`). Each
  HTTP handler is a method on the store. It runs as one atomic step and
  answers a `Reply`: status, message and returned row. Its `ensures` gives
  the reply and the whole new state for every branch of the handler,
  including 400, 404 and the constraint failures that become 500. It also
  keeps `Valid()`.
- **Body values** (`values.dfy`). A request-body field is a `JsValue`.
  `Bind` is how node-sqlite3 binds it: `undefined` and `null` both become
  NULL. The two merge rules the handlers use are `OrElse` (`x || old`) and
  `IfDefined` (`x !== undefined ? x : old`).
- **Listing queries** (`query.dfy`, `filters.dfy`, `like.dfy`). A listing
  is `Query.SelectOrdered`: a scan in rowid order that keeps the answer
  sorted by `created_at`, latest first. It is proved to return exactly the
  rows that satisfy the condition, each once, in that order. The filtered
  listings build their WHERE clause as the routes do. The model proves that
  the clause binds exactly one parameter per `?`. It also proves that the
  conditions, read with their parameters, select exactly the rows the
  filters describe. A LIKE search with `%term%` is proved to be substring
  search that ignores the case of ASCII letters, as SQLite's LIKE does. The
  price bounds are `parseFloat` of the query text: leading white space, a
  sign, a fraction and an exponent are read.
- **Seeding** (`init.dfy`). Each of the three seed loops is a method. Each
  is proved equal to a fold over its samples.
  - `INSERT OR IGNORE` meets the UNIQUE email, so a second run changes no
    user. The users counter still moves on by one per ignored sample,
    because SQLite allocates the AUTOINCREMENT rowid before the UNIQUE
    check turns the row away.
  - Products have no natural key, so a second run appends them again.
  - OR IGNORE does not cover the foreign key, so a sample order whose user
    is missing fails, is logged and is skipped.
- **The dump** (`export.dfy`). `ExportToSql` appends the dump piece by
  piece, as the script does. It is proved equal to the specification
  `DumpText` in the script's DEFAULT style, which wraps every text default
  in quotes a second time. The corrected style writes the default as
  declared; the two dumps differ exactly on text defaults other than
  CURRENT_TIMESTAMP. Quoting string values round-trips. Each constraint keyword
  appears exactly when its flag is set. The column list and the value list
  of an INSERT line up one to one.
- **The MySQL rewrite** (`convert.dfy`). `ReplaceAll` models JavaScript's
  global `replace` with a literal pattern. The `\s*` marker rewrites are
  `InsertClause`. `ConvertToMySql` is header, converted text and footer.
  - After the conversion no `REAL` is left.
  - The REAL and TEXT rewrites are idempotent.
  - The AUTOINCREMENT phrase must be rewritten before the bare `INTEGER`.
  - The orders-specific rewrite never fires.
  - The end-marker rewrite fires only on a marker that came with the input.
    So on the exporter's dump, a last table without rows keeps its bare
    `);`. The corrected conversion gives that `CREATE TABLE` the ENGINE
    clause, and leaves a last `INSERT` alone. It tells the two apart by
    whether the `);` starts its line.
  - Every rewrite also reaches the INSERT data. A product description
    "REAL leather" comes out as "DECIMAL(10,2) leather".

## Model

| member | source | states |
|---|---|---|
| Values.Bind | routes/users.js:81-84 | `undefined` and `null` bind as NULL and nothing else does; reading the bound value back gives the value, with `undefined` read back as `null` |
| Values.Truthy | routes/users.js:74 | a truthy value binds to neither NULL, `0` nor `''` |
| Values.BindRead | routes/users.js:86 | every stored value is the binding of the value node-sqlite3 reads from it |
| Values.OrElse | routes/users.js:130 | `x \|\| old` is NULL exactly when `x` is falsy and `old` is NULL; it reads back as `x` when `x` is truthy, else as `old` |
| Values.IfDefined | routes/products.js:158-161 | `x !== undefined ? x : old` is NULL exactly for an explicit `null`, or an absent `x` over a NULL `old`; a defined `x` is written as it is |
| Values.MergeRulesDiffer | routes/products.js:156-162 | `x \|\| old` and `x !== undefined ? x : old` agree on truthy and absent values and differ on `null` and `0` |
| Values.OrElseKeepsNotNull | routes/users.js:130 | `x \|\| old` never writes NULL over a non-NULL stored value |
| Text.Upper | database/export-to-sql.js:58 | same length, each character upper-cased (ASCII letters only) |
| Text.SpaceRun | database/convert-to-mysql.js:41 | the longest prefix of `\s` characters |
| Text.ParseFloatNaN | routes/products.js:41 | `parseFloat` gives NaN (None) exactly when, after white space and a sign, neither a digit nor a point and a digit follows |
| Text.ParseFloatSkipsSpace | routes/products.js:41 | leading white space does not change the value |
| Text.ParseFloatSign | routes/products.js:41 | a leading `-` negates the value and a leading `+` keeps it |
| Text.ParseFloatInteger | routes/products.js:41 | a run of digits reads as its integer value, whatever non-numeric text follows |
| Text.ParseFloatDecimal | routes/products.js:41 | `a.b` reads as `a` plus the fraction `b`, whatever non-numeric text follows |
| Text.FracValueIs | routes/products.js:41 | the fraction digits `b` are worth their integer value over ten to the power of their count |
| Text.ParseFloatExponent | routes/products.js:41 | `a` followed by `e` and the digits `d` reads as `a` times ten to the power `d` |
| Text.ScaleUp | routes/products.js:41 | scaling by a non-negative exponent multiplies by that power of ten |
| Text.IntegerAffinity | routes/orders.js:43-46 | a text compares as an integer exactly when it is a non-empty run of digits |
| SqlLike.SubstringPattern | routes/products.js:51 | the pattern is two characters longer than the term and starts and ends with `%` |
| SqlLike.PercentMatchesAll | routes/products.js:50-51 | `%` matches every string |
| SqlLike.LikePrefix | routes/products.js:50-51 | for a wildcard-free `t`, `t%` matches exactly the strings starting with `t`, ignoring ASCII case |
| SqlLike.LikeLeadingPercent | routes/products.js:50-51 | `%q` matches exactly when `q` matches some suffix |
| SqlLike.SubstringPatternIsContains | routes/products.js:49-52 | for a wildcard-free term, `LIKE '%term%'` holds exactly when the lower-cased text contains the lower-cased term |
| SqlLike.LikeIgnoresCase | routes/products.js:49-52 | folding the case of the text or of the pattern changes no LIKE answer |
| Query.InsertDesc | routes/users.js:27 | inserting a row keeps the list sorted latest-first with distinct ids, and adds exactly that row |
| Query.HeadDominates | routes/users.js:27 | the head of a sorted list is at least as recent as every other row |
| Query.SelectOrdered | routes/users.js:27 | the scan returns exactly the rows that satisfy the condition, each once, latest first |
| Schema.Owner | routes/orders.js:29-31 | the LEFT JOIN finds the user whose id the value names, and only that one |
| Schema.Enrich | routes/orders.js:29-31 | the joined row keeps the order and its id, and carries the name and email of the user its `user_id` names, or NULLs when it names none |
| Schema.DetachUser | database/init.js:72 | `ON DELETE SET NULL`: the same orders remain, none names the deleted user, and an order changes only by a NULL `user_id` and only if it named that user |
| Schema.DetachUserKeepsOrdersValid | database/init.js:72 | the cascade keeps every order's foreign key valid after the user is deleted |
| Schema.MoreUsersKeepOrdersValid | database/init.js:72 | adding or updating users never breaks an order's foreign key |
| Schema.InsertUserKeepsUsersValid | database/init.js:39-47 | an insert under the next id with a new non-NULL email keeps the users table valid |
| Database.Store.constructor | database/init.js:39-74 | three empty tables and counters at 0, all constraints holding |
| Database.SelectionByEquivalent | routes/products.js:54-60 | two conditions that keep the same rows select the same answer |
| Filters.ArityIsPlaceholderCount | routes/products.js:34-52 | each appended condition holds as many `?` as it pushes parameters |
| Filters.PlaceholdersAppend | routes/products.js:34-52 | appending a condition adds its parameter count |
| Filters.ConditionTexts | routes/products.js:55 | one SQL text per condition, each that condition's SQL |
| Filters.WherePlaceholders | routes/products.js:54-56 | the WHERE clause holds one `?` per parameter and is empty exactly when no condition was appended |
| Filters.SatisfiesAppend | routes/products.js:34-52 | appending a condition with its parameters conjoins its meaning |
| Filters.SearchIsSubstring | routes/products.js:49-52 | the search condition on a column is substring search ignoring ASCII case, for a wildcard-free term |
| Filters.CategoryMeaning | routes/products.js:34-37 | `category = ?` holds exactly for that category |
| Filters.MinPriceMeaning | routes/products.js:39-42 | `price >= ?` with `parseFloat(minPrice)` holds exactly for the prices at or above it |
| Filters.MaxPriceMeaning | routes/products.js:44-47 | `price <= ?` with `parseFloat(maxPrice)` holds exactly for the prices at or below it |
| Filters.BoundMeaning | routes/products.js:39-47 | `price >= ?` and `price <= ?` hold exactly when the price is at or above, at or below the parsed bound, and never for NaN |
| Filters.PriceBoundsExamples | routes/products.js:39-47 | `maxPrice=49.99` keeps a product priced 49.99; `minPrice=abc` drops every product |
| Filters.PriceParamDecimal | routes/products.js:46 | `49.99` binds 49.99 |
| Filters.PriceParamNegative | routes/products.js:41 | `-1` binds -1 |
| Filters.PriceParamBlank | routes/products.js:41 | ` 5` binds 5 |
| Filters.PriceParamExponent | routes/products.js:41 | `5e1` binds 50 |
| Filters.PriceParamTrailing | routes/products.js:41 | `12abc` binds 12 |
| Filters.PriceParamNaN | routes/products.js:41 | `abc` binds NULL |
| Filters.SearchMeaning | routes/products.js:49-52 | the search condition holds exactly when the name or the description mentions the term, ignoring ASCII case |
| Filters.OrderQueryMeaning | routes/orders.js:36-50 | the order query binds one parameter per placeholder and selects exactly the orders with the given status and user id |
| Filters.AppendWhere | routes/orders.js:48-50 | the text gains ` WHERE ` and the conditions joined by ` AND ` exactly when there is a condition, with one `?` per parameter |
| Filters.BuildOrderQuery | routes/orders.js:27-52 | the conditions appended for status and userId, one parameter per `?`, the SQL text, and the rows it selects exactly as the filters describe |
| Filters.ProductQueryMeaning | routes/products.js:27-58 | the product query binds one parameter per placeholder and selects exactly the products passing every present filter |
| Filters.ProductFilterList | routes/products.js:34-52 | the conditions and parameters the four filters push, in the route's order |
| Filters.BuildProductQuery | routes/products.js:27-58 | the conditions and parameters in the route's order, the SQL text, and the rows it selects exactly as the filters describe |
| UserRoutes.ListUsers | routes/users.js:25-41 | every user, each once, latest first |
| UserRoutes.GetUser | routes/users.js:44-67 | the user, or 404 `User not found` |
| UserRoutes.CreateUser | routes/users.js:70-109 | 400 without a truthy name and email; 400 on a taken email; otherwise the row under the next id and 201; nothing else changes |
| UserRoutes.UpdateUser | routes/users.js:112-156 | 404 for an unknown id; each field falls back on the stored one when falsy; 400 when the email belongs to another user |
| UserRoutes.UpdateNeverClearsAge | routes/users.js:130 | a falsy age (`0`, `null`, `""`) keeps the stored age |
| UserRoutes.DeleteUser | routes/users.js:159-188 | 404 for an unknown id; otherwise the user goes and its orders are detached |
| UserRoutes.UserOrders | routes/users.js:191-213 | the orders naming the user, latest first; none for an unknown user |
| UserRoutes.OrdersOfUserExist | routes/users.js:191-198 | under the foreign key, an order naming an id means the user exists |
| UserRoutes.SelectionCoversTable | routes/users.js:27-31 | a listing with no condition returns as many rows as the table holds, the `count` the route reports |
| ProductRoutes.ListProducts | routes/products.js:25-75 | exactly the products passing every present filter, latest first |
| ProductRoutes.GetProduct | routes/products.js:78-101 | the product, or 404 `Product not found` |
| ProductRoutes.CreateProduct | routes/products.js:104-135 | 400 without a truthy name and price; a falsy stock is stored as 0; the row under the next id and 201 |
| ProductRoutes.UpdateProduct | routes/products.js:138-181 | 404 for an unknown id; name, price and category fall back when falsy, description and stock only when absent |
| ProductRoutes.DeleteProduct | routes/products.js:184-213 | 404 for an unknown id; otherwise that product alone goes |
| ProductRoutes.ProductsByCategory | routes/products.js:216-238 | exactly the products of that category, latest first |
| ProductRoutes.Categories | routes/products.js:241-260 | each non-NULL category in use, exactly once |
| OrderRoutes.ListOrders | routes/orders.js:25-69 | the orders passing the status and userId filters, latest first, each joined with its user |
| OrderRoutes.GetOrder | routes/orders.js:72-101 | the joined order, or 404 `Order not found` |
| OrderRoutes.CreateOrder | routes/orders.js:104-152 | 400 without a truthy amount; 400 when a truthy user id names no user; a falsy user id stored as NULL, a falsy status as `pending`; a status outside the five is a 500 from the CHECK |
| OrderRoutes.UpdateOrder | routes/orders.js:155-213 | 404, then 400 for an unknown user; `user_id` falls back only when absent, amount and status when falsy; a CHECK or foreign-key failure is a 500 and changes nothing |
| OrderRoutes.UpdateUserIdOutcome | routes/orders.js:171-185 | absent keeps the link, `null` detaches, a truthy known id links, `0` or `""` breaks the foreign key |
| OrderRoutes.DeleteOrder | routes/orders.js:216-245 | 404 for an unknown id; otherwise that order alone goes |
| OrderRoutes.UpdateOrderStatus | routes/orders.js:248-302 | 400 without a status, 400 with the listed message for one outside the five, then 404; only the status changes |
| OrderRoutes.OrdersByStatus | routes/orders.js:305-331 | exactly the orders with that status, latest first, joined |
| Seed.SeedUsersKeeps | database/init.js:86-92 | the users loop keeps existing rows and the table valid, and moves the counter by one per sample, inserted or ignored |
| Seed.SeedUsersCovers | database/init.js:86-92 | after the loop every sample email is taken |
| Seed.SeedUsersNoop | database/init.js:88 | when every sample email is taken, the loop leaves the table as it was and the counter advances by the number of samples |
| Seed.SeedUsersIdempotent | database/init.js:86-92 | a second run leaves the users table as the first left it; only the counter moves, by the number of samples |
| Seed.SeedProductsAppends | database/init.js:107-113 | the products loop keeps existing rows and adds exactly one row per sample |
| Seed.SeedProductsRows | database/init.js:96-113 | the new rows are the samples, in order, under the next ids |
| Seed.SeedProductsTwice | database/init.js:107-113 | a second run appends the eight products again |
| Seed.SeedOrdersKeeps | database/init.js:125-131 | the orders loop keeps existing rows and the foreign key and CHECK of every order |
| Seed.SeedOrdersCount | database/init.js:125-131 | the table and its counter grow by exactly the number of samples whose user exists |
| Seed.FreshSeed | database/init.js:78-131 | on a fresh database the five users get ids 1 to 5 and all five orders are stored |
| Seed.Initialize | database/init.js:24-153 | the store after the three loops is the three folds over the samples |
| Seed.InsertSampleUsers | database/init.js:86-92 | the loop's result is the users fold |
| Seed.InsertSampleProducts | database/init.js:107-113 | the loop's result is the products fold |
| Seed.InsertSampleOrders | database/init.js:125-131 | the loop's result is the orders fold |
| Dump.Escape | database/export-to-sql.js:90 | one extra character per quote |
| Dump.UnescapeEscape | database/export-to-sql.js:90 | doubling the quotes is undone by reading them back |
| Dump.EscapeUnescape | database/export-to-sql.js:90 | every well-formed escaped text is the escape of what it reads back to |
| Dump.QuoteRoundTrip | database/export-to-sql.js:90 | a quoted value reads back to the value |
| Dump.ValueLiteral | database/export-to-sql.js:85-94 | NULL for null, a quoted literal that reads back for text, the number's text for numbers |
| Dump.NotNullFlag | database/export-to-sql.js:52-54 | ` NOT NULL` appears exactly for a NOT NULL column |
| Dump.PrimaryKeyFlag | database/export-to-sql.js:56-61 | ` PRIMARY KEY` appears exactly for a key column |
| Dump.AutoIncrementFlag | database/export-to-sql.js:58-60 | ` AUTOINCREMENT` appears exactly for a key column whose upper-cased type contains INTEGER |
| Dump.QuotedDefaultMangled | database/export-to-sql.js:64-65 | a default declared as a quoted literal comes out quoted twice and no longer reads back to its value |
| Dump.DefaultClause | database/export-to-sql.js:63-69 | no clause exactly when the column has no default |
| Dump.DefaultClauseKeepsLiteral | database/export-to-sql.js:63-69 | a literal default comes out as that literal and reads back to the declared value |
| Dump.StylesDiffer | database/export-to-sql.js:50-69 | the script's column line and the corrected one differ exactly for a text default that does not start with CURRENT_TIMESTAMP |
| Dump.DumpStylesAgree | database/export-to-sql.js:30-99 | without such a default the script's dump and the corrected dump are the same text |
| Dump.JoinEndsWithLast | database/export-to-sql.js:74 | a joined list ends with its last part |
| Dump.InsertAligned | database/export-to-sql.js:84-96 | the column list and the value list of an INSERT pair up one to one |
| Dump.ExportToSql | database/export-to-sql.js:30-99 | the appended text is the dump specification in the script's DEFAULT style: header, then structure and data per table in order |
| Dump.AppendTable | database/export-to-sql.js:44-98 | one table appends its structure, then its data |
| Dump.RenderColumns | database/export-to-sql.js:48-72 | the column loop yields the column definitions |
| Dump.RenderColumn | database/export-to-sql.js:50-69 | one column's definition is name, type, constraints and default |
| Dump.AppendInserts | database/export-to-sql.js:83-97 | the row loop appends one INSERT line per row |
| Dump.SectionOrder | database/export-to-sql.js:44-81 | DROP follows the comment, CREATE follows DROP, and the data part is empty exactly for a table with no rows |
| MySqlConvert.ReplaceAtMatch | database/convert-to-mysql.js:34-38 | a match at the front is replaced and the search resumes after it |
| MySqlConvert.ReplaceAbsent | database/convert-to-mysql.js:34-38 | without a match the text is unchanged |
| MySqlConvert.ReplaceLeavesNone | database/convert-to-mysql.js:34-38 | when the replacement cannot combine with its surroundings into the pattern, none is left |
| MySqlConvert.ReplaceKeepsAbsent | database/convert-to-mysql.js:34-38 | a replacement that cannot spell `q` creates no `q` |
| MySqlConvert.ReplaceAfterClean | database/convert-to-mysql.js:34-38 | text with no partial match is copied and the rest rewritten on its own |
| MySqlConvert.CopiesWithoutParen | database/convert-to-mysql.js:41 | text without `)` passes the marker rewrite unchanged |
| MySqlConvert.ResumeAfterMarker | database/convert-to-mysql.js:41 | on a match the clause goes between `)` and `;`, the whitespace and marker are kept, and the search resumes after them |
| MySqlConvert.EngineIdentity | database/convert-to-mysql.js:41-47 | without a match the rewrite changes nothing |
| MySqlConvert.NoMatchWithoutMarker | database/convert-to-mysql.js:41-47 | a text without the marker has no match |
| MySqlConvert.EngineLeavesNone | database/convert-to-mysql.js:41-47 | after the rewrite no `);` followed by the marker is left |
| MySqlConvert.EngineKeepsAbsent | database/convert-to-mysql.js:41-47 | the rewrite creates no `q` that the clause cannot spell |
| MySqlConvert.Framing | database/convert-to-mysql.js:50-56 | the output starts with the header, carries the converted text unchanged between header and footer, and ends with the footer, whose last line is `COMMIT;` |
| MySqlConvert.ConvertedOutput | database/convert-to-mysql.js:13-56 | the output is the header, the converted text with no `REAL` in it, and the footer, ending with `COMMIT;` |
| MySqlConvert.RealRewriteLeavesNone | database/convert-to-mysql.js:36 | no `REAL` survives line 36 |
| MySqlConvert.TextRewriteLeavesNone | database/convert-to-mysql.js:37 | no `TEXT` survives line 37 |
| MySqlConvert.RealRewriteIdempotent | database/convert-to-mysql.js:36 | a second REAL rewrite changes nothing |
| MySqlConvert.TextRewriteIdempotent | database/convert-to-mysql.js:37 | a second TEXT rewrite changes nothing |
| MySqlConvert.IntegerFirstBreaksPhrase | database/convert-to-mysql.js:34-35 | rewriting INTEGER first would leave `INT PRIMARY KEY AUTOINCREMENT` and lose the phrase |
| MySqlConvert.MySqlAutoIncrementClean | database/convert-to-mysql.js:34-35 | the MySQL phrase gives line 35 nothing to rewrite |
| MySqlConvert.PhraseBecomesAutoIncrement | database/convert-to-mysql.js:34-35 | the first AUTOINCREMENT key comes out as `INT AUTO_INCREMENT PRIMARY KEY`, the text before it has only its `INTEGER`s shortened to `INT` (so an earlier `age INTEGER` is allowed), and the text after it is converted on its own |
| MySqlConvert.ReplaceSplit | database/convert-to-mysql.js:35 | a global replacement rewrites the two halves of a join apart when the second half starts with a character that occurs in the pattern only at its head |
| MySqlConvert.OutputHasNoReal | database/convert-to-mysql.js:34-47 | no `REAL` in the converted text |
| MySqlConvert.ClauseAtSectionEnd | database/convert-to-mysql.js:41 | `);`, whitespace and the marker get the clause between `)` and `;` |
| MySqlConvert.AddEngineIdempotent | database/convert-to-mysql.js:41-47 | a second clause rewrite changes nothing |
| MySqlConvert.MarkerExtension | database/convert-to-mysql.js:41-44 | a match of the orders marker is a match of the data marker |
| MySqlConvert.OrdersRewriteInert | database/convert-to-mysql.js:41-44 | line 44 never changes what line 41 produced |
| MySqlConvert.TypeRewritesKeepEndMarkerOut | database/convert-to-mysql.js:34-38 | the type rewrites write no end marker |
| MySqlConvert.EndRewriteNeedsInputMarker | database/convert-to-mysql.js:41-47 | without an end marker in the input, the clause rewrites are line 41 alone |
| MySqlConvert.OutputHasNoText | database/convert-to-mysql.js:37-47 | no `TEXT` is in the converted text unless a `TEX` sits directly before a DATETIME default |
| MySqlConvert.ReplaceKeepsNoText | database/convert-to-mysql.js:37-38 | a replacement starting with `T` spells no new `TEXT` when no `TEX` sits directly before a match |
| MySqlConvert.DateTimeRewriteCanSpellText | database/convert-to-mysql.js:37-38 | line 38 can spell a new `TEXT` after line 37 removed them all |
| MySqlConvert.ReplaceFirst | database/convert-to-mysql.js:34-38 | the first match after clean text is replaced and the rest converted on its own |
| MySqlConvert.DateTimeBecomesTimestamp | database/convert-to-mysql.js:38 | `DATETIME DEFAULT CURRENT_TIMESTAMP` becomes `TIMESTAMP DEFAULT CURRENT_TIMESTAMP` |
| MySqlConvert.RealBecomesDecimal | database/convert-to-mysql.js:36 | `REAL` becomes `DECIMAL(10,2)` |
| MySqlConvert.TextBecomesVarchar | database/convert-to-mysql.js:37 | `TEXT` becomes `VARCHAR(255)` |
| MySqlConvert.BareTail | database/convert-to-mysql.js:41-47 | a final `);` followed only by whitespace matches none of the three markers |
| MySqlConvert.LastTableMissesClause | database/convert-to-mysql.js:46-56 | as written, when the rewritten dump ends with `);` and white space, that `);` reaches the footer's end marker bare, whatever comes before it |
| MySqlConvert.BodyBeforeBareTail | database/convert-to-mysql.js:34-47 | when the type rewrites end with `);` and white space, the clause rewrites treat the text before it on its own and keep that tail |
| MySqlConvert.ClosingAtLineStart | database/convert-to-mysql.js:46-47 | the corrected last-table rewrite gives a final `);` (before white space) the clause exactly when it starts the text or a line, as a `CREATE TABLE`'s does in the dump, and leaves it alone after other text on its line, as an `INSERT`'s |
| MySqlConvert.EngineRewritesKeepLast | database/convert-to-mysql.js:41-47 | the clause rewrites map empty text to empty text and keep the last character of any other, so they cannot move a `);` on or off the start of its line |
| MySqlConvert.LastTableGetsClause | database/convert-to-mysql.js:46-56 | corrected, a converted text whose final `);` opens its line (the last `CREATE TABLE` of a dump with no data part after it) gets the ENGINE clause there, and everything before is converted as the script does |
| MySqlConvert.InsertClosingKept | database/convert-to-mysql.js:46-56 | corrected, a final `);` that follows other text on its line (an `INSERT`'s) gets no clause: the output is exactly the script's |
| MySqlConvert.TypeRewritesSplit | database/convert-to-mysql.js:34-38 | the type rewrites leave a tail starting with a line break or `)` and holding no `G`, `R`, `X` or `D` untouched and convert the text before it on its own |
| MySqlConvert.ReplaceKeepsLast | database/convert-to-mysql.js:34-38 | a global replacement of non-empty text ends with the text's own last character or with the replacement's |
| MySqlConvert.TypeRewritesOffLine | database/convert-to-mysql.js:34-38 | the type rewrites keep text that does not end with a line break from ending with one |
| MySqlConvert.DumpLastTableWithoutRows | database/convert-to-mysql.js:4-56 | on the exporter's dump (database/export.sql, export-to-sql.js:7) whose last table has no rows, the script's output ends in that `CREATE`'s bare `);`, a blank line and the footer, and the corrected output has the ENGINE clause at exactly that place, the two agreeing on everything before |
| MySqlConvert.DumpLastTableWithRows | database/convert-to-mysql.js:4-56 | on the exporter's dump whose last table has rows, the corrected output is the script's output: no clause is put into the last `INSERT` |
| Dump.DumpEndsWithCreate | database/export-to-sql.js:74-80 | when the last table has no rows, the dump ends with that table's column list, then `);` on its own line and a blank line |
| Dump.DumpEndsWithInsert | database/export-to-sql.js:80-98 | when the last table has rows, the dump ends with `);` and a blank line right after the last value of the last `INSERT`, on the same line |
| Dump.ValueOffLine | database/export-to-sql.js:85-94 | a value's text does not end with a line break (NULL, a quoted string, or a number whose text does not) |
| Dump.JoinOffLine | database/export-to-sql.js:96 | values joined by `, ` do not end with a line break when none of them does |
| MySqlConvert.ClauseBeforeFooter | database/convert-to-mysql.js:47-56 | with the footer in place, a final `);` and white space get the clause and the text before it is rewritten on its own |
| MySqlConvert.ClauseAtEnd | database/convert-to-mysql.js:47-56 | `);`, white space and the footer get the clause between `)` and `;` |
| MySqlConvert.MatchUnaffected | database/convert-to-mysql.js:41-47 | appending text that starts with `)` changes no match that starts before it |
| MySqlConvert.InsertBeforeParen | database/convert-to-mysql.js:41-47 | the rewrite of `x` followed by text starting with `)` is the two rewrites apart |
| MySqlConvert.BareTailKept | database/convert-to-mysql.js:41-47 | a final `);` and white space pass each marker rewrite unchanged, and the text before it is rewritten on its own |
| MySqlConvert.TypeRewritesIdentity | database/convert-to-mysql.js:34-38 | text without `G`, `R`, `X` or `D` passes the type rewrites unchanged |
| MySqlConvert.BareClosingExample | database/convert-to-mysql.js:46-56 | a dump that is `);` followed by white space (a blank line, say): bare as written, with the clause when fixed |

## Left out

- HTTP plumbing is not modelled: Express routing, JSON envelopes (`success`, `count`, `error`), `console` logging and the server in server.js. Each handler's reply is its status, message and returned row.
- Driver and file I/O is left out: opening and closing the connection, `fs.readFileSync`/`writeFileSync`, and the connection failures that reject the promise. The dump and the converted text are returned as strings.
- Clocks are parameters: `CURRENT_TIMESTAMP` is the `now` argument, and the ISO timestamps in the dump and MySQL headers are the `generatedOn` argument.
- SQLite's query plan and collations other than BINARY are not modelled. A SELECT is modelled by a scan in rowid order.
- Values.Bind: column type affinity is not modelled on insert or update. A value is stored with the type it was bound with, while SQLite turns text that reads as a number into a number in an INTEGER or REAL column. Two consequences follow, since server.js:11 also accepts form-encoded bodies, whose fields are all strings. (a) `POST /api/orders` with `user_id: "1"`: SQLite finds user 1 through the INTEGER affinity of `users.id` and answers 201; the model's `OrderRoutes.NamesUser` sees the text `"1"` and answers 400 "User not found". (b) A form-posted price `"10"` is stored by SQLite as the number 10, but by the model as the text `"10"`, and text compares above every number: the model's `minPrice` then keeps that product whatever the bound, and its `maxPrice` drops it whatever the bound, where SQLite compares 10 with the bound.
- Rows with equal `created_at` come back in an unspecified order; the model leaves their relative order open.
- Path ids are integers. A non-numeric `:id` matches no row, which the model gives as an id absent from the table.
- Text.ParseFloat: `Infinity` is not read, and the value is the exact rational the literal denotes, without rounding to a double or overflow to `Infinity`.
- Text.Upper: ASCII letters only. JavaScript's `toUpperCase` also maps other letters (`ı` to `I`, `ß` to `SS`, which changes the length); a column type spelled with such letters is outside the model.
- Text.IntegerAffinity: only a non-empty run of digits converts. SQLite's numeric affinity also converts `+1`, `1.0` and ` 1` to 1 (and `-1` to -1), so `?userId=+1` selects user 1's orders in SQLite and none in the model.
- Dump.ValueLiteral: the decimal text of a number is the `numText` parameter, because JavaScript's number-to-string conversion is floating point.
- Dump.ExportToSql: the table list and each table's `PRAGMA table_info` and rows are inputs. The `sqlite_master` query is not modelled.
- Dump.ExportToSql and MySqlConvert.ConvertToMySql share `database/export.sql` (export-to-sql.js:7 writes it, convert-to-mysql.js:4 reads it). Their composition is stated only at the dump's end, by MySqlConvert.DumpLastTableWithoutRows and MySqlConvert.DumpLastTableWithRows. What lines 41-44 do to the middle sections of a dump is not stated, because those rewrites also run over `INSERT` values, which may hold `);` followed by a data-table comment.
- MySqlConvert.DumpLastTableWithRows: it requires that the text of a number never end with a line break (Dump.NumbersOffLine), since that text is the `numText` parameter; JavaScript's number-to-string conversion never produces one.
- MySqlConvert.ReplaceAll models `replace` with a literal pattern only. That covers lines 34-38, whose patterns have no metacharacters. The `\s*` rewrites of lines 41-47 are MySqlConvert.InsertClause.
- MySqlConvert.OutputHasNoText: it requires that no `TEX` sit directly before a DATETIME default once line 37 has run, because MySqlConvert.DateTimeRewriteCanSpellText shows that such a `TEX` becomes `TEXT`.
- Tables without rows that are not last also keep a bare `);`: the next section starts with `-- Table structure for`, which no rewrite looks for. The corrected member covers only the last table, the case the script's comment addresses.
- Concurrency between requests is not modelled: each handler is one atomic step on the store.

## Findings

| source | as written | input that shows it | evidently intended | confidence | as-written member | corrected member |
|---|---|---|---|---|---|---|
| database/export-to-sql.js:64-65 | a text default is wrapped in quotes even though `PRAGMA table_info` already reports it with its quotes | the `orders.status` column, declared `DEFAULT 'pending'`, is dumped as `DEFAULT ''pending''` | the default is written as declared, `DEFAULT 'pending'` | not executed | Dump.QuotedDefaultMangled | Dump.DefaultClauseKeepsLiteral |
| database/convert-to-mysql.js:46-56 | the end-marker rewrite runs on the converted text, before the footer that holds the end marker is appended | a dump whose last table has no rows, e.g. `);` and a blank line: the output keeps `);` right before `-- End of MySQL Export` | the last `CREATE TABLE` gets the ENGINE clause when no data part follows it, and a last `INSERT` is left alone | not executed | MySqlConvert.LastTableMissesClause | MySqlConvert.DumpLastTableWithoutRows |

=== FILE: convert.dfy ===
/** database/convert-to-mysql.js: the SQLite dump rewritten for MySQL by a
    chain of global replacements, between a fixed header and footer. The
    timestamp in the header is an input. Every rewrite applies to the whole
    text, INSERT values included. */
module MySqlConvert {
  import opened Text
  import Dump

  // ---------------------------------------------------------------------
  // Global replacement of a literal pattern.

  /** `s.replace(/p/g, r)` for a pattern without metacharacters: matches
      are taken left to right and do not overlap. */
  function ReplaceAll(s: string, p: string, r: string): string
    requires p != []
    decreases |s|
  {
    if |s| < |p| then s
    else if s[..|p|] == p then r + ReplaceAll(s[|p|..], p, r)
    else [s[0]] + ReplaceAll(s[1..], p, r)
  }

  lemma ReplaceAtMatch(p: string, y: string, r: string)
    requires p != []
    ensures ReplaceAll(p + y, p, r) == r + ReplaceAll(y, p, r)
  {
    assert (p + y)[..|p|] == p;
    assert (p + y)[|p|..] == y;
  }

  /** A text without the pattern is left as it is. */
  lemma {:induction false} ReplaceAbsent(s: string, p: string, r: string)
    requires p != []
    requires !Contains(s, p)
    ensures ReplaceAll(s, p, r) == s
    decreases |s|
  {
    if |s| >= |p| {
      assert !OccursAt(s, p, 0);
      forall i | 0 <= i <= |s[1..]| ensures !OccursAt(s[1..], p, i) {
        OccursShift([s[0]], s[1..], p, i);
        assert [s[0]] + s[1..] == s;
      }
      ReplaceAbsent(s[1..], p, r);
      assert s == [s[0]] + s[1..];
    }
  }

  /** The output starts either with `r` or with the input's first
      character; so a prefix none of whose characters is `r[0]` is copied
      from the input. */
  lemma {:induction false} PrefixFromInput(u: string, p: string, r: string, w: string)
    requires p != [] && r != []
    requires r[0] !in w
    ensures StartsWith(ReplaceAll(u, p, r), w) ==> StartsWith(u, w)
    decreases |u|
  {
    if w != [] && |u| >= |p| {
      var out := ReplaceAll(u, p, r);
      if u[..|p|] == p {
        assert out[0] == r[0];
      } else {
        var rest := ReplaceAll(u[1..], p, r);
        assert out == [u[0]] + rest;
        PrefixFromInput(u[1..], p, r, w[1..]);
        if StartsWith(out, w) {
          assert rest[..|w| - 1] == out[1..|w|] == w[1..];
          assert u[..|w|] == [u[0]] + u[1..][..|w| - 1];
        }
      }
    }
  }

  /** The pattern is gone after its replacement, provided no occurrence
      can start inside an `r` (`p[0]` is not in `r`) and none can reach
      into one from the left (`r[0]` is not in the rest of `p`). */
  lemma {:induction false} ReplaceLeavesNone(s: string, p: string, r: string)
    requires p != [] && r != []
    requires p[0] !in r && r[0] !in p[1..]
    ensures !Contains(ReplaceAll(s, p, r), p)
    decreases |s|
  {
    var out := ReplaceAll(s, p, r);
    if |s| >= |p| {
      if s[..|p|] == p {
        var rest := ReplaceAll(s[|p|..], p, r);
        ReplaceLeavesNone(s[|p|..], p, r);
        forall i | 0 <= i <= |out| ensures !OccursAt(out, p, i) {
          if i < |r| {
            assert out[i] == r[i];
          } else {
            OccursShift(r, rest, p, i - |r|);
          }
        }
      } else {
        ReplaceLeavesNone(s[1..], p, r);
        PrefixFromInput(s[1..], p, r, p[1..]);
        assert out == [s[0]] + ReplaceAll(s[1..], p, r);
        assert s == [s[0]] + s[1..];
        ConsKeepsAbsent(s[0], ReplaceAll(s[1..], p, r), s[1..], p);
      }
    }
  }

  /** A replacement cannot create an occurrence of `q` when `r` holds none
      and neither end of `r` is a character of `q`. */
  lemma {:induction false} ReplaceKeepsAbsent(s: string, p: string, r: string, q: string)
    requires p != [] && r != [] && q != []
    requires r[0] !in q && r[|r| - 1] !in q
    requires !Contains(r, q)
    requires !Contains(s, q)
    ensures !Contains(ReplaceAll(s, p, r), q)
    decreases |s|
  {
    if |s| >= |p| {
      if s[..|p|] == p {
        var tail := s[|p|..];
        assert s == s[..|p|] + tail;
        AbsentInSuffix(s[..|p|], tail, q);
        ReplaceKeepsAbsent(tail, p, r, q);
        AbsentAcrossJoin(r, ReplaceAll(tail, p, r), q);
      } else {
        assert s == [s[0]] + s[1..];
        AbsentInSuffix([s[0]], s[1..], q);
        ReplaceKeepsAbsent(s[1..], p, r, q);
        PrefixFromInput(s[1..], p, r, q[1..]);
        AbsentAfterHead(s, ReplaceAll(s[1..], p, r), q);
      }
    }
  }

  /** A suffix of a string without `q` has no `q` either. */
  lemma AbsentInSuffix(a: string, b: string, q: string)
    requires !Contains(a + b, q)
    ensures !Contains(b, q)
  {
    forall i | 0 <= i <= |b| ensures !OccursAt(b, q, i) {
      OccursShift(a, b, q, i);
    }
  }

  /** Neither part holds `q`, and the last character of the first cannot
      be part of one: the whole holds none. */
  lemma AbsentAcrossJoin(r: string, rest: string, q: string)
    requires r != [] && r[|r| - 1] !in q
    requires !Contains(r, q) && !Contains(rest, q)
    ensures !Contains(r + rest, q)
  {
    var out := r + rest;
    forall i | 0 <= i <= |out| ensures !OccursAt(out, q, i) {
      if i + |q| <= |r| {
        assert !OccursAt(r, q, i);
        assert out[i..i + |q|] == r[i..i + |q|];
      } else if i < |r| {
        if i + |q| <= |out| {
          assert out[|r| - 1] == r[|r| - 1];
          assert out[i..i + |q|][|r| - 1 - i] == r[|r| - 1];
        }
      } else {
        OccursShift(r, rest, q, i - |r|);
      }
    }
  }

  /** `s[0]` followed by a text that starts with `q[1..]` only if `s[1..]`
      does: no `q` at the front unless `s` has one there. */
  lemma AbsentAfterHead(s: string, rest: string, q: string)
    requires s != [] && q != []
    requires !Contains(s, q) && !Contains(rest, q)
    requires StartsWith(rest, q[1..]) ==> StartsWith(s[1..], q[1..])
    ensures !Contains([s[0]] + rest, q)
  {
    var out := [s[0]] + rest;
    assert !OccursAt(s, q, 0);
    forall i | 0 <= i <= |out| ensures !OccursAt(out, q, i) {
      if i == 0 {
        if |q| <= |out| {
          assert out[0..|q|] == [s[0]] + rest[..|q| - 1];
          if |q| <= |s| {
            assert s[..|q|] == [s[0]] + s[1..][..|q| - 1];
            assert s[0..|q|] == s[..|q|];
          }
        }
      } else {
        OccursShift([s[0]], rest, q, i - 1);
      }
    }
  }


  /** No match of `p` starts anywhere in `x`, even one running past its
      end. */
  predicate Clean(x: string, p: string)
  {
    x == [] || (!Agrees(x, p) && Clean(x[1..], p))
  }

  /** `u` and `p` agree on their common length. */
  predicate Agrees(u: string, p: string)
  {
    if |u| <= |p| then p[..|u|] == u else u[..|p|] == p
  }

  lemma {:induction false} CleanWithoutHead(x: string, p: string)
    requires p != [] && p[0] !in x
    ensures Clean(x, p)
  {
    if x != [] {
      if |x| <= |p| {
        assert p[..|x|][0] == p[0];
      } else {
        assert x[..|p|][0] == x[0];
      }
      assert forall c :: c in x[1..] ==> c in x;
      CleanWithoutHead(x[1..], p);
    }
  }

  /** A text whose head disagrees with `p` does not start with `p`,
      whatever follows it. */
  lemma NoMatchAtHead(x: string, z: string, p: string)
    requires x != [] && !Agrees(x, p)
    ensures !StartsWith(x + z, p)
  {
    var s := x + z;
    if |p| <= |s| {
      if |x| <= |p| {
        assert s[..|p|][..|x|] == x;
      } else {
        assert s[..|p|] == x[..|p|];
      }
    }
  }

  /** Clean text in front of the rest passes through unchanged. */
  lemma {:induction false} ReplaceAfterClean(x: string, z: string, p: string, r: string)
    requires p != []
    requires Clean(x, p)
    ensures ReplaceAll(x + z, p, r) == x + ReplaceAll(z, p, r)
    decreases |x|
  {
    if x == [] {
      assert x + z == z;
    } else {
      ReplaceAfterClean(x[1..], z, p, r);
      NoMatchAtHead(x, z, p);
      ReplaceSkipsHead(x, z, p, r);
    }
  }

  /** No match at the front of `x + z`: its first character is copied. */
  lemma ReplaceSkipsHead(x: string, z: string, p: string, r: string)
    requires p != [] && x != []
    requires !StartsWith(x + z, p)
    requires ReplaceAll(x[1..] + z, p, r) == x[1..] + ReplaceAll(z, p, r)
    ensures ReplaceAll(x + z, p, r) == x + ReplaceAll(z, p, r)
  {
    var s := x + z;
    assert s[1..] == x[1..] + z;
    if |s| >= |p| {
      assert s[0] == x[0];
      assert ReplaceAll(s, p, r) == [s[0]] + ReplaceAll(s[1..], p, r);
      Associate([x[0]], x[1..], ReplaceAll(z, p, r));
      assert [x[0]] + x[1..] == x;
    } else {
      assert ReplaceAll(z, p, r) == z;
    }
  }


  // ---------------------------------------------------------------------
  // The engine clause: `t.replace(/\);(\s*marker)/g, ") ENGINE=…;$1")`.

  lemma EngineOptionsChars()
    ensures |EngineOptions| > 0 && EngineOptions[0] == ' '
    ensures ')' !in EngineOptions && ';' !in EngineOptions
  {
    OptionsParenFree();
    OptionsSemicolonFree();
  }

  lemma OptionsParenFree()
    ensures ')' !in EngineOptions
  {
    AbsentFromJoin(')', " ENGINE=InnoDB", " DEFAULT CHARSET=utf8mb4");
    AbsentFromJoin(')', " ENGINE=InnoDB" + " DEFAULT CHARSET=utf8mb4", " COLLATE=utf8mb4_unicode_ci");
  }

  lemma OptionsSemicolonFree()
    ensures ';' !in EngineOptions
  {
    AbsentFromJoin(';', " ENGINE=InnoDB", " DEFAULT CHARSET=utf8mb4");
    AbsentFromJoin(';', " ENGINE=InnoDB" + " DEFAULT CHARSET=utf8mb4", " COLLATE=utf8mb4_unicode_ci");
  }

  lemma OptionsDashFree()
    ensures '-' !in EngineOptions
  {
    AbsentFromJoin('-', " ENGINE=InnoDB", " DEFAULT CHARSET=utf8mb4");
    AbsentFromJoin('-', " ENGINE=InnoDB" + " DEFAULT CHARSET=utf8mb4", " COLLATE=utf8mb4_unicode_ci");
  }



  const EngineOptions := " ENGINE=InnoDB" + " DEFAULT CHARSET=utf8mb4" + " COLLATE=utf8mb4_unicode_ci"

  /** The regular expression matches at the front of `t`: `);`, then
      white space, then the marker. The marker never starts with white
      space, so backing off the greedy `\s*` cannot help. */
  predicate EngineMatch(t: string, m: string)
  {
    StartsWith(t, ");") && StartsWith(t[2 + SpaceRun(t[2..])..], m)
  }

  /** `InsertClause(t, m, EngineOptions)`. */
  function AddEngine(t: string, m: string): string
  {
    InsertClause(t, m, EngineOptions)
  }

  /** The clause goes between `)` and `;`. The white space and the marker
      the regular expression consumes are put back by `$1`; the scan here
      resumes right after `;`, which yields the same text because no match
      can start in white space or in a marker without `)`
      (`ResumeAfterMarker`). */
  function InsertClause(t: string, m: string, c: string): string
    decreases |t|
  {
    if t == [] then []
    else if EngineMatch(t, m) then ")" + c + ";" + InsertClause(t[2..], m, c)
    else [t[0]] + InsertClause(t[1..], m, c)
  }

  lemma NoMatchWithoutParen(t: string, m: string)
    requires t != [] && t[0] != ')'
    ensures !EngineMatch(t, m)
  {
    if |t| >= 2 {
      assert t[..2][0] == t[0];
    }
  }

  /** A first character other than `)` is copied. */
  lemma CopyFirst(w: string, v: string, m: string, c: string)
    requires w != [] && w[0] != ')'
    ensures InsertClause(w + v, m, c) == [w[0]] + InsertClause(w[1..] + v, m, c)
  {
    assert (w + v)[0] == w[0];
    NoMatchWithoutParen(w + v, m);
    assert (w + v)[1..] == w[1..] + v;
  }

  /** Text without `)` is copied as it stands. */
  lemma {:induction false} CopiesWithoutParen(w: string, v: string, m: string, c: string)
    requires ')' !in w
    ensures InsertClause(w + v, m, c) == w + InsertClause(v, m, c)
    decreases |w|
  {
    if w == [] {
      assert w + v == v;
    } else {
      CopyFirst(w, v, m, c);
      assert forall ch :: ch in w[1..] ==> ch in w;
      CopiesWithoutParen(w[1..], v, m, c);
      Associate([w[0]], w[1..], InsertClause(v, m, c));
      assert [w[0]] + w[1..] == w;
    }
  }

  /** Scanning on after the consumed white space and marker, as the
      regular expression does, gives the same text. */
  lemma {:induction false} ResumeAfterMarker(t: string, m: string, c: string)
    requires ')' !in m
    requires EngineMatch(t, m)
    ensures var n := 2 + SpaceRun(t[2..]) + |m|;
      n <= |t| && InsertClause(t, m, c) == ")" + c + ";" + t[2..n] + InsertClause(t[n..], m, c)
  {
    var n := 2 + SpaceRun(t[2..]) + |m|;
    var w := t[2..n];
    NoParenInMatch(t, m);
    assert t[2..] == w + t[n..];
    CopiesWithoutParen(w, t[n..], m, c);
    assert InsertClause(t, m, c) == ")" + c + ";" + InsertClause(t[2..], m, c);
    Associate(")" + c + ";", w, InsertClause(t[n..], m, c));
  }

  /** The white space and the marker of a match hold no `)`. */
  lemma NoParenInMatch(t: string, m: string)
    requires ')' !in m
    requires EngineMatch(t, m)
    ensures var n := 2 + SpaceRun(t[2..]) + |m|;
      n <= |t| && ')' !in t[2..n]
  {
    var k := SpaceRun(t[2..]);
    var n := 2 + k + |m|;
    var w := t[2..n];
    assert w == t[2..][..k] + m;
    forall ch | ch in w ensures ch != ')' {
      var i :| 0 <= i < |w| && w[i] == ch;
      if i < k {
        assert IsSpace(t[2..][i]);
      } else {
        assert w[i] == m[i - k];
      }
    }
  }


  /** The rewritten text starts with `)` where a clause went in; so a
      prefix without `)` is copied from the input. */
  lemma {:induction false} EnginePrefixFromInput(u: string, m: string, c: string, w: string)
    requires ')' !in w
    ensures StartsWith(InsertClause(u, m, c), w) ==> StartsWith(u, w)
    decreases |u|
  {
    if w != [] && u != [] {
      var out := InsertClause(u, m, c);
      if EngineMatch(u, m) {
        assert out[0] == ')';
      } else {
        var rest := InsertClause(u[1..], m, c);
        assert out == [u[0]] + rest;
        assert forall ch :: ch in w[1..] ==> ch in w;
        EnginePrefixFromInput(u[1..], m, c, w[1..]);
        if StartsWith(out, w) {
          assert rest[..|w| - 1] == out[1..|w|] == w[1..];
          assert u[..|w|] == [u[0]] + u[1..][..|w| - 1];
        }
      }
    }
  }

  /** No match of the regular expression starts anywhere in `t`. */
  predicate NoEngineMatch(t: string, m: string)
  {
    forall i :: 0 <= i <= |t| ==> !EngineMatch(t[i..], m)
  }

  lemma NoEngineMatchTail(t: string, m: string)
    requires t != [] && NoEngineMatch(t, m)
    ensures NoEngineMatch(t[1..], m) && !EngineMatch(t, m)
  {
    assert t[0..] == t;
    forall i | 0 <= i <= |t[1..]| ensures !EngineMatch(t[1..][i..], m) {
      assert t[1..][i..] == t[i + 1..];
    }
  }

  /** Without a match the rewrite changes nothing. */
  lemma {:induction false} EngineIdentity(t: string, m: string, c: string)
    requires NoEngineMatch(t, m)
    ensures InsertClause(t, m, c) == t
    decreases |t|
  {
    if t != [] {
      NoEngineMatchTail(t, m);
      EngineIdentity(t[1..], m, c);
      assert t == [t[0]] + t[1..];
    }
  }

  /** A text without the marker has no match. */
  lemma NoMatchWithoutMarker(t: string, m: string)
    requires !Contains(t, m)
    ensures NoEngineMatch(t, m)
  {
    forall i | 0 <= i <= |t| ensures !EngineMatch(t[i..], m) {
      var u := t[i..];
      if |u| >= 2 {
        var k := SpaceRun(u[2..]);
        assert !OccursAt(t, m, i + 2 + k);
        if |m| <= |u[2 + k..]| {
          assert u[2 + k..][..|m|] == t[i + 2 + k..i + 2 + k + |m|];
        }
      }
    }
  }

  /** The white-space run of a text is read off any prefix that ends in a
      character outside it. */
  lemma {:induction false} SpaceRunOfPrefix(v: string, w: string, k: nat)
    requires StartsWith(v, w) && k < |w|
    requires forall j :: 0 <= j < k ==> IsSpace(w[j])
    requires !IsSpace(w[k])
    ensures SpaceRun(v) == k
    decreases k
  {
    assert v[0] == w[0];
    if k > 0 {
      assert v[1..][..|w| - 1] == w[1..];
      SpaceRunOfPrefix(v[1..], w[1..], k - 1);
    }
  }

  /** A `);` in the output at a copied `)` was already in the input. */
  lemma {:induction false} SemicolonCopied(t: string, m: string, c: string)
    requires t != []
    ensures var out := [t[0]] + InsertClause(t[1..], m, c);
      StartsWith(out, ");") ==> StartsWith(t, ");") && out[2..] == InsertClause(t[2..], m, c)
  {
    var rest := InsertClause(t[1..], m, c);
    var out := [t[0]] + rest;
    if StartsWith(out, ");") {
      assert out[1] == ';' == rest[0];
      assert rest[..1] == [rest[0]];
      EnginePrefixFromInput(t[1..], m, c, ";");
      assert t[1] == ';';
      NoMatchWithoutParen(t[1..], m);
      assert t[1..][1..] == t[2..];
      assert rest == [';'] + InsertClause(t[2..], m, c);
      assert t[..2] == [t[0], t[1]];
    }
  }

  /** White space then the marker at the front of the output were copied
      from the input. */
  lemma {:induction false} MarkerCopied(v: string, m: string, c: string)
    requires m != [] && !IsSpace(m[0]) && ')' !in m
    ensures var u := InsertClause(v, m, c);
      StartsWith(u[SpaceRun(u)..], m) ==> StartsWith(v[SpaceRun(v)..], m)
  {
    var u := InsertClause(v, m, c);
    var k := SpaceRun(u);
    if StartsWith(u[k..], m) {
      var w := u[..k + |m|];
      assert w[k..] == m;
      forall ch | ch in w ensures ch != ')' {
        var j :| 0 <= j < |w| && w[j] == ch;
        if j < k {
          assert IsSpace(u[j]);
        } else {
          assert w[j] == m[j - k];
        }
      }
      EnginePrefixFromInput(v, m, c, w);
      assert w[k] == m[0];
      SpaceRunOfPrefix(v, w, k);
      assert v[k..][..|m|] == w[k..];
    }
  }

  /** A match in the output at a copied character was already a match in
      the input. */
  lemma {:induction false} MatchReflected(t: string, m: string, c: string)
    requires t != [] && m != [] && !IsSpace(m[0]) && ')' !in m
    ensures EngineMatch([t[0]] + InsertClause(t[1..], m, c), m) ==> EngineMatch(t, m)
  {
    var out := [t[0]] + InsertClause(t[1..], m, c);
    SemicolonCopied(t, m, c);
    if StartsWith(out, ");") {
      var u := InsertClause(t[2..], m, c);
      MarkerCopied(t[2..], m, c);
      assert out[2 + SpaceRun(u)..] == u[SpaceRun(u)..];
    }
  }

  /** The regular expression finds no match in its own output: applying
      the rewrite a second time changes nothing. */
  lemma {:induction false} EngineLeavesNone(t: string, m: string, c: string)
    requires m != [] && !IsSpace(m[0]) && ')' !in m
    requires c != [] && c[0] != ';' && ')' !in c
    ensures NoEngineMatch(InsertClause(t, m, c), m)
    decreases |t|
  {
    var out := InsertClause(t, m, c);
    if t != [] {
      if EngineMatch(t, m) {
        var head := ")" + c + ";";
        var rest := InsertClause(t[2..], m, c);
        assert out == head + rest;
        EngineLeavesNone(t[2..], m, c);
        forall i | 0 <= i <= |out| ensures !EngineMatch(out[i..], m) {
          if i == 0 {
            assert out[..2][1] == c[0];
          } else if i < |head| {
            assert head[i] == if i <= |c| then c[i - 1] else ';';
            assert out[i..][0] == head[i];
            NoMatchWithoutParen(out[i..], m);
          } else {
            assert out[i..] == rest[i - |head|..];
          }
        }
      } else {
        var rest := InsertClause(t[1..], m, c);
        assert out == [t[0]] + rest;
        EngineLeavesNone(t[1..], m, c);
        MatchReflected(t, m, c);
        forall i | 0 <= i <= |out| ensures !EngineMatch(out[i..], m) {
          if i == 0 {
            assert out[0..] == out;
          } else {
            assert out[i..] == rest[i - 1..];
          }
        }
      }
    }
  }

  /** The clause and its two delimiters hold no `q` and no `q` straddles
      them. */
  lemma ClauseKeepsAbsent(rest: string, q: string, c: string)
    requires q != [] && ')' !in q && ';' !in q
    requires !Contains(c, q)
    requires !Contains(rest, q)
    ensures !Contains(")" + c + ";" + rest, q)
  {
    var head := ")" + c + ";";
    var out := head + rest;
    forall i | 0 <= i <= |out| ensures !OccursAt(out, q, i) {
      if i + |q| <= |out| {
        if i == 0 {
          assert out[i..i + |q|][0] == ')';
        } else if i + |q| < |head| {
          assert !OccursAt(c, q, i - 1);
          assert out[i..i + |q|] == c[i - 1..i - 1 + |q|];
        } else if i < |head| {
          assert out[i..i + |q|][|head| - 1 - i] == out[|head| - 1] == ';';
        } else {
          OccursShift(head, rest, q, i - |head|);
        }
      }
    }
  }

  /** The rewrite cannot create an occurrence of a `q` that contains
      neither `)` nor `;` and does not occur in the clause. */
  lemma {:induction false} EngineKeepsAbsent(t: string, m: string, c: string, q: string)
    requires q != [] && ')' !in q && ';' !in q
    requires !Contains(c, q)
    requires !Contains(t, q)
    ensures !Contains(InsertClause(t, m, c), q)
    decreases |t|
  {
    if t != [] {
      if EngineMatch(t, m) {
        assert t == t[..2] + t[2..];
        AbsentInSuffix(t[..2], t[2..], q);
        EngineKeepsAbsent(t[2..], m, c, q);
        ClauseKeepsAbsent(InsertClause(t[2..], m, c), q, c);
      } else {
        assert t == [t[0]] + t[1..];
        AbsentInSuffix([t[0]], t[1..], q);
        EngineKeepsAbsent(t[1..], m, c, q);
        CopiedCharKeepsAbsent(t, m, c, q);
      }
    }
  }

  /** A character copied in front of a clean rewrite adds no occurrence. */
  lemma CopiedCharKeepsAbsent(t: string, m: string, c: string, q: string)
    requires t != [] && !EngineMatch(t, m)
    requires q != [] && ')' !in q
    requires !Contains(t, q)
    requires !Contains(InsertClause(t[1..], m, c), q)
    ensures !Contains(InsertClause(t, m, c), q)
  {
    assert forall ch :: ch in q[1..] ==> ch in q;
    EnginePrefixFromInput(t[1..], m, c, q[1..]);
    assert t == [t[0]] + t[1..];
    ConsKeepsAbsent(t[0], InsertClause(t[1..], m, c), t[1..], q);
  }

  /** An occurrence starting at the front of `[x] + rest` would start at
      the front of `[x] + u` too, when `rest` begins with the rest of `q`
      only if `u` does. */
  lemma ConsKeepsAbsent(x: char, rest: string, u: string, q: string)
    requires q != []
    requires !Contains(rest, q)
    requires StartsWith(rest, q[1..]) ==> StartsWith(u, q[1..])
    requires !OccursAt([x] + u, q, 0)
    ensures !Contains([x] + rest, q)
  {
    var out, q1 := [x] + rest, q[1..];
    forall i | 0 <= i <= |out| ensures !OccursAt(out, q, i) {
      if i == 0 {
        if |q| <= |out| {
          assert out[..|q|] == [x] + rest[..|q| - 1];
          assert OccursAt(out, q, 0) ==> StartsWith(rest, q1);
        }
        if |q| <= |u| + 1 {
          assert ([x] + u)[..|q|] == [x] + u[..|q| - 1];
          assert StartsWith(u, q1) && x == q[0] ==> OccursAt([x] + u, q, 0);
        }
      } else {
        OccursShift([x], rest, q, i - 1);
      }
    }
  }



  // ---------------------------------------------------------------------
  // The conversion chain.

  const AutoIncrementPhrase := "INTEGER" + " PRIMARY KEY AUTOINCREMENT"
  const MySqlAutoIncrement := "INT " + "AUTO_INCREMENT" + " PRIMARY KEY"
  const DefaultNow := " DEFAULT CURRENT_TIMESTAMP"
  const DateTimeDefault := "DATETIME" + DefaultNow
  const TimestampDefault := "TIMESTAMP" + DefaultNow
  const DataMarker := "-- Data for table"
  const OrdersMarker := "-- Data for table orders"
  const EndMarker := "-- End of MySQL Export"

  /** The phrase first, then every remaining INTEGER. */
  function IntegerRewrites(s: string): string
  {
    ReplaceAll(ReplaceAll(s, AutoIncrementPhrase, MySqlAutoIncrement), "INTEGER", "INT")
  }

  function RealRewrite(s: string): string
  {
    ReplaceAll(s, "REAL", "DECIMAL(10,2)")
  }

  function TextRewrite(s: string): string
  {
    ReplaceAll(s, "TEXT", "VARCHAR(255)")
  }

  function DateTimeRewrite(s: string): string
  {
    ReplaceAll(s, DateTimeDefault, TimestampDefault)
  }

  /** The clause before each data section, then before the orders data
      section, then before the end marker. */
  function EngineRewrites(s: string): string
  {
    AddEngine(AddEngine(AddEngine(s, DataMarker), OrdersMarker), EndMarker)
  }

  /** The type rewrites of lines 34-38, in order. */
  function TypeRewrites(s: string): string
  {
    DateTimeRewrite(TextRewrite(RealRewrite(IntegerRewrites(s))))
  }

  /** `convertedContent` at the end of the chain. */
  function ConvertBody(sqliteContent: string): string
  {
    EngineRewrites(TypeRewrites(sqliteContent))
  }

  /** The header, with the conversion time as an input. */
  function MySqlHeader(generatedOn: string): string
  {
    Join(HeaderLines(generatedOn), "\n") + "\n"
  }

  /** The lines of the header's template literal; the last one is empty. */
  function HeaderLines(generatedOn: string): seq<string>
  {
    [ "-- MySQL Database Export (Converted from SQLite)",
      "-- Generated on: " + generatedOn,
      "-- ",
      "-- This file contains MySQL-compatible SQL statements converted from SQLite",
      "-- ",
      "-- Usage:",
      "-- 1. Create a MySQL database",
      "-- 2. Run: mysql -u username -p database_name < mysql_export.sql",
      "-- ",
      "-- MySQL Settings:",
      "SET SQL_MODE = \"NO_AUTO_VALUE_ON_ZERO\";",
      "SET AUTOCOMMIT = 0;",
      "START TRANSACTION;",
      "SET time_zone = \"+00:00\";",
      "" ]
  }


  function Footer(): string
  {
    "\n" + EndMarker + "\n" + "COMMIT;\n"
  }

  /** `mysqlContent`: the header, the converted text, the footer. */
  function ConvertToMySql(generatedOn: string, sqliteContent: string): string
  {
    Framing(MySqlHeader(generatedOn), ConvertBody(sqliteContent))
  }

  /** Lines 13, 50 and 53: a header, then `+=` of the converted text, then
      `+=` of the footer. The converted text is found between the two,
      unchanged, and the output ends with `COMMIT;`. */
  function Framing(header: string, body: string): (r: string)
    ensures StartsWith(r, header)
    ensures |r| == |header| + |body| + |Footer()|
    ensures r[|header|..|r| - |Footer()|] == body
    ensures r[|r| - |Footer()|..] == Footer()
    ensures r[|r| - |"COMMIT;\n"|..] == "COMMIT;\n"
  {
    FooterEndsWithCommit();
    Framed(header, body, Footer(), "COMMIT;\n");
    header + body + Footer()
  }


  /** The three parts of `h + b + f` can be read back by slicing, and so
      can a tail `c` of `f`. */
  lemma Framed(h: string, b: string, f: string, c: string)
    requires |c| <= |f| && f[|f| - |c|..] == c
    ensures var r := h + b + f;
      && StartsWith(r, h) && |r| == |h| + |b| + |f|
      && r[|h|..|r| - |f|] == b && r[|r| - |f|..] == f
      && r[|r| - |c|..] == c
  {
    var r := h + b + f;
    assert r[..|h|] == h;
    assert r[|h|..|r| - |f|] == b;
    assert r[|r| - |f|..] == f;
    assert r[|r| - |c|..] == f[|f| - |c|..];
  }

  lemma FooterEndsWithCommit()
    ensures |"COMMIT;\n"| <= |Footer()| && Footer()[|Footer()| - |"COMMIT;\n"|..] == "COMMIT;\n"
  {
    var x := "\n" + EndMarker + "\n";
    assert Footer() == x + "COMMIT;\n";
    assert (x + "COMMIT;\n")[|x|..] == "COMMIT;\n";
  }


  /** The whole output: the header, then the converted text, free of
      `REAL`, then the footer, which ends with `COMMIT;`. */
  lemma ConvertedOutput(generatedOn: string, s: string)
    ensures var r, h := ConvertToMySql(generatedOn, s), MySqlHeader(generatedOn);
      && StartsWith(r, h)
      && |r| == |h| + |ConvertBody(s)| + |Footer()|
      && r[|h|..|r| - |Footer()|] == ConvertBody(s)
      && !Contains(r[|h|..|r| - |Footer()|], "REAL")
      && r[|r| - |"COMMIT;\n"|..] == "COMMIT;\n"
  {
    OutputHasNoReal(s);
  }

  /** After line 36 no `REAL` is left. */
  lemma RealRewriteLeavesNone(s: string)
    ensures !Contains(RealRewrite(s), "REAL")
  {
    ReplaceLeavesNone(s, "REAL", "DECIMAL(10,2)");
  }

  /** After line 37 no `TEXT` is left. */
  lemma TextRewriteLeavesNone(s: string)
    ensures !Contains(TextRewrite(s), "TEXT")
  {
    ReplaceLeavesNone(s, "TEXT", "VARCHAR(255)");
  }

  /** Converting the type of a column twice is converting it once. */
  lemma RealRewriteIdempotent(s: string)
    ensures RealRewrite(RealRewrite(s)) == RealRewrite(s)
  {
    RealRewriteLeavesNone(s);
    ReplaceAbsent(RealRewrite(s), "REAL", "DECIMAL(10,2)");
  }

  lemma TextRewriteIdempotent(s: string)
    ensures TextRewrite(TextRewrite(s)) == TextRewrite(s)
  {
    TextRewriteLeavesNone(s);
    ReplaceAbsent(TextRewrite(s), "TEXT", "VARCHAR(255)");
  }

  /** Why the phrase is rewritten before the bare keyword: had `INTEGER`
      gone first, the phrase would come out as `INT PRIMARY KEY
      AUTOINCREMENT`, which MySQL does not accept. */
  lemma IntegerFirstBreaksPhrase()
    ensures ReplaceAll(AutoIncrementPhrase, "INTEGER", "INT") == "INT" + " PRIMARY KEY AUTOINCREMENT"
    ensures !Contains(ReplaceAll(AutoIncrementPhrase, "INTEGER", "INT"), AutoIncrementPhrase)
  {
    PhraseAroundG();
    AbsentCharExcludes(" PRIMARY KEY AUTOINCREMENT", "INTEGER", 'G');
    ReplaceOnceAtHead("INTEGER", " PRIMARY KEY AUTOINCREMENT", "INT");
    AbsentFromJoin('G', "INT", " PRIMARY KEY AUTOINCREMENT");
    AbsentCharExcludes("INT" + " PRIMARY KEY AUTOINCREMENT", AutoIncrementPhrase, 'G');
  }

  /** The phrase is the keyword and its tail; only the keyword has a `G`. */
  lemma PhraseAroundG()
    ensures AutoIncrementPhrase == "INTEGER" + " PRIMARY KEY AUTOINCREMENT"
    ensures 'G' in "INTEGER" && 'G' in AutoIncrementPhrase
    ensures 'G' !in "INT" && 'G' !in " PRIMARY KEY AUTOINCREMENT"
  {
    assert "INTEGER"[4] == 'G';
  }

  /** A text that starts with `p` and holds no other `p`. */
  lemma ReplaceOnceAtHead(p: string, tail: string, r: string)
    requires p != [] && !Contains(tail, p)
    ensures ReplaceAll(p + tail, p, r) == r + tail
  {
    ReplaceAtMatch(p, tail, r);
    ReplaceAbsent(tail, p, r);
  }


  /** No window of `a + b` agrees with `p` when none of `a` or of `b`
      does: a window reaching into `b` agrees only if its part in `a`
      already did. */
  lemma {:induction false} CleanConcat(a: string, b: string, p: string)
    requires Clean(a, p) && Clean(b, p)
    ensures Clean(a + b, p)
    decreases |a|
  {
    if a == [] {
      assert a + b == b;
    } else {
      assert (a + b)[1..] == a[1..] + b;
      CleanConcat(a[1..], b, p);
      var u := a + b;
      if |u| <= |p| {
        assert p[..|a|] == p[..|u|][..|a|] by {
          if p[..|u|] == u { assert u[..|a|] == a; }
        }
      } else if |a| <= |p| {
        assert u[..|p|][..|a|] == a;
      } else {
        assert u[..|p|] == a[..|p|];
      }
    }
  }

  lemma MySqlAutoIncrementClean()
    ensures Clean(MySqlAutoIncrement, "INTEGER")
  {
    assert "AUTO_" + "INCREMENT" == "AUTO_INCREMENT";
    assert " PR" + "IMARY KEY" == " PRIMARY KEY";
    CleanOfPieces("INT ", "AUTO_", "INCREMENT", " PR", "IMARY KEY", "INTEGER");
  }

  /** The shape of `INT AUTO_INCREMENT PRIMARY KEY` against `INTEGER`:
      five pieces, each starting either without `p[0]` or with a
      mismatch just after it. */
  lemma {:induction false} CleanOfPieces(a: string, b: string, c: string, d: string, e: string, p: string)
    requires 3 < |a| && 3 < |p| && a[3] != p[3] && p[0] !in a[1..]
    requires p[0] !in b && p[0] !in d
    requires 2 < |c| && c[2] != p[2] && p[0] !in c[1..]
    requires 1 < |e| && e[1] != p[1] && p[0] !in e[1..]
    ensures Clean(a + (b + c) + (d + e), p)
  {
    CleanPiece(a, p, 3);
    CleanWithoutHead(b, p);
    CleanPiece(c, p, 2);
    CleanWithoutHead(d, p);
    CleanPiece(e, p, 1);
    CleanConcat(b, c, p);
    CleanConcat(d, e, p);
    CleanConcat(a, b + c, p);
    CleanConcat(a + (b + c), d + e, p);
  }

  /** A piece whose head does not start `p` and whose rest holds no
      first character of `p`. */
  lemma CleanPiece(x: string, p: string, j: nat)
    requires j < |x| && j < |p| && x[j] != p[j]
    requires p[0] !in x[1..]
    ensures Clean(x, p)
  {
    CleanWithoutHead(x[1..], p);
    if |x| <= |p| {
      assert p[..|x|][j] != x[j];
    } else {
      assert x[..|p|][j] != p[j];
    }
  }


  /** A column declared `INTEGER PRIMARY KEY AUTOINCREMENT` comes out as
      `INT AUTO_INCREMENT PRIMARY KEY`; the text before it only has its
      other `INTEGER`s shortened (as in the `age INTEGER` column ahead of
      the later tables' keys), and the text after it is converted on its
      own. */
  lemma PhraseBecomesAutoIncrement(x: string, y: string)
    requires Clean(x, AutoIncrementPhrase)
    ensures IntegerRewrites(x + AutoIncrementPhrase + y)
         == ReplaceAll(x, "INTEGER", "INT") + MySqlAutoIncrement + IntegerRewrites(y)
  {
    var z := ReplaceAll(y, AutoIncrementPhrase, MySqlAutoIncrement);
    ReplaceFirst(x, AutoIncrementPhrase, y, MySqlAutoIncrement);
    MySqlAutoIncrementClean();
    MySqlAutoIncrementHead();
    Associate(x, MySqlAutoIncrement, z);
    ReplaceSplit(x, MySqlAutoIncrement + z, "INTEGER", "INT");
    ReplaceAfterClean(MySqlAutoIncrement, z, "INTEGER", "INT");
    Associate(ReplaceAll(x, "INTEGER", "INT"), MySqlAutoIncrement, ReplaceAll(z, "INTEGER", "INT"));
  }

  /** `INT AUTO_INCREMENT PRIMARY KEY` starts with the one character that
      `INTEGER` never repeats after its head. */
  lemma MySqlAutoIncrementHead()
    ensures MySqlAutoIncrement != [] && MySqlAutoIncrement[0] !in "INTEGER"[1..]
  {
    assert MySqlAutoIncrement[0] == 'I';
    assert "INTEGER"[1..] == "NTEGER";
  }

  /** No match can straddle the join when the second part starts with a
      character that only the first position of `p` may hold: the two
      parts are rewritten apart. */
  lemma {:induction false} ReplaceSplit(x: string, w: string, p: string, r: string)
    requires p != [] && w != [] && w[0] !in p[1..]
    ensures ReplaceAll(x + w, p, r) == ReplaceAll(x, p, r) + ReplaceAll(w, p, r)
    decreases |x|
  {
    var s := x + w;
    if x == [] {
      assert s == w;
    } else if |x| >= |p| {
      assert s[..|p|] == x[..|p|];
      if x[..|p|] == p {
        assert s[|p|..] == x[|p|..] + w;
        ReplaceSplit(x[|p|..], w, p, r);
      } else {
        assert s[1..] == x[1..] + w;
        ReplaceSplit(x[1..], w, p, r);
      }
    } else {
      ReplaceSplit(x[1..], w, p, r);
      if |s| >= |p| {
        StraddleMisses(x, w, p);
        assert s[1..] == x[1..] + w;
      } else {
        assert ReplaceAll(w, p, r) == w;
      }
    }
  }

  /** A window of `x + w` starting in a short `x` holds `w[0]` at a place
      of `p` after its head, so it is not `p`. */
  lemma StraddleMisses(x: string, w: string, p: string)
    requires x != [] && w != [] && |x| < |p| <= |x + w| && w[0] !in p[1..]
    ensures (x + w)[..|p|] != p
  {
    assert (x + w)[..|p|][|x|] == w[0];
    assert p[|x|] == p[1..][|x| - 1];
  }


  lemma TimestampHasNoReal()
    ensures !Contains(TimestampDefault, "REAL")
  {
    TimestampAroundL();
    NoRealAt(TimestampDefault, 'L', 3, "TIMESTAMP" + " DEFAU", "T CURRENT_TIMESTAMP");
  }

  /** The one `L` of the column type, with the text on either side. */
  lemma TimestampAroundL()
    ensures TimestampDefault == "TIMESTAMP" + " DEFAU" + ['L'] + "T CURRENT_TIMESTAMP"
    ensures 'L' !in "TIMESTAMP" + " DEFAU" && 'L' !in "T CURRENT_TIMESTAMP"
    ensures ("TIMESTAMP" + " DEFAU")[|"TIMESTAMP" + " DEFAU"| - 1] == 'U'
  {
  }

  lemma EngineOptionsHasNoReal()
    ensures !Contains(EngineOptions, "REAL")
  {
    EngineAroundR();
    EngineSidesWithoutR();
    NoRealAt(EngineOptions, 'R', 0, " ENGINE=InnoDB" + " DEFAULT CHA", "SET=utf8mb4" + " COLLATE=utf8mb4_unicode_ci");
  }

  /** The one `R` of the table options, with the text on either side. */
  lemma EngineAroundR()
    ensures EngineOptions == " ENGINE=InnoDB" + " DEFAULT CHA" + ['R'] + ("SET=utf8mb4" + " COLLATE=utf8mb4_unicode_ci")
    ensures ("SET=utf8mb4" + " COLLATE=utf8mb4_unicode_ci")[0] == 'S'
  {
  }

  lemma EngineSidesWithoutR()
    ensures 'R' !in " ENGINE=InnoDB" + " DEFAULT CHA"
    ensures 'R' !in "SET=utf8mb4" + " COLLATE=utf8mb4_unicode_ci"
  {
    AbsentFromJoin('R', " ENGINE=InnoDB", " DEFAULT CHA");
    AbsentFromJoin('R', "SET=utf8mb4", " COLLATE=utf8mb4_unicode_ci");
  }

  lemma AbsentFromJoin(c: char, x: string, y: string)
    requires c !in x && c !in y
    ensures c !in x + y
  {
  }

  /** `c` occurs once, as letter `j` of `REAL`, and the window around it
      differs from `REAL` at the first letter after or before it. */
  lemma NoRealAt(s: string, c: char, j: int, a: string, b: string)
    requires s == a + [c] + b
    requires 0 <= j < 4 && "REAL"[j] == c && c !in a && c !in b
    requires j < 3 ==> |b| > 0 && b[0] != "REAL"[j + 1]
    requires j == 3 ==> |a| > 0 && a[|a| - 1] != 'A'
    ensures !Contains(s, "REAL")
  {
    var i := |a| - j;
    if 0 <= i && i + 4 <= |s| {
      if j < 3 {
        assert s[i..i + 4][j + 1] == b[0];
      } else {
        assert s[i..i + 4][2] == a[|a| - 1];
      }
    }
    OnlyCandidate(a, c, b, "REAL", j);
  }

  /** No `REAL` survives the conversion: line 36 removes every one and no
      later rewrite spells one. */
  lemma {:induction false} OutputHasNoReal(s: string)
    ensures !Contains(ConvertBody(s), "REAL")
  {
    var t3 := RealRewrite(IntegerRewrites(s));
    RealRewriteLeavesNone(IntegerRewrites(s));
    AbsentCharExcludes("VARCHAR(255)", "REAL", 'E');
    ReplaceKeepsAbsent(t3, "TEXT", "VARCHAR(255)", "REAL");
    var t4 := TextRewrite(t3);
    TimestampHasNoReal();
    ReplaceKeepsAbsent(t4, DateTimeDefault, TimestampDefault, "REAL");
    var t5 := DateTimeRewrite(t4);
    EngineOptionsHasNoReal();
    EngineKeepsAbsent(t5, DataMarker, EngineOptions, "REAL");
    EngineKeepsAbsent(AddEngine(t5, DataMarker), OrdersMarker, EngineOptions, "REAL");
    EngineKeepsAbsent(AddEngine(AddEngine(t5, DataMarker), OrdersMarker), EndMarker, EngineOptions, "REAL");
  }

  /** Where the dump ends a `CREATE TABLE` with `);`, blank lines and the
      marker, the clause goes between the parenthesis and the semicolon
      and the blank lines and the marker are kept. */
  lemma {:induction false} ClauseAtSectionEnd(x: string, ws: string, m: string, y: string, c: string)
    requires ')' !in x
    requires forall j :: 0 <= j < |ws| ==> IsSpace(ws[j])
    requires m != [] && !IsSpace(m[0]) && ')' !in m
    ensures InsertClause(x + ");" + ws + m + y, m, c) == x + ")" + c + ";" + ws + m + InsertClause(y, m, c)
  {
    var t := ");" + ws + m + y;
    assert x + ");" + ws + m + y == x + t;
    CopiesWithoutParen(x, t, m, c);
    ClauseAtMatch(ws, m, y, c);
    RegroupClause(x, ")", c, ";", ws, m, InsertClause(y, m, c));
  }

  lemma RegroupClause(x: string, a: string, c: string, b: string, ws: string, m: string, i: string)
    ensures x + (a + c + b + (ws + m) + i) == x + a + c + b + ws + m + i
  {
  }

  /** The clause rewrite at a match whose white space is `ws`. */
  lemma ClauseAtMatch(ws: string, m: string, y: string, c: string)
    requires forall j :: 0 <= j < |ws| ==> IsSpace(ws[j])
    requires m != [] && !IsSpace(m[0]) && ')' !in m
    ensures InsertClause(");" + ws + m + y, m, c) == ")" + c + ";" + (ws + m) + InsertClause(y, m, c)
  {
    MatchAtSectionEnd(ws, m, y);
    ResumeAfterMarker(");" + ws + m + y, m, c);
  }


  lemma {:induction false} MatchAtSectionEnd(ws: string, m: string, y: string)
    requires forall j :: 0 <= j < |ws| ==> IsSpace(ws[j])
    requires m != [] && !IsSpace(m[0])
    ensures var t := ");" + ws + m + y;
      SpaceRun(t[2..]) == |ws| && EngineMatch(t, m)
    ensures var t := ");" + ws + m + y;
      t[2..2 + |ws| + |m|] == ws + m && t[2 + |ws| + |m|..] == y
  {
    var t := ");" + ws + m + y;
    var w := ws + [m[0]];
    assert t[2..] == ws + m + y;
    assert (ws + m + y)[..|w|] == w;
    SpaceRunOfPrefix(t[2..], w, |ws|);
    assert t[2 + |ws|..] == m + y;
    assert t[..2] == ");";
    assert t == ");" + (ws + m) + y;
  }

  /** The markers the conversion looks for. */
  lemma MarkerChars(m: string)
    requires m == DataMarker || m == OrdersMarker || m == EndMarker
    ensures m != [] && !IsSpace(m[0]) && ')' !in m && ';' !in m
  {
  }

  lemma EngineOptionsShape()
    ensures EngineOptions != [] && EngineOptions[0] != ';' && ')' !in EngineOptions
  {
    EngineOptionsChars();
  }

  /** Adding the clause a second time changes nothing. */
  lemma {:induction false} AddEngineIdempotent(t: string, m: string)
    requires m == DataMarker || m == OrdersMarker || m == EndMarker
    ensures AddEngine(AddEngine(t, m), m) == AddEngine(t, m)
  {
    MarkerChars(m);
    EngineOptionsShape();
    EngineLeavesNone(t, m, EngineOptions);
    EngineIdentity(AddEngine(t, m), m, EngineOptions);
  }

  /** A match of a longer marker is a match of its prefix. */
  lemma MarkerExtension(u: string, m: string, m2: string)
    requires StartsWith(m2, m)
    ensures EngineMatch(u, m2) ==> EngineMatch(u, m)
  {
    if EngineMatch(u, m2) {
      var v := u[2 + SpaceRun(u[2..])..];
      assert v[..|m|] == v[..|m2|][..|m|];
    }
  }

  /** The rewrite of line 44 never fires: every orders data section is a
      data section, already handled by line 41. */
  lemma {:induction false} OrdersRewriteInert(t: string)
    ensures AddEngine(AddEngine(t, DataMarker), OrdersMarker) == AddEngine(t, DataMarker)
  {
    var u := AddEngine(t, DataMarker);
    MarkerChars(DataMarker);
    EngineOptionsShape();
    EngineLeavesNone(t, DataMarker, EngineOptions);
    assert OrdersMarker == DataMarker + " orders";
    forall i | 0 <= i <= |u| ensures !EngineMatch(u[i..], OrdersMarker) {
      MarkerExtension(u[i..], DataMarker, OrdersMarker);
    }
    EngineIdentity(u, OrdersMarker, EngineOptions);
  }

  /** A replacement free of `-` that neither starts nor ends with a
      character of the end marker. */
  predicate EndMarkerSafe(r: string)
  {
    r != [] && '-' !in r && r[0] !in EndMarker && r[|r| - 1] !in EndMarker
  }

  /** Such a replacement writes no end marker. */
  lemma StepKeepsEndMarkerOut(s: string, p: string, r: string)
    requires p != [] && EndMarkerSafe(r)
    requires !Contains(s, EndMarker)
    ensures !Contains(ReplaceAll(s, p, r), EndMarker)
  {
    AbsentCharExcludes(r, EndMarker, '-');
    ReplaceKeepsAbsent(s, p, r, EndMarker);
  }

  lemma AutoIncrementSafe()
    ensures EndMarkerSafe(MySqlAutoIncrement)
  {
  }

  lemma IntSafe()
    ensures EndMarkerSafe("INT")
  {
  }

  lemma DecimalSafe()
    ensures EndMarkerSafe("DECIMAL(10,2)")
  {
  }

  lemma VarcharSafe()
    ensures EndMarkerSafe("VARCHAR(255)")
  {
  }

  lemma TimestampSafe()
    ensures EndMarkerSafe(TimestampDefault)
  {
  }

  lemma IntegerRewritesKeepEndMarkerOut(s: string)
    requires !Contains(s, EndMarker)
    ensures !Contains(IntegerRewrites(s), EndMarker)
  {
    AutoIncrementSafe();
    IntSafe();
    StepKeepsEndMarkerOut(s, AutoIncrementPhrase, MySqlAutoIncrement);
    StepKeepsEndMarkerOut(ReplaceAll(s, AutoIncrementPhrase, MySqlAutoIncrement), "INTEGER", "INT");
  }

  /** The type rewrites of lines 34-38 write no end marker. */
  lemma {:induction false} TypeRewritesKeepEndMarkerOut(s: string)
    requires !Contains(s, EndMarker)
    ensures !Contains(TypeRewrites(s), EndMarker)
  {
    DecimalSafe();
    VarcharSafe();
    TimestampSafe();
    IntegerRewritesKeepEndMarkerOut(s);
    StepKeepsEndMarkerOut(IntegerRewrites(s), "REAL", "DECIMAL(10,2)");
    StepKeepsEndMarkerOut(RealRewrite(IntegerRewrites(s)), "TEXT", "VARCHAR(255)");
    StepKeepsEndMarkerOut(TextRewrite(RealRewrite(IntegerRewrites(s))), DateTimeDefault, TimestampDefault);
  }

  /** The rewrite of line 47 fires only on an end marker that came with
      the input: no earlier rewrite writes one. Without one, the engine
      step is the rewrite of line 41 alone. */
  lemma {:induction false} EndRewriteNeedsInputMarker(s: string)
    requires !Contains(s, EndMarker)
    ensures ConvertBody(s) == AddEngine(TypeRewrites(s), DataMarker)
  {
    var t5 := TypeRewrites(s);
    TypeRewritesKeepEndMarkerOut(s);
    EndMarkerChars();
    EngineKeepsAbsent(t5, DataMarker, EngineOptions, EndMarker);
    var t6 := AddEngine(t5, DataMarker);
    EngineKeepsAbsent(t6, OrdersMarker, EngineOptions, EndMarker);
    var t7 := AddEngine(t6, OrdersMarker);
    NoMatchWithoutMarker(t7, EndMarker);
    EngineIdentity(t7, EndMarker, EngineOptions);
    OrdersRewriteInert(t5);
  }

  /** The end marker has neither `)` nor `;`, and the table options do
      not spell it. */
  lemma EndMarkerChars()
    ensures EndMarker != [] && ')' !in EndMarker && ';' !in EndMarker
    ensures !Contains(EngineOptions, EndMarker)
  {
    OptionsDashFree();
    AbsentCharExcludes(EngineOptions, EndMarker, '-');
  }

  /** No `TEX` directly before an occurrence of `p`. */
  predicate NoTexBefore(s: string, p: string)
  {
    forall i :: 3 <= i <= |s| && OccursAt(s, p, i) ==> s[i - 3..i] != "TEX"
  }

  /** The first character of a replacement's output: `r[0]` at a match,
      else the input's first character, copied. */
  lemma ReplaceHead(u: string, p: string, r: string)
    requires p != [] && r != [] && u != []
    ensures ReplaceAll(u, p, r) != []
    ensures StartsWith(u, p) ==> ReplaceAll(u, p, r)[0] == r[0]
    ensures !StartsWith(u, p) ==> ReplaceAll(u, p, r) == [u[0]] + ReplaceAll(u[1..], p, r)
  {
    if |u| < |p| {
      assert u == [u[0]] + u[1..];
    }
  }

  /** A string without `q` keeps none after one more character, unless
      the whole starts with `q`. */
  lemma AbsentAfterChar(x: char, rest: string, q: string)
    requires q != [] && !Contains(rest, q)
    requires !StartsWith([x] + rest, q)
    ensures !Contains([x] + rest, q)
  {
    var out := [x] + rest;
    forall i | 0 <= i <= |out| ensures !OccursAt(out, q, i) {
      if i > 0 {
        OccursShift([x], rest, q, i - 1);
      }
    }
  }

  /** Where the input does not start with `p`, the output starts with
      `TEXT` only if the input starts with `TEXT`, or with `TEX` followed
      by `p` (whose replacement starts with `T`). */
  lemma NoTextAtHead(s: string, p: string, r: string)
    requires p != [] && r != [] && r[0] == 'T'
    requires s != [] && !StartsWith(s, p)
    requires !StartsWith(s, "TEXT")
    requires StartsWith(s, "TEX") ==> !OccursAt(s, p, 3)
    ensures !StartsWith(ReplaceAll(s, p, r), "TEXT")
  {
    ReplaceHead(s, p, r);
    assert "TEXT"[1..] == "EXT";
    ConsStartsWith(s[0], ReplaceAll(s[1..], p, r), "TEXT");
    if s[0] == 'T' && |s| > 1 {
      HeadShift(s, "TEXT");
      HeadShift(s, "TEX");
      assert "TEX"[1..] == "EX";
      assert [s[0]] + s[1..] == s;
      OccursShift([s[0]], s[1..], p, 2);
      NoExtAtHead(s[1..], p, r);
    }
  }

  /** The output of `u` starts with `EXT` only if `u` starts with `EXT`,
      or with `EX` followed by a match of `p`. */
  lemma NoExtAtHead(u: string, p: string, r: string)
    requires p != [] && r != [] && r[0] == 'T' && u != []
    requires !StartsWith(u, "EXT")
    requires StartsWith(u, "EX") ==> !OccursAt(u, p, 2)
    ensures !StartsWith(ReplaceAll(u, p, r), "EXT")
  {
    ReplaceHead(u, p, r);
    if !StartsWith(u, p) {
      assert "EXT"[1..] == "XT";
      ConsStartsWith(u[0], ReplaceAll(u[1..], p, r), "EXT");
      if u[0] == 'E' && |u| > 1 {
        HeadShift(u, "EXT");
        HeadShift(u, "EX");
        assert "EX"[1..] == "X";
        assert [u[0]] + u[1..] == u;
        OccursShift([u[0]], u[1..], p, 1);
        NoXtAtHead(u[1..], p, r);
      }
    }
  }

  /** The output of `u` starts with `XT` only if `u` starts with `XT`, or
      with `X` followed by a match of `p`. */
  lemma NoXtAtHead(u: string, p: string, r: string)
    requires p != [] && r != [] && r[0] == 'T' && u != []
    requires !StartsWith(u, "XT")
    requires StartsWith(u, "X") ==> !OccursAt(u, p, 1)
    ensures !StartsWith(ReplaceAll(u, p, r), "XT")
  {
    ReplaceHead(u, p, r);
    if !StartsWith(u, p) {
      assert "XT"[1..] == "T";
      ConsStartsWith(u[0], ReplaceAll(u[1..], p, r), "XT");
      if u[0] == 'X' && |u| > 1 {
        HeadShift(u, "XT");
        assert [u[0]] + u[1..] == u;
        OccursShift([u[0]], u[1..], p, 0);
        var v := u[1..];
        assert OccursAt(v, p, 0) <==> StartsWith(v, p) by {
          if |p| <= |v| { assert v[0..|p|] == v[..|p|]; }
        }
        ReplaceHead(v, p, r);
        ConsStartsWith(v[0], ReplaceAll(v[1..], p, r), "T");
      }
    }
  }

  /** A string starts with `q` when its head is `q`'s and its tail starts
      with the rest of `q`. */
  lemma HeadShift(s: string, q: string)
    requires s != [] && q != []
    ensures StartsWith(s, q) <==> s[0] == q[0] && StartsWith(s[1..], q[1..])
  {
    assert s == [s[0]] + s[1..];
    ConsStartsWith(s[0], s[1..], q);
  }

  lemma ConsStartsWith(x: char, o: string, q: string)
    requires q != []
    ensures StartsWith([x] + o, q) <==> x == q[0] && StartsWith(o, q[1..])
  {
    if |q| <= |o| + 1 {
      assert ([x] + o)[..|q|] == [x] + o[..|q| - 1];
      assert q == [q[0]] + q[1..];
    }
  }

  /** `TEX` before an occurrence of `p` in a suffix is `TEX` before one
      in the whole. */
  lemma NoTexInSuffix(a: string, b: string, p: string)
    requires NoTexBefore(a + b, p)
    ensures NoTexBefore(b, p)
  {
    forall i | 3 <= i <= |b| && OccursAt(b, p, i) ensures b[i - 3..i] != "TEX" {
      OccursShift(a, b, p, i);
      assert (a + b)[|a| + i - 3..|a| + i] == b[i - 3..i];
    }
  }

  /** A replacement starting with `T` and ending outside `TEXT` spells no
      new `TEXT`, provided no `TEX` sits directly before a match. */
  lemma {:induction false} ReplaceKeepsNoText(s: string, p: string, r: string)
    requires p != [] && r != [] && r[0] == 'T' && r[|r| - 1] !in "TEXT"
    requires !Contains(r, "TEXT")
    requires !Contains(s, "TEXT") && NoTexBefore(s, p)
    ensures !Contains(ReplaceAll(s, p, r), "TEXT")
    decreases |s|
  {
    if |s| >= |p| {
      if s[..|p|] == p {
        var tail := s[|p|..];
        assert s == s[..|p|] + tail;
        AbsentInSuffix(s[..|p|], tail, "TEXT");
        NoTexInSuffix(s[..|p|], tail, p);
        ReplaceKeepsNoText(tail, p, r);
        AbsentAcrossJoin(r, ReplaceAll(tail, p, r), "TEXT");
      } else {
        assert s == [s[0]] + s[1..];
        AbsentInSuffix([s[0]], s[1..], "TEXT");
        NoTexInSuffix([s[0]], s[1..], p);
        ReplaceKeepsNoText(s[1..], p, r);
        assert !OccursAt(s, "TEXT", 0);
        assert StartsWith(s, "TEX") ==> !OccursAt(s, p, 3);
        NoTextAtHead(s, p, r);
        AbsentAfterChar(s[0], ReplaceAll(s[1..], p, r), "TEXT");
      }
    }
  }

  /** Line 37 removes every `TEXT` and the engine rewrites spell none; the
      `DATETIME` rewrite in between can spell one only by completing a
      `TEX` that sits directly before a `DATETIME` default, so without
      such a `TEX` the output is free of `TEXT`. */
  lemma {:induction false} OutputHasNoText(s: string)
    requires NoTexBefore(TextRewrite(RealRewrite(IntegerRewrites(s))), DateTimeDefault)
    ensures !Contains(ConvertBody(s), "TEXT")
  {
    var t4 := TextRewrite(RealRewrite(IntegerRewrites(s)));
    TextRewriteLeavesNone(RealRewrite(IntegerRewrites(s)));
    AbsentCharExcludes(TimestampDefault, "TEXT", 'X');
    ReplaceKeepsNoText(t4, DateTimeDefault, TimestampDefault);
    AbsentCharExcludes(EngineOptions, "TEXT", 'X');
    var t5 := DateTimeRewrite(t4);
    EngineKeepsAbsent(t5, DataMarker, EngineOptions, "TEXT");
    var t6 := AddEngine(t5, DataMarker);
    EngineKeepsAbsent(t6, OrdersMarker, EngineOptions, "TEXT");
    EngineKeepsAbsent(AddEngine(t6, OrdersMarker), EndMarker, EngineOptions, "TEXT");
  }

  /** A text ending in `p`, with no first character of `p` before it. */
  lemma ReplaceAtEnd(x: string, p: string, r: string)
    requires p != [] && p[0] !in x
    ensures ReplaceAll(x + p, p, r) == x + r
  {
    CleanWithoutHead(x, p);
    ReplaceAfterClean(x, p, p, r);
    assert p + [] == p;
    ReplaceAtMatch(p, [], r);
  }

  /** The `DATETIME` rewrite runs after the `TEXT` rewrite and can spell a
      new `TEXT`: its replacement starts with the `T` that completes a
      preceding `TEX`. */
  lemma DateTimeRewriteCanSpellText()
    ensures var s := "TEX" + DateTimeDefault;
      !Contains(s, "TEXT") && Contains(DateTimeRewrite(s), "TEXT")
  {
    assert DateTimeDefault[0] == 'D' && 'X' !in DateTimeDefault;
    NoTextBeforeD(DateTimeDefault);
    ReplaceAtEnd("TEX", DateTimeDefault, TimestampDefault);
    assert TimestampDefault[0] == 'T';
    TextAcross(TimestampDefault);
  }

  lemma NoTextBeforeD(rest: string)
    requires rest != [] && rest[0] == 'D' && 'X' !in rest
    ensures !Contains("TEX" + rest, "TEXT")
  {
    var s := "TEX" + rest;
    assert s == "TE" + ['X'] + rest;
    assert s[0..4][3] == 'D';
    OnlyCandidate("TE", 'X', rest, "TEXT", 2);
  }

  lemma TextAcross(rest: string)
    requires rest != [] && rest[0] == 'T'
    ensures Contains("TEX" + rest, "TEXT")
  {
    assert ("TEX" + rest)[0..4] == "TEXT";
    assert OccursAt("TEX" + rest, "TEXT", 0);
  }


  /** The first `p` after a stretch with no partial match is replaced and
      the rest is rewritten on its own. */
  lemma {:induction false} ReplaceFirst(x: string, p: string, y: string, r: string)
    requires p != [] && Clean(x, p)
    ensures ReplaceAll(x + p + y, p, r) == x + r + ReplaceAll(y, p, r)
  {
    assert x + p + y == x + (p + y);
    ReplaceAfterClean(x, p + y, p, r);
    ReplaceAtMatch(p, y, r);
  }

  /** A `DATETIME DEFAULT CURRENT_TIMESTAMP` column becomes a `TIMESTAMP`
      one. */
  lemma DateTimeBecomesTimestamp(x: string, y: string)
    requires Clean(x, DateTimeDefault)
    ensures DateTimeRewrite(x + DateTimeDefault + y) == x + TimestampDefault + DateTimeRewrite(y)
  {
    ReplaceFirst(x, DateTimeDefault, y, TimestampDefault);
  }

  /** A `REAL` column becomes `DECIMAL(10,2)`. */
  lemma RealBecomesDecimal(x: string, y: string)
    requires Clean(x, "REAL")
    ensures RealRewrite(x + "REAL" + y) == x + "DECIMAL(10,2)" + RealRewrite(y)
  {
    ReplaceFirst(x, "REAL", y, "DECIMAL(10,2)");
  }

  /** A `TEXT` column becomes `VARCHAR(255)`. */
  lemma TextBecomesVarchar(x: string, y: string)
    requires Clean(x, "TEXT")
    ensures TextRewrite(x + "TEXT" + y) == x + "VARCHAR(255)" + TextRewrite(y)
  {
    ReplaceFirst(x, "TEXT", y, "VARCHAR(255)");
  }

  // ---------------------------------------------------------------------
  // The closing parenthesis of a last table without rows.

  /** A text whose only `)` is a final `);` followed by whitespace offers
      no marker to any of the three rewrites. */
  lemma {:induction false} BareTail(x: string, ws: string, m: string)
    requires ')' !in x
    requires forall j :: 0 <= j < |ws| ==> IsSpace(ws[j])
    requires m != []
    ensures NoEngineMatch(x + ");" + ws, m)
  {
    var t := x + ");" + ws;
    forall i | 0 <= i <= |t| ensures !EngineMatch(t[i..], m) {
      if i < |x| {
        assert t[i..][0] == x[i];
        NoMatchWithoutParen(t[i..], m);
      } else if i == |x| {
        assert t[i..] == ");" + ws;
        assert t[i..][2..] == ws;
        assert SpaceRun(ws) == |ws|;
        assert t[i..][2 + |ws|..] == [];
      } else if i < |t| {
        if i == |x| + 1 {
          assert t[i] == ';';
        } else {
          assert t[i] == ws[i - |x| - 2];
        }
        assert t[i..][0] == t[i];
        NoMatchWithoutParen(t[i..], m);
      }
    }
  }

  /** A text starting with `)` cannot complete a match begun before it:
      the match needs `);`, white space and a marker, and none of the
      three holds that `)`. */
  lemma MatchUnaffected(x: string, v: string, m: string)
    requires x != [] && m != [] && ')' !in m
    requires v != [] && v[0] == ')'
    ensures EngineMatch(x + v, m) <==> EngineMatch(x, m)
  {
    var t := x + v;
    if |x| == 1 {
      assert t[..2] == [x[0], ')'];
    } else {
      assert t[..2] == x[..2];
      if StartsWith(x, ");") {
        assert t[2..] == x[2..] + v;
        RestUnaffected(x[2..], v, m);
        assert t[2 + SpaceRun(t[2..])..] == t[2..][SpaceRun(t[2..])..];
        assert x[2 + SpaceRun(x[2..])..] == x[2..][SpaceRun(x[2..])..];
      }
    }
  }

  /** After the white space, `y + v` starts with the marker exactly when
      `y` does, for `v` starting with `)`. */
  lemma RestUnaffected(y: string, v: string, m: string)
    requires m != [] && ')' !in m
    requires v != [] && v[0] == ')'
    ensures StartsWith((y + v)[SpaceRun(y + v)..], m) <==> StartsWith(y[SpaceRun(y)..], m)
  {
    var u, k := y + v, SpaceRun(y);
    if k < |y| {
      assert u[..k + 1] == y[..k + 1];
      SpaceRunOfPrefix(u, y[..k + 1], k);
      assert u[k..] == y[k..] + v;
      if |m| <= |y| - k {
        assert u[k..][..|m|] == y[k..][..|m|];
      } else {
        assert u[k..][|y| - k] == ')';
      }
    } else {
      assert u[..k + 1] == y + [')'];
      SpaceRunOfPrefix(u, y + [')'], k);
      assert u[k..] == v;
    }
  }

  /** The clause rewrite works on `x + v` as on `x` and `v` apart, when
      `v` starts with `)`. */
  lemma {:induction false} InsertBeforeParen(x: string, v: string, m: string, c: string)
    requires m != [] && ')' !in m
    requires v != [] && v[0] == ')'
    ensures InsertClause(x + v, m, c) == InsertClause(x, m, c) + InsertClause(v, m, c)
    decreases |x|
  {
    if x == [] {
      assert x + v == v;
    } else {
      MatchUnaffected(x, v, m);
      if EngineMatch(x, m) {
        assert (x + v)[2..] == x[2..] + v;
        InsertBeforeParen(x[2..], v, m, c);
        Associate(")" + c + ";", InsertClause(x[2..], m, c), InsertClause(v, m, c));
      } else {
        assert (x + v)[0] == x[0];
        assert (x + v)[1..] == x[1..] + v;
        InsertBeforeParen(x[1..], v, m, c);
        Associate([x[0]], InsertClause(x[1..], m, c), InsertClause(v, m, c));
      }
    }
  }

  /** A final `);` followed by white space only is copied by each marker
      rewrite; the text before it is rewritten on its own. */
  lemma BareTailKept(y: string, ws: string, m: string)
    requires m == DataMarker || m == OrdersMarker || m == EndMarker
    requires forall j :: 0 <= j < |ws| ==> IsSpace(ws[j])
    ensures AddEngine(y + (");" + ws), m) == AddEngine(y, m) + (");" + ws)
  {
    MarkerChars(m);
    InsertBeforeParen(y, ");" + ws, m, EngineOptions);
    BareTail("", ws, m);
    assert "" + ");" + ws == ");" + ws;
    EngineIdentity(");" + ws, m, EngineOptions);
  }

  /** The rewrites of lines 41-47 on a text that ends with `);` and white
      space: the text before it is rewritten on its own, the tail is
      copied. */
  lemma BodyBeforeBareTail(s: string, x: string, ws: string)
    requires TypeRewrites(s) == x + ");" + ws
    requires forall j :: 0 <= j < |ws| ==> IsSpace(ws[j])
    ensures ConvertBody(s) == EngineRewrites(x) + ");" + ws
  {
    assert TypeRewrites(s) == x + (");" + ws);
    BareTailKept(x, ws, DataMarker);
    BareTailKept(AddEngine(x, DataMarker), ws, OrdersMarker);
    BareTailKept(AddEngine(AddEngine(x, DataMarker), OrdersMarker), ws, EndMarker);
  }

  /** As written, a dump whose last table has no rows keeps a bare `);`:
      the end marker that line 47 waits for is appended only afterwards,
      by the footer, so the output ends with that `);`, white space and
      the footer, with no clause in between, whatever comes before. */
  lemma LastTableMissesClause(generatedOn: string, s: string, x: string, ws: string)
    requires TypeRewrites(s) == x + ");" + ws
    requires forall j :: 0 <= j < |ws| ==> IsSpace(ws[j])
    ensures ConvertToMySql(generatedOn, s) == MySqlHeader(generatedOn) + EngineRewrites(x) + ");" + ws + Footer()
  {
    BodyBeforeBareTail(s, x, ws);
  }

  /** Length of the trailing run of white space. */
  function TrailingSpace(t: string): (k: nat)
    ensures k <= |t|
    ensures forall j :: |t| - k <= j < |t| ==> IsSpace(t[j])
    ensures k < |t| ==> !IsSpace(t[|t| - k - 1])
  {
    if t != [] && IsSpace(t[|t| - 1]) then 1 + TrailingSpace(t[..|t| - 1]) else 0
  }

  /** What line 47 is there for: the `);` that ends the text, but for
      white space, gets the clause when it closes a `CREATE TABLE`. The
      dump puts a `CREATE`'s `);` at the start of its own line (lines
      74-75 of the exporter) and an `INSERT`'s right after its last value
      (line 96), so the line start tells the two apart. */
  function CloseLastTable(t: string): string
  {
    var n := |t| - TrailingSpace(t);
    if 2 <= n && t[n - 2..n] == ");" && (n == 2 || t[n - 3] == '\n') then t[..n - 1] + EngineOptions + t[n - 1..]
    else t
  }

  /** The conversion with line 47 doing what its comment says: the rewrites
      of lines 34-47 as written, then the clause for a last table that no
      data part follows. */
  function ConvertToMySqlFixed(generatedOn: string, sqliteContent: string): string
  {
    Framing(MySqlHeader(generatedOn), CloseLastTable(ConvertBody(sqliteContent)))
  }

  lemma TrailingSpaceAfterClose(e: string, ws: string)
    requires forall j :: 0 <= j < |ws| ==> IsSpace(ws[j])
    ensures TrailingSpace(e + ");" + ws) == |ws|
  {
    var t := e + ");" + ws;
    var k := TrailingSpace(t);
    assert t[|t| - |ws| - 1] == ';';
  }

  /** A final `);` followed by white space gets the clause exactly when
      it starts the text or a line. */
  lemma ClosingAtLineStart(e: string, ws: string)
    requires forall j :: 0 <= j < |ws| ==> IsSpace(ws[j])
    ensures CloseLastTable(e + ");" + ws)
         == if e == [] || e[|e| - 1] == '\n' then e + ")" + EngineOptions + ";" + ws else e + ");" + ws
  {
    var t := e + ");" + ws;
    TrailingSpaceAfterClose(e, ws);
    var n := |e| + 2;
    assert |t| - TrailingSpace(t) == n;
    ClosingPieces(e, ws);
  }

  /** The pieces of `e + ");" + ws` that the last-table rewrite looks at. */
  lemma ClosingPieces(e: string, ws: string)
    ensures var t, n := e + ");" + ws, |e| + 2;
      && t[n - 2..n] == ");" && t[..n - 1] == e + ")" && t[n - 1..] == ";" + ws
      && (e != [] ==> t[n - 3] == e[|e| - 1])
  {
    var t, n := e + ");" + ws, |e| + 2;
    assert t[n - 2..n] == ");";
    assert t[..n - 1] == e + ")";
    assert t[n - 1..] == ";" + ws;
  }

  /** Each clause rewrite keeps the last character of a text. */
  lemma {:induction false} InsertClauseKeepsLast(t: string, m: string, c: string)
    requires m != [] && t != []
    ensures var o := InsertClause(t, m, c); o != [] && o[|o| - 1] == t[|t| - 1]
    decreases |t|
  {
    if EngineMatch(t, m) {
      assert |t| > 2;
      InsertClauseKeepsLast(t[2..], m, c);
    } else if |t| > 1 {
      InsertClauseKeepsLast(t[1..], m, c);
    }
  }

  lemma EngineRewritesKeepLast(x: string)
    ensures x == [] ==> EngineRewrites(x) == []
    ensures x != [] ==> var o := EngineRewrites(x); o != [] && o[|o| - 1] == x[|x| - 1]
  {
    if x == [] {
      assert AddEngine(x, DataMarker) == [];
      assert AddEngine([], OrdersMarker) == [];
      assert AddEngine([], EndMarker) == [];
      return;
    }
    MarkerChars(DataMarker);
    MarkerChars(OrdersMarker);
    MarkerChars(EndMarker);
    var a1 := AddEngine(x, DataMarker);
    InsertClauseKeepsLast(x, DataMarker, EngineOptions);
    var a2 := AddEngine(a1, OrdersMarker);
    InsertClauseKeepsLast(a1, OrdersMarker, EngineOptions);
    InsertClauseKeepsLast(a2, EndMarker, EngineOptions);
  }

  /** Fixed, a converted text whose final `);` opens its line (the last
      `CREATE` of a dump whose last table has no rows) gets the clause;
      everything else is as the script writes it. */
  lemma LastTableGetsClause(generatedOn: string, s: string, x: string, ws: string)
    requires TypeRewrites(s) == x + ");" + ws
    requires forall j :: 0 <= j < |ws| ==> IsSpace(ws[j])
    requires x == [] || x[|x| - 1] == '\n'
    ensures ConvertToMySqlFixed(generatedOn, s)
         == MySqlHeader(generatedOn) + EngineRewrites(x) + ")" + EngineOptions + ";" + ws + Footer()
  {
    BodyBeforeBareTail(s, x, ws);
    EngineRewritesKeepLast(x);
    var e := EngineRewrites(x);
    ClosingAtLineStart(e, ws);
    assert CloseLastTable(ConvertBody(s)) == e + ")" + EngineOptions + ";" + ws;
    FramedClause(MySqlHeader(generatedOn), e, EngineOptions, ws, CloseLastTable(ConvertBody(s)));
  }

  /** The framing read left to right around a closed last table. */
  lemma FramedClause(h: string, e: string, c: string, ws: string, b: string)
    requires b == e + ")" + c + ";" + ws
    ensures Framing(h, b) == h + e + ")" + c + ";" + ws + Footer()
  {
  }

  /** Fixed, a final `);` that follows other text on its line (an
      `INSERT`'s, when the last table has rows) is left alone: the output
      is the script's. */
  lemma InsertClosingKept(generatedOn: string, s: string, x: string, ws: string)
    requires TypeRewrites(s) == x + ");" + ws
    requires forall j :: 0 <= j < |ws| ==> IsSpace(ws[j])
    requires x != [] && x[|x| - 1] != '\n'
    ensures ConvertToMySqlFixed(generatedOn, s) == ConvertToMySql(generatedOn, s)
  {
    BodyBeforeBareTail(s, x, ws);
    EngineRewritesKeepLast(x);
    var e := EngineRewrites(x);
    ClosingAtLineStart(e, ws);
    assert CloseLastTable(e + ");" + ws) == e + ");" + ws;
    assert CloseLastTable(ConvertBody(s)) == ConvertBody(s);
  }

  // ---------------------------------------------------------------------
  // The converter on the exporter's dump (both use database/export.sql).

  /** A tail starting with a line break or `)` and holding none of `G`,
      `R`, `X`, `D` passes the type rewrites unchanged, and no match
      straddles the join. */
  lemma TypeRewritesSplit(x: string, w: string)
    requires w != [] && (w[0] == '\n' || w[0] == ')')
    requires 'G' !in w && 'R' !in w && 'X' !in w && 'D' !in w
    ensures TypeRewrites(x + w) == TypeRewrites(x) + w
  {
    PatternsOnOneLine();
    PhraseAroundG();
    var a1 := ReplaceAll(x, AutoIncrementPhrase, MySqlAutoIncrement);
    SplitStep(x, w, AutoIncrementPhrase, MySqlAutoIncrement, 'G');
    var a2 := ReplaceAll(a1, "INTEGER", "INT");
    SplitStep(a1, w, "INTEGER", "INT", 'G');
    var a3 := ReplaceAll(a2, "REAL", "DECIMAL(10,2)");
    SplitStep(a2, w, "REAL", "DECIMAL(10,2)", 'R');
    var a4 := ReplaceAll(a3, "TEXT", "VARCHAR(255)");
    SplitStep(a3, w, "TEXT", "VARCHAR(255)", 'X');
    assert 'D' in DateTimeDefault;
    SplitStep(a4, w, DateTimeDefault, TimestampDefault, 'D');
  }

  /** No pattern of lines 34-38 holds a line break or a `)`. */
  lemma PatternsOnOneLine()
    ensures '\n' !in AutoIncrementPhrase && ')' !in AutoIncrementPhrase
    ensures '\n' !in "INTEGER" && ')' !in "INTEGER"
    ensures '\n' !in "REAL" && ')' !in "REAL"
    ensures '\n' !in "TEXT" && ')' !in "TEXT"
    ensures '\n' !in DateTimeDefault && ')' !in DateTimeDefault
  {
  }

  /** One replacement over `a + w`, `w` starting outside `p` and missing
      one of its characters. */
  lemma SplitStep(a: string, w: string, p: string, r: string, c: char)
    requires p != [] && w != [] && w[0] !in p && c in p && c !in w
    ensures ReplaceAll(a + w, p, r) == ReplaceAll(a, p, r) + w
  {
    assert p == [p[0]] + p[1..];
    ReplaceSplit(a, w, p, r);
    AbsentCharExcludes(w, p, c);
    ReplaceAbsent(w, p, r);
  }

  /** A replacement ends as its input does, or as `r` does. */
  lemma {:induction false} ReplaceKeepsLast(s: string, p: string, r: string)
    requires p != [] && r != [] && s != []
    ensures var o := ReplaceAll(s, p, r); o != [] && (o[|o| - 1] == s[|s| - 1] || o[|o| - 1] == r[|r| - 1])
    decreases |s|
  {
    if |s| >= |p| {
      if s[..|p|] == p {
        if |s| > |p| {
          ReplaceKeepsLast(s[|p|..], p, r);
        }
      } else if |s| > 1 {
        ReplaceKeepsLast(s[1..], p, r);
      }
    }
  }

  /** None of the type rewrites ends a text with a line break. */
  lemma TypeRewritesOffLine(y: string)
    requires y != [] && y[|y| - 1] != '\n'
    ensures var o := TypeRewrites(y); o != [] && o[|o| - 1] != '\n'
  {
    ReplacementsOffLine();
    var a1 := ReplaceAll(y, AutoIncrementPhrase, MySqlAutoIncrement);
    ReplaceOffLine(y, AutoIncrementPhrase, MySqlAutoIncrement);
    var a2 := ReplaceAll(a1, "INTEGER", "INT");
    ReplaceOffLine(a1, "INTEGER", "INT");
    var a3 := ReplaceAll(a2, "REAL", "DECIMAL(10,2)");
    ReplaceOffLine(a2, "REAL", "DECIMAL(10,2)");
    var a4 := ReplaceAll(a3, "TEXT", "VARCHAR(255)");
    ReplaceOffLine(a3, "TEXT", "VARCHAR(255)");
    ReplaceOffLine(a4, DateTimeDefault, TimestampDefault);
  }

  /** A replacement whose input and `r` end off a line break ends off one. */
  lemma ReplaceOffLine(s: string, p: string, r: string)
    requires p != [] && r != [] && r[|r| - 1] != '\n'
    requires s != [] && s[|s| - 1] != '\n'
    ensures var o := ReplaceAll(s, p, r); o != [] && o[|o| - 1] != '\n'
  {
    ReplaceKeepsLast(s, p, r);
  }

  /** The replacements of lines 34-38 end with `Y`, `T`, `)`, `)`, `P`. */
  lemma ReplacementsOffLine()
    ensures MySqlAutoIncrement != [] && MySqlAutoIncrement[|MySqlAutoIncrement| - 1] != '\n'
    ensures "INT"[|"INT"| - 1] != '\n'
    ensures "DECIMAL(10,2)"[|"DECIMAL(10,2)"| - 1] != '\n'
    ensures "VARCHAR(255)"[|"VARCHAR(255)"| - 1] != '\n'
    ensures TimestampDefault != [] && TimestampDefault[|TimestampDefault| - 1] != '\n'
  {
    assert MySqlAutoIncrement[|MySqlAutoIncrement| - 1] == 'Y';
    assert TimestampDefault[|TimestampDefault| - 1] == 'P';
  }

  /** The exporter's dump of a database whose last table has no rows: as
      written, the last `CREATE` reaches MySQL without its clause; fixed,
      it gets the clause and nothing else changes. */
  lemma DumpLastTableWithoutRows(style: Dump.DefaultStyle, dumpedOn: string, tables: seq<Dump.TableData>,
                                 numText: real -> string, generatedOn: string)
    requires tables != [] && tables[|tables| - 1].rows == []
    ensures var d := Dump.DumpText(style, dumpedOn, tables, numText);
      var p := MySqlHeader(generatedOn) + EngineRewrites(TypeRewrites(Dump.OpenLastCreate(style, dumpedOn, tables, numText)) + "\n");
      && ConvertToMySql(generatedOn, d) == p + ");" + "\n\n" + Footer()
      && ConvertToMySqlFixed(generatedOn, d) == p + ")" + EngineOptions + ";" + "\n\n" + Footer()
  {
    Dump.DumpEndsWithCreate(style, dumpedOn, tables, numText);
    CreateClosingAtEnd(generatedOn, Dump.DumpText(style, dumpedOn, tables, numText),
      Dump.OpenLastCreate(style, dumpedOn, tables, numText));
  }

  /** A text that ends with a `CREATE`'s closing line and a blank line. */
  lemma CreateClosingAtEnd(generatedOn: string, d: string, o: string)
    requires d == o + "\n);\n\n"
    ensures var p := MySqlHeader(generatedOn) + EngineRewrites(TypeRewrites(o) + "\n");
      && ConvertToMySql(generatedOn, d) == p + ");" + "\n\n" + Footer()
      && ConvertToMySqlFixed(generatedOn, d) == p + ")" + EngineOptions + ";" + "\n\n" + Footer()
  {
    TypeRewritesSplit(o, "\n);\n\n");
    var x := TypeRewrites(o) + "\n";
    assert TypeRewrites(o) + "\n);\n\n" == x + ");" + "\n\n";
    SpaceLines();
    LastTableMissesClause(generatedOn, d, x, "\n\n");
    LastTableGetsClause(generatedOn, d, x, "\n\n");
  }

  lemma SpaceLines()
    ensures forall j :: 0 <= j < |"\n\n"| ==> IsSpace("\n\n"[j])
  {
  }

  /** The exporter's dump of a database whose last table has rows: the
      fixed conversion is the script's, since the final `);` is an
      `INSERT`'s and the last `CREATE` already got its clause from line
      41. */
  lemma DumpLastTableWithRows(style: Dump.DefaultStyle, dumpedOn: string, tables: seq<Dump.TableData>,
                              numText: real -> string, generatedOn: string)
    requires tables != [] && tables[|tables| - 1].rows != []
    requires Dump.NumbersOffLine(numText)
    ensures var d := Dump.DumpText(style, dumpedOn, tables, numText);
      ConvertToMySqlFixed(generatedOn, d) == ConvertToMySql(generatedOn, d)
  {
    var y := Dump.DumpEndsWithInsert(style, dumpedOn, tables, numText);
    InsertClosingAtEnd(generatedOn, Dump.DumpText(style, dumpedOn, tables, numText), y);
  }

  /** A text that ends with an `INSERT`'s `);` and a blank line. */
  lemma InsertClosingAtEnd(generatedOn: string, d: string, y: string)
    requires d == y + ");\n\n" && y != [] && y[|y| - 1] != '\n'
    ensures ConvertToMySqlFixed(generatedOn, d) == ConvertToMySql(generatedOn, d)
  {
    TypeRewritesSplit(y, ");\n\n");
    assert TypeRewrites(y) + ");\n\n" == TypeRewrites(y) + ");" + "\n\n";
    TypeRewritesOffLine(y);
    SpaceLines();
    InsertClosingKept(generatedOn, d, TypeRewrites(y), "\n\n");
  }

  /** The end marker is the footer's first line: with the footer already
      in place, line 47 would give any final `);` the clause, an
      `INSERT`'s included; that is why the corrected conversion looks at
      the start of the line instead (`CloseLastTable`). */
  lemma ClauseBeforeFooter(x: string, ws: string, c: string)
    requires forall j :: 0 <= j < |ws| ==> IsSpace(ws[j])
    ensures InsertClause(x + ");" + ws + Footer(), EndMarker, c)
         == InsertClause(x, EndMarker, c) + ")" + c + ";" + ws + Footer()
  {
    ClauseAtEnd(ws, c);
    MarkerChars(EndMarker);
    ClauseBeforeTail(x, ws, Footer(), EndMarker, c);
  }

  /** Text before a `);` tail is rewritten on its own. */
  lemma ClauseBeforeTail(x: string, ws: string, f: string, m: string, c: string)
    requires m != [] && ')' !in m
    requires InsertClause(");" + ws + f, m, c) == ")" + c + ";" + (ws + f)
    ensures InsertClause(x + ");" + ws + f, m, c) == InsertClause(x, m, c) + ")" + c + ";" + ws + f
  {
    var v, a, e := ");" + ws + f, ")" + c + ";", ws + f;
    JoinTail(x, ");", ws, f, v);
    assert v[0] == ')';
    InsertBeforeParen(x, v, m, c);
    SplitClause(InsertClause(x, m, c), ")" + c, ";", ws, f, a, e);
  }

  lemma JoinTail(x: string, a: string, ws: string, f: string, v: string)
    requires v == a + ws + f
    ensures x + a + ws + f == x + v
  {
  }

  lemma SplitClause(h: string, b: string, sc: string, ws: string, f: string, a: string, e: string)
    requires a == b + sc && e == ws + f
    ensures h + (a + e) == h + b + sc + ws + f
  {
  }

  /** `);`, white space and the footer get the clause. */
  lemma ClauseAtEnd(ws: string, c: string)
    requires forall j :: 0 <= j < |ws| ==> IsSpace(ws[j])
    ensures InsertClause(");" + ws + Footer(), EndMarker, c) == ")" + c + ";" + (ws + Footer())
  {
    MarkerChars(EndMarker);
    ClauseAtTail(ws, EndMarker, "\nCOMMIT;\n", Footer(), c);
  }

  /** `);`, white space, a line break, the marker `m` and text without a
      `)`: the clause goes in before the `;`, the rest is copied. */
  lemma {:induction false} ClauseAtTail(ws: string, m: string, rest: string, f: string, c: string)
    requires forall j :: 0 <= j < |ws| ==> IsSpace(ws[j])
    requires m != [] && !IsSpace(m[0]) && ')' !in m && ')' !in rest
    requires f == "\n" + m + rest
    ensures InsertClause(");" + ws + f, m, c) == ")" + c + ";" + (ws + f)
  {
    var ws' := ws + "\n";
    SpacesThenBreak(ws, ws');
    TailRegroup(ws, ws', m, rest, f);
    ClauseAtSectionEnd("", ws', m, rest, c);
    CopiesAll(rest, m, c);
    ClauseRegroup("" + ")" + c + ";", ")" + c + ";", ws, ws', m, rest, f);
  }

  lemma ClauseRegroup(a: string, a': string, ws: string, ws': string, m: string, rest: string, f: string)
    requires a == "" + a' && ws' == ws + "\n" && f == "\n" + m + rest
    ensures a + ws' + m + rest == a' + (ws + f)
  {
  }

  lemma TailRegroup(ws: string, ws': string, m: string, rest: string, f: string)
    requires ws' == ws + "\n" && f == "\n" + m + rest
    ensures ");" + ws + f == "" + ");" + ws' + m + rest
  {
  }

  lemma SpacesThenBreak(ws: string, ws': string)
    requires forall j :: 0 <= j < |ws| ==> IsSpace(ws[j])
    requires ws' == ws + "\n"
    ensures forall j :: 0 <= j < |ws'| ==> IsSpace(ws'[j])
  {
    forall j | 0 <= j < |ws'| ensures IsSpace(ws'[j]) {
      if j < |ws| { assert ws'[j] == ws[j]; } else { assert ws'[j] == '\n'; }
    }
  }

  lemma CopiesAll(rest: string, m: string, c: string)
    requires ')' !in rest
    ensures InsertClause(rest, m, c) == rest
  {
    assert rest + [] == rest;
    CopiesWithoutParen(rest, [], m, c);
    assert InsertClause([], m, c) == [];
  }

  /** Lower-case SQL text passes the type rewrites unchanged. */
  lemma TypeRewritesIdentity(s: string)
    requires 'G' !in s && 'R' !in s && 'X' !in s && 'D' !in s
    ensures TypeRewrites(s) == s
  {
    AbsentCharExcludes(s, AutoIncrementPhrase, 'G');
    ReplaceAbsent(s, AutoIncrementPhrase, MySqlAutoIncrement);
    AbsentCharExcludes(s, "INTEGER", 'G');
    ReplaceAbsent(s, "INTEGER", "INT");
    AbsentCharExcludes(s, "REAL", 'R');
    ReplaceAbsent(s, "REAL", "DECIMAL(10,2)");
    AbsentCharExcludes(s, "TEXT", 'X');
    ReplaceAbsent(s, "TEXT", "VARCHAR(255)");
    AbsentCharExcludes(s, DateTimeDefault, 'D');
    ReplaceAbsent(s, DateTimeDefault, TimestampDefault);
  }

  /** A type rewrite leaves `);` and white space as they are. */
  lemma BareClosingShape(ws: string)
    requires forall j :: 0 <= j < |ws| ==> IsSpace(ws[j])
    ensures TypeRewrites(");" + ws) == "" + ");" + ws
  {
    var s := ");" + ws;
    forall c | c in "GRXD" ensures c !in s {
      forall j | 0 <= j < |s| ensures s[j] != c {
        if j >= 2 {
          assert s[j] == ws[j - 2];
        }
      }
    }
    assert 'G' in "GRXD" && 'R' in "GRXD" && 'X' in "GRXD" && 'D' in "GRXD";
    TypeRewritesIdentity(s);
  }

  /** The smallest such dump, `);` and white space (a blank line, say):
      as written it comes out bare, fixed it gets the clause. */
  lemma BareClosingExample(generatedOn: string, ws: string)
    requires forall j :: 0 <= j < |ws| ==> IsSpace(ws[j])
    ensures ConvertToMySql(generatedOn, ");" + ws) == MySqlHeader(generatedOn) + ");" + ws + Footer()
    ensures ConvertToMySqlFixed(generatedOn, ");" + ws)
         == MySqlHeader(generatedOn) + ")" + EngineOptions + ";" + ws + Footer()
  {
    BareClosingShape(ws);
    LastTableMissesClause(generatedOn, ");" + ws, "", ws);
    LastTableGetsClause(generatedOn, ");" + ws, "", ws);
    assert MySqlHeader(generatedOn) + "" == MySqlHeader(generatedOn);
  }

}

=== FILE: export.dfy ===
/** database/export-to-sql.js: a dump of every table as `DROP TABLE` /
    `CREATE TABLE` / `INSERT` statements. The column metadata (`PRAGMA
    table_info`), the rows (`SELECT *`), the timestamp and the rendering of
    numbers are inputs. */
module Dump {
  import opened Values
  import opened Text

  // ---------------------------------------------------------------------
  // Character-string literals (ISO/IEC 9075-2, subclause 5.3): a quote
  // inside the literal is written twice.

  /** `value.replace(/'/g, "''")`. */
  function Escape(s: string): (r: string)
    ensures |r| == |s| + Count(s, '\'')
  {
    if s == [] then []
    else (if s[0] == '\'' then "''" else [s[0]]) + Escape(s[1..])
  }

  /** Reads a literal's body back: `''` is one quote, a lone quote ends the
      literal early and is rejected. */
  function Unescape(t: string): Option<string>
  {
    if t == [] then Some([])
    else if t[0] == '\'' then
      if |t| >= 2 && t[1] == '\'' then
        match Unescape(t[2..])
        case Some(rest) => Some("'" + rest)
        case None => None
      else None
    else
      match Unescape(t[1..])
      case Some(rest) => Some([t[0]] + rest)
      case None => None
  }

  lemma {:induction false} UnescapeEscape(s: string)
    ensures Unescape(Escape(s)) == Some(s)
  {
    if s != [] {
      UnescapeEscape(s[1..]);
      var head: string := if s[0] == '\'' then "''" else [s[0]];
      assert Escape(s) == head + Escape(s[1..]);
      if s[0] == '\'' {
        assert Escape(s)[2..] == Escape(s[1..]);
      } else {
        assert Escape(s)[1..] == Escape(s[1..]);
      }
      assert s == [s[0]] + s[1..];
    }
  }

  /** Only escaped bodies read back, and they read back to what escapes to
      them: escaping is a bijection onto the bodies `Unescape` accepts. */
  lemma {:induction false} EscapeUnescape(t: string)
    requires Unescape(t).Some?
    ensures Escape(Unescape(t).value) == t
  {
    if t != [] {
      if t[0] == '\'' {
        EscapeUnescape(t[2..]);
        var rest := Unescape(t[2..]).value;
        assert ("'" + rest)[1..] == rest;
        assert t == "''" + t[2..];
      } else {
        EscapeUnescape(t[1..]);
        var rest := Unescape(t[1..]).value;
        assert ([t[0]] + rest)[1..] == rest;
        assert t == [t[0]] + t[1..];
      }
    }
  }

  function Quote(s: string): string
  {
    "'" + Escape(s) + "'"
  }

  /** A quoted literal read back, or `None` when `t` is not one. */
  function ParseQuoted(t: string): Option<string>
  {
    if |t| >= 2 && t[0] == '\'' && t[|t| - 1] == '\'' then Unescape(t[1..|t| - 1]) else None
  }

  /** Quoting round-trips. */
  lemma QuoteRoundTrip(s: string)
    ensures ParseQuoted(Quote(s)) == Some(s)
  {
    assert Quote(s)[1..|Quote(s)| - 1] == Escape(s);
    UnescapeEscape(s);
  }

  /** One value of an `INSERT`: NULL as the keyword, a text quoted with
      its quotes doubled, anything else as JavaScript prints it. */
  function ValueLiteral(v: SqlValue, numText: real -> string): (r: string)
    ensures v == SqlNull ==> r == "NULL"
    ensures v.SqlText? ==> ParseQuoted(r) == Some(v.t)
    ensures v.SqlNum? ==> r == numText(v.n)
  {
    match v
    case SqlNull => "NULL"
    case SqlText(t) => QuoteRoundTrip(t); Quote(t)
    case SqlNum(n) => numText(n)
  }

  // ---------------------------------------------------------------------
  // Column definitions.

  /** One row of `PRAGMA table_info`: the default is the text of the
      declared default expression (so `DEFAULT 'pending'` is reported as
      the five-letter word inside quotes), or NULL. */
  datatype ColumnInfo = ColumnInfo(name: string, typ: string, notnull: bool, pk: bool, dflt: SqlValue)

  /** The script's `type.toUpperCase().includes('INTEGER')`. */
  predicate IntegerType(typ: string)
  {
    Contains(Upper(typ), "INTEGER")
  }

  predicate AutoIncrement(c: ColumnInfo)
  {
    c.pk && IntegerType(c.typ)
  }

  /** ` NOT NULL`, ` PRIMARY KEY` and ` AUTOINCREMENT`, in that order. */
  function Constraints(c: ColumnInfo): string
  {
    ConstraintText(c.notnull, c.pk, IntegerType(c.typ))
  }

  function ConstraintText(notnull: bool, pk: bool, integer: bool): string
  {
    NotNullPart(notnull) + PrimaryKeyPart(pk, integer)
  }

  const NotNullWords := " " + "NOT NULL"
  const PrimaryKeyWords := " " + "PRIMARY KEY"
  const AutoIncrementWords := " " + "AUTOINCREMENT"

  function NotNullPart(notnull: bool): string
  {
    if notnull then NotNullWords else ""
  }

  function PrimaryKeyPart(pk: bool, integer: bool): string
  {
    if pk then PrimaryKeyWords + AutoIncrementPart(integer) else ""
  }

  function AutoIncrementPart(integer: bool): string
  {
    if integer then AutoIncrementWords else ""
  }

  /** `q` occurs in `a + q + b` right after `a`. */
  lemma OccursBetween(a: string, q: string, b: string)
    ensures OccursAt(a + q + b, q, |a|)
  {
    assert (a + q + b)[|a|..|a| + |q|] == q;
  }

  /** A string that holds `q` after some prefix contains `q`. */
  lemma ContainsAfter(a: string, w: string, q: string, b: string)
    ensures Contains(a + (w + q) + b, q)
  {
    assert a + (w + q) + b == (a + w) + q + b;
    OccursBetween(a + w, q, b);
  }

  /** Two strings free of `c` have no occurrence, together, of a string
      that holds `c`. */
  lemma AbsentFromBoth(a: string, b: string, q: string, c: char)
    requires c in q && c !in a && c !in b
    ensures !Contains(a + b, q)
  {
    AbsentCharExcludes(a + b, q, c);
  }

  lemma NotNullText(notnull: bool, pk: bool, integer: bool)
    ensures Contains(ConstraintText(notnull, pk, integer), "NOT NULL") <==> notnull
  {
    var tail := PrimaryKeyPart(pk, integer);
    assert 'L' !in tail;
    if notnull {
      ContainsAfter("", " ", "NOT NULL", tail);
      assert ConstraintText(notnull, pk, integer) == "" + NotNullWords + tail;
    } else {
      AbsentFromBoth("", tail, "NOT NULL", 'L');
    }
  }

  lemma PrimaryKeyText(notnull: bool, pk: bool, integer: bool)
    ensures Contains(ConstraintText(notnull, pk, integer), "PRIMARY KEY") <==> pk
  {
    if pk {
      ContainsAfter(NotNullPart(notnull), " ", "PRIMARY KEY", AutoIncrementPart(integer));
      Associate(NotNullPart(notnull), PrimaryKeyWords, AutoIncrementPart(integer));
    } else {
      assert 'Y' !in NotNullPart(notnull);
      AbsentFromBoth(NotNullPart(notnull), "", "PRIMARY KEY", 'Y');
    }
  }

  lemma AutoIncrementText(notnull: bool, pk: bool, integer: bool)
    ensures Contains(ConstraintText(notnull, pk, integer), "AUTOINCREMENT") <==> pk && integer
  {
    var head := NotNullPart(notnull);
    assert 'C' !in head;
    if pk && integer {
      var key := head + PrimaryKeyWords;
      ContainsAfter(key, " ", "AUTOINCREMENT", "");
      assert ConstraintText(notnull, pk, integer) == key + AutoIncrementWords + "";
    } else {
      var tail := PrimaryKeyPart(pk, integer);
      assert 'C' !in tail;
      AbsentFromBoth(head, tail, "AUTOINCREMENT", 'C');
    }
  }

  /** ` NOT NULL` appears exactly for a NOT NULL column. */
  lemma NotNullFlag(c: ColumnInfo)
    ensures Contains(Constraints(c), "NOT NULL") <==> c.notnull
  {
    NotNullText(c.notnull, c.pk, IntegerType(c.typ));
  }

  /** ` PRIMARY KEY` appears exactly for a primary-key column. */
  lemma PrimaryKeyFlag(c: ColumnInfo)
    ensures Contains(Constraints(c), "PRIMARY KEY") <==> c.pk
  {
    PrimaryKeyText(c.notnull, c.pk, IntegerType(c.typ));
  }

  /** ` AUTOINCREMENT` appears exactly for a primary key whose upper-cased
      type contains INTEGER. */
  lemma AutoIncrementFlag(c: ColumnInfo)
    ensures Contains(Constraints(c), "AUTOINCREMENT") <==> AutoIncrement(c)
  {
    AutoIncrementText(c.notnull, c.pk, IntegerType(c.typ));
  }

  /** The DEFAULT clause as the script writes it: a text default that does
      not start with CURRENT_TIMESTAMP is wrapped in quotes as it stands,
      any other default is written bare. */
  function DefaultClauseAsWritten(c: ColumnInfo, numText: real -> string): (r: string)
    ensures c.dflt == SqlNull ==> r == ""
    ensures c.dflt.SqlText? && !StartsWith(c.dflt.t, "CURRENT_TIMESTAMP") ==> r == " DEFAULT '" + c.dflt.t + "'"
    ensures c.dflt.SqlText? && StartsWith(c.dflt.t, "CURRENT_TIMESTAMP") ==> r == " DEFAULT " + c.dflt.t
  {
    match c.dflt
    case SqlNull => ""
    case SqlText(t) => if !StartsWith(t, "CURRENT_TIMESTAMP") then " DEFAULT '" + t + "'" else " DEFAULT " + t
    case SqlNum(n) => " DEFAULT " + numText(n)
  }

  /** A text default as `PRAGMA table_info` reports it is already a
      quoted literal; wrapping it in quotes again, as the script does,
      yields text that no longer reads back as the declared value: for
      `DEFAULT 'pending'` the dump says `DEFAULT ''pending''`. */
  lemma QuotedDefaultMangled(c: ColumnInfo, w: string, numText: real -> string)
    requires c.dflt == SqlText(Quote(w))
    requires w != [] && w[0] != '\''
    ensures DefaultClauseAsWritten(c, numText) == " DEFAULT '" + Quote(w) + "'"
    ensures ParseQuoted("'" + Quote(w) + "'") != Some(w)
  {
    assert !StartsWith(Quote(w), "CURRENT_TIMESTAMP") by {
      assert Quote(w)[0] == '\'' != "CURRENT_TIMESTAMP"[0];
    }
    var t := "'" + Quote(w) + "'";
    assert Escape(w)[0] == w[0];
    assert t[1..|t| - 1] == Quote(w);
    assert Quote(w)[1] == w[0];
  }

  /** The DEFAULT clause written so that the dump re-creates the declared
      default: the reported expression text is emitted as it stands. */
  function DefaultClause(c: ColumnInfo, numText: real -> string): (r: string)
    ensures c.dflt == SqlNull <==> r == ""
  {
    match c.dflt
    case SqlNull => ""
    case SqlText(t) => " DEFAULT " + t
    case SqlNum(n) => " DEFAULT " + numText(n)
  }

  /** A default declared as a text literal comes back as that same literal,
      which reads back to the declared value. */
  lemma DefaultClauseKeepsLiteral(c: ColumnInfo, v: string, numText: real -> string)
    requires c.dflt == SqlText(Quote(v))
    ensures var r := DefaultClause(c, numText);
      StartsWith(r, " DEFAULT ") && ParseQuoted(r[|" DEFAULT "|..]) == Some(v)
  {
    var r := DefaultClause(c, numText);
    assert r[|" DEFAULT "|..] == Quote(v);
    QuoteRoundTrip(v);
  }

  /** Which DEFAULT clause a dump writes: the script's own, or the
      corrected one of the first Findings row. */
  datatype DefaultStyle = AsWritten | Corrected

  function DefaultPart(style: DefaultStyle, c: ColumnInfo, numText: real -> string): string
  {
    match style
    case AsWritten => DefaultClauseAsWritten(c, numText)
    case Corrected => DefaultClause(c, numText)
  }

  /** One line of the CREATE TABLE body. */
  function ColumnDefinition(style: DefaultStyle, c: ColumnInfo, numText: real -> string): string
  {
    "  `" + c.name + "` " + c.typ + Constraints(c) + DefaultPart(style, c, numText)
  }

  /** The two styles write different lines exactly for a column whose
      default is a text not starting with CURRENT_TIMESTAMP. */
  lemma StylesDiffer(c: ColumnInfo, numText: real -> string)
    ensures ColumnDefinition(AsWritten, c, numText) != ColumnDefinition(Corrected, c, numText)
        <==> c.dflt.SqlText? && !StartsWith(c.dflt.t, "CURRENT_TIMESTAMP")
  {
    var head := "  `" + c.name + "` " + c.typ + Constraints(c);
    if c.dflt.SqlText? && !StartsWith(c.dflt.t, "CURRENT_TIMESTAMP") {
      var w, f := DefaultPart(AsWritten, c, numText), DefaultPart(Corrected, c, numText);
      assert |w| == |f| + 2;
      assert |head + w| != |head + f|;
    }
  }

  function ColumnDefinitions(style: DefaultStyle, cols: seq<ColumnInfo>, numText: real -> string): (r: seq<string>)
    ensures |r| == |cols|
    ensures forall i :: 0 <= i < |cols| ==> r[i] == ColumnDefinition(style, cols[i], numText)
  {
    seq(|cols|, i requires 0 <= i < |cols| => ColumnDefinition(style, cols[i], numText))
  }

  lemma ColumnDefinitionsSnoc(style: DefaultStyle, cols: seq<ColumnInfo>, c: ColumnInfo, numText: real -> string)
    ensures ColumnDefinitions(style, cols + [c], numText) == ColumnDefinitions(style, cols, numText) + [ColumnDefinition(style, c, numText)]
  {
  }

  /** `parts.join(sep)` ends with the last part: no trailing separator. */
  lemma {:induction false} JoinEndsWithLast(parts: seq<string>, sep: string)
    requires parts != []
    ensures var j := Join(parts, sep); var last := parts[|parts| - 1];
      |last| <= |j| && j[|j| - |last|..] == last
  {
    if |parts| > 1 {
      JoinEndsWithLast(parts[1..], sep);
      var rest := Join(parts[1..], sep);
      var last := parts[|parts| - 1];
      assert (parts[0] + sep + rest)[|parts[0] + sep + rest| - |last|..] == rest[|rest| - |last|..];
    }
  }

  // ---------------------------------------------------------------------
  // INSERT statements.

  /** A row of `SELECT *`: column names with their values, in column order. */
  type Row = seq<(string, SqlValue)>

  function ColumnNames(row: Row): (r: seq<string>)
    ensures |r| == |row| && forall i :: 0 <= i < |row| ==> r[i] == row[i].0
  {
    seq(|row|, i requires 0 <= i < |row| => row[i].0)
  }

  function ValueTexts(row: Row, numText: real -> string): (r: seq<string>)
    ensures |r| == |row| && forall i :: 0 <= i < |row| ==> r[i] == ValueLiteral(row[i].1, numText)
  {
    seq(|row|, i requires 0 <= i < |row| => ValueLiteral(row[i].1, numText))
  }

  function InsertLine(table: string, row: Row, numText: real -> string): string
  {
    "INSERT INTO `" + table + "` (`" + Join(ColumnNames(row), "`, `") + "`) VALUES ("
      + Join(ValueTexts(row, numText), ", ") + ");\n"
  }

  /** The column list and the value list of an INSERT pair up one to one,
      in order, and each stored text can be read back from its literal. */
  lemma InsertAligned(row: Row, numText: real -> string)
    ensures |ColumnNames(row)| == |ValueTexts(row, numText)| == |row|
    ensures forall i :: 0 <= i < |row| ==>
      && ColumnNames(row)[i] == row[i].0
      && (row[i].1 == SqlNull ==> ValueTexts(row, numText)[i] == "NULL")
      && (row[i].1.SqlText? ==> ParseQuoted(ValueTexts(row, numText)[i]) == Some(row[i].1.t))
  {
  }

  function InsertLines(table: string, rows: seq<Row>, numText: real -> string): string
  {
    if rows == [] then ""
    else InsertLines(table, rows[..|rows| - 1], numText) + InsertLine(table, rows[|rows| - 1], numText)
  }

  // ---------------------------------------------------------------------
  // The dump.

  /** One table as the script reads it. */
  datatype TableData = TableData(name: string, columns: seq<ColumnInfo>, rows: seq<Row>)

  function Header(generatedOn: string): string
  {
    "-- SQLite Database Export\n" + "-- Generated on: " + generatedOn + "\n\n"
  }

  /** A table's structure part: a comment, the DROP and the CREATE, whose
      column definitions are joined with ",\n", so no comma follows the
      last one. */
  function Structure(style: DefaultStyle, t: TableData, numText: real -> string): string
  {
    TableComment(t.name) + DropStatement(t.name) + CreateHead(t.name)
      + ColumnList(style, t.columns, numText) + CreateTail()
  }

  function TableComment(name: string): string
  {
    "-- Table structure for " + name + "\n"
  }

  function DropStatement(name: string): string
  {
    "DROP TABLE IF EXISTS `" + name + "`;\n"
  }

  function CreateHead(name: string): string
  {
    "CREATE TABLE `" + name + "` (\n"
  }

  function ColumnList(style: DefaultStyle, cols: seq<ColumnInfo>, numText: real -> string): string
  {
    Join(ColumnDefinitions(style, cols, numText), ",\n") + "\n"
  }

  function CreateTail(): string
  {
    ");\n\n"
  }

  /** A table's data part: present only when the table has rows. */
  function Data(t: TableData, numText: real -> string): string
  {
    if t.rows == [] then ""
    else DataComment(t.name) + InsertLines(t.name, t.rows, numText) + "\n"
  }

  function DataComment(name: string): string
  {
    "-- Data for table " + name + "\n"
  }

  function Sections(style: DefaultStyle, tables: seq<TableData>, numText: real -> string): string
  {
    if tables == [] then ""
    else
      var last := tables[|tables| - 1];
      Sections(style, tables[..|tables| - 1], numText) + Structure(style, last, numText) + Data(last, numText)
  }

  /** The whole dump, in the given DEFAULT style. */
  function DumpText(style: DefaultStyle, generatedOn: string, tables: seq<TableData>, numText: real -> string): string
  {
    Header(generatedOn) + Sections(style, tables, numText)
  }

  /** A column whose default the two styles write differently. */
  predicate HasQuotedDefault(t: TableData)
  {
    exists c :: c in t.columns && c.dflt.SqlText? && !StartsWith(c.dflt.t, "CURRENT_TIMESTAMP")
  }

  /** The script's dump and the corrected dump agree on every schema with
      no text default other than CURRENT_TIMESTAMP: the fix changes
      nothing else. */
  lemma {:induction false} DumpStylesAgree(generatedOn: string, tables: seq<TableData>, numText: real -> string)
    requires forall t :: t in tables ==> !HasQuotedDefault(t)
    ensures DumpText(AsWritten, generatedOn, tables, numText) == DumpText(Corrected, generatedOn, tables, numText)
  {
    SectionsAgree(tables, numText);
  }

  lemma {:induction false} SectionsAgree(tables: seq<TableData>, numText: real -> string)
    requires forall t :: t in tables ==> !HasQuotedDefault(t)
    ensures Sections(AsWritten, tables, numText) == Sections(Corrected, tables, numText)
  {
    if tables != [] {
      var last := tables[|tables| - 1];
      assert last in tables;
      assert forall t :: t in tables[..|tables| - 1] ==> t in tables;
      SectionsAgree(tables[..|tables| - 1], numText);
      forall i | 0 <= i < |last.columns|
        ensures ColumnDefinition(AsWritten, last.columns[i], numText) == ColumnDefinition(Corrected, last.columns[i], numText)
      {
        assert last.columns[i] in last.columns;
        StylesDiffer(last.columns[i], numText);
      }
      assert ColumnDefinitions(AsWritten, last.columns, numText) == ColumnDefinitions(Corrected, last.columns, numText);
    }
  }

  /** `exportToSQL()`: the dump text, built as the script appends to
      `sqlContent` over the tables. */
  method ExportToSql(generatedOn: string, tables: seq<TableData>, numText: real -> string) returns (sqlContent: string)
    ensures sqlContent == DumpText(AsWritten, generatedOn, tables, numText)
  {
    sqlContent := "-- SQLite Database Export\n";
    sqlContent := sqlContent + "-- Generated on: " + generatedOn + "\n\n";
    ghost var header := Header(generatedOn);
    assert sqlContent == header;
    assert Sections(AsWritten, tables[..0], numText) == "";
    assert header + "" == header;
    for i := 0 to |tables|
      invariant sqlContent == header + Sections(AsWritten, tables[..i], numText)
    {
      ghost var done := Sections(AsWritten, tables[..i], numText);
      sqlContent := AppendTable(sqlContent, tables[i], numText);
      assert tables[..i + 1][..i] == tables[..i];
      ghost var st, da := Structure(AsWritten, tables[i], numText), Data(tables[i], numText);
      assert Sections(AsWritten, tables[..i + 1], numText) == done + st + da;
      Associate(header + done, st, da);
      Associate(header, done + st, da);
      Associate(header, done, st);
    }
    assert tables[..|tables|] == tables;
  }

  /** The body of the loop over tables: structure, then data if any. */
  method AppendTable(before: string, t: TableData, numText: real -> string) returns (sqlContent: string)
    ensures sqlContent == before + Structure(AsWritten, t, numText) + Data(t, numText)
  {
    sqlContent := before + TableComment(t.name);
    sqlContent := sqlContent + DropStatement(t.name);
    sqlContent := sqlContent + CreateHead(t.name);
    var columns := RenderColumns(t.columns, numText);
    sqlContent := sqlContent + (Join(columns, ",\n") + "\n");
    sqlContent := sqlContent + CreateTail();
    assert sqlContent == before + Structure(AsWritten, t, numText);
    ghost var structured := sqlContent;
    if |t.rows| > 0 {
      sqlContent := sqlContent + DataComment(t.name);
      sqlContent := AppendInserts(sqlContent, t.name, t.rows, numText);
      sqlContent := sqlContent + "\n";
      Associate(structured, DataComment(t.name), InsertLines(t.name, t.rows, numText));
      Associate(structured, DataComment(t.name) + InsertLines(t.name, t.rows, numText), "\n");
    }
  }

  /** The loop over `PRAGMA table_info` rows. */
  method RenderColumns(cols: seq<ColumnInfo>, numText: real -> string) returns (columns: seq<string>)
    ensures columns == ColumnDefinitions(AsWritten, cols, numText)
  {
    columns := [];
    for j := 0 to |cols|
      invariant columns == ColumnDefinitions(AsWritten, cols[..j], numText)
    {
      var columnDef := RenderColumn(cols[j], numText);
      assert cols[..j + 1] == cols[..j] + [cols[j]];
      ColumnDefinitionsSnoc(AsWritten, cols[..j], cols[j], numText);
      columns := columns + [columnDef];
    }
    assert cols[..|cols|] == cols;
  }

  /** One column definition, flag by flag. */
  method RenderColumn(col: ColumnInfo, numText: real -> string) returns (columnDef: string)
    ensures columnDef == ColumnDefinition(AsWritten, col, numText)
  {
    ghost var head := "  `" + col.name + "` " + col.typ;
    columnDef := "  `" + col.name + "` " + col.typ;
    if col.notnull {
      columnDef := columnDef + NotNullWords;
    }
    assert columnDef == head + NotNullPart(col.notnull);
    if col.pk {
      ghost var mid := columnDef;
      columnDef := columnDef + PrimaryKeyWords;
      if IntegerType(col.typ) {
        columnDef := columnDef + AutoIncrementWords;
      }
      assert columnDef == mid + PrimaryKeyWords + AutoIncrementPart(IntegerType(col.typ));
      Associate(mid, PrimaryKeyWords, AutoIncrementPart(IntegerType(col.typ)));
    }
    assert columnDef == head + NotNullPart(col.notnull) + PrimaryKeyPart(col.pk, IntegerType(col.typ));
    Associate(head, NotNullPart(col.notnull), PrimaryKeyPart(col.pk, IntegerType(col.typ)));
    ghost var constrained := columnDef;
    assert constrained == head + Constraints(col);
    if col.dflt != SqlNull {
      if col.dflt.SqlText? && !StartsWith(col.dflt.t, "CURRENT_TIMESTAMP") {
        columnDef := columnDef + (" DEFAULT '" + col.dflt.t + "'");
      } else {
        columnDef := columnDef + DefaultClause(col, numText);
      }
    }
    assert columnDef == constrained + DefaultPart(AsWritten, col, numText);
  }

  /** The loop over the table's rows. */
  method AppendInserts(before: string, table: string, rows: seq<Row>, numText: real -> string) returns (sqlContent: string)
    ensures sqlContent == before + InsertLines(table, rows, numText)
  {
    sqlContent := before;
    for k := 0 to |rows|
      invariant sqlContent == before + InsertLines(table, rows[..k], numText)
    {
      assert rows[..k + 1][..k] == rows[..k];
      Associate(before, InsertLines(table, rows[..k], numText), InsertLine(table, rows[k], numText));
      sqlContent := sqlContent + InsertLine(table, rows[k], numText);
    }
    assert rows[..|rows|] == rows;
  }

  /** `q` occurs in `a + s` right after `a` when `s` starts with it. */
  lemma OccursAtStart(a: string, s: string, q: string)
    requires StartsWith(s, q)
    ensures OccursAt(a + s, q, |a|)
  {
    assert (a + s)[|a|..|a| + |q|] == s[..|q|];
  }

  lemma StartsWithExtended(x: string, y: string, q: string)
    requires StartsWith(x, q)
    ensures StartsWith(x + y, q)
  {
    assert (x + y)[..|q|] == x[..|q|];
  }

  /** The `CREATE TABLE` statement opens with the quoted table name. */
  lemma CreateStartsWithName(name: string, cols: string, tail: string)
    ensures StartsWith(CreateHead(name) + cols + tail, "CREATE TABLE `" + name + "`")
  {
    var q := "CREATE TABLE `" + name + "`";
    assert CreateHead(name) == q + " (\n";
    assert StartsWith(q, q);
    StartsWithExtended(q, " (\n", q);
    StartsWithExtended(CreateHead(name), cols, q);
    StartsWithExtended(CreateHead(name) + cols, tail, q);
  }

  /** Each table section drops the table before creating it, and carries a
      data part exactly when the table has rows. */
  lemma SectionOrder(style: DefaultStyle, t: TableData, numText: real -> string)
    ensures var comment := TableComment(t.name);
      && OccursAt(Structure(style, t, numText), DropStatement(t.name), |comment|)
      && OccursAt(Structure(style, t, numText), "CREATE TABLE `" + t.name + "`", |comment| + |DropStatement(t.name)|)
    ensures Data(t, numText) == "" <==> t.rows == []
  {
    assert Structure(style, t, numText) == TableComment(t.name) + DropStatement(t.name)
      + (CreateHead(t.name) + ColumnList(style, t.columns, numText) + CreateTail());
    OccursBetween(TableComment(t.name), DropStatement(t.name),
      CreateHead(t.name) + ColumnList(style, t.columns, numText) + CreateTail());
    CreateStartsWithName(t.name, ColumnList(style, t.columns, numText), CreateTail());
    OccursAtStart(TableComment(t.name) + DropStatement(t.name),
      CreateHead(t.name) + ColumnList(style, t.columns, numText) + CreateTail(),
      "CREATE TABLE `" + t.name + "`");
    if t.rows != [] {
      assert |Data(t, numText)| > 0;
    }
  }

  // ---------------------------------------------------------------------
  // How the dump ends.

  /** A text that is empty or does not end with a line break. */
  predicate OffLineEnd(s: string)
  {
    s == [] || s[|s| - 1] != '\n'
  }

  /** Number text, as JavaScript prints a number, never ends a line. */
  ghost predicate NumbersOffLine(numText: real -> string)
  {
    forall n :: OffLineEnd(numText(n))
  }

  /** Everything before the closing line of the last `CREATE TABLE`. */
  function OpenLastCreate(style: DefaultStyle, generatedOn: string, tables: seq<TableData>, numText: real -> string): string
    requires tables != []
  {
    var last := tables[|tables| - 1];
    Header(generatedOn) + Sections(style, tables[..|tables| - 1], numText)
      + TableComment(last.name) + DropStatement(last.name) + CreateHead(last.name)
      + Join(ColumnDefinitions(style, last.columns, numText), ",\n")
  }

  /** When the last table has no rows, the dump ends with its `CREATE`,
      whose `);` stands at the start of its own line (lines 74-75 put a
      line break after the last column definition). */
  lemma DumpEndsWithCreate(style: DefaultStyle, generatedOn: string, tables: seq<TableData>, numText: real -> string)
    requires tables != [] && tables[|tables| - 1].rows == []
    ensures DumpText(style, generatedOn, tables, numText)
         == OpenLastCreate(style, generatedOn, tables, numText) + "\n);\n\n"
  {
    var last := tables[|tables| - 1];
    StructureEndsWithClose(style, last, numText);
    SectionsEndWithStructure(style, tables, numText);
    Joined(Header(generatedOn), Sections(style, tables[..|tables| - 1], numText), Structure(style, last, numText),
      TableComment(last.name), DropStatement(last.name), CreateHead(last.name),
      Join(ColumnDefinitions(style, last.columns, numText), ",\n"), "\n);\n\n");
  }

  /** A last table without rows adds only its structure. */
  lemma SectionsEndWithStructure(style: DefaultStyle, tables: seq<TableData>, numText: real -> string)
    requires tables != [] && tables[|tables| - 1].rows == []
    ensures Sections(style, tables, numText)
         == Sections(style, tables[..|tables| - 1], numText) + Structure(style, tables[|tables| - 1], numText)
  {
    assert Data(tables[|tables| - 1], numText) == "";
  }

  lemma StructureEndsWithClose(style: DefaultStyle, t: TableData, numText: real -> string)
    ensures Structure(style, t, numText)
         == TableComment(t.name) + DropStatement(t.name) + CreateHead(t.name)
          + Join(ColumnDefinitions(style, t.columns, numText), ",\n") + "\n);\n\n"
  {
  }

  /** `h + (s + x)` read left to right, `x` being `a + b + c + j + e`. */
  lemma Joined(h: string, s: string, x: string, a: string, b: string, c: string, j: string, e: string)
    requires x == a + b + c + j + e
    ensures h + (s + x) == h + s + a + b + c + j + e
  {
  }

  /** When the last table has rows, the dump ends with its last `INSERT`,
      whose `);` follows the last value on the same line. */
  lemma DumpEndsWithInsert(style: DefaultStyle, generatedOn: string, tables: seq<TableData>, numText: real -> string)
    returns (before: string)
    requires tables != [] && tables[|tables| - 1].rows != []
    requires NumbersOffLine(numText)
    ensures DumpText(style, generatedOn, tables, numText) == before + ");\n\n"
    ensures before != [] && before[|before| - 1] != '\n'
  {
    var last := tables[|tables| - 1];
    var row := last.rows[|last.rows| - 1];
    var open := "INSERT INTO `" + last.name + "` (`" + Join(ColumnNames(row), "`, `") + "`) VALUES (";
    var values := Join(ValueTexts(row, numText), ", ");
    var lines := DataComment(last.name) + InsertLines(last.name, last.rows[..|last.rows| - 1], numText);
    DataEndsWithInsert(last, numText);
    var h, done := Header(generatedOn), Sections(style, tables[..|tables| - 1], numText) + Structure(style, last, numText);
    assert Sections(style, tables, numText) == done + Data(last, numText);
    before := h + done + (lines + open + values);
    Rejoined(h, done, Data(last, numText), lines + open, values, ");\n\n");
    forall i | 0 <= i < |ValueTexts(row, numText)| ensures OffLineEnd(ValueTexts(row, numText)[i]) {
      ValueOffLine(row[i].1, numText);
    }
    JoinOffLine(ValueTexts(row, numText), ", ");
    assert open[|open| - 1] == '(';
    EndOf(h + done, lines + open, values);
  }

  /** `h + (s + x)` read left to right, `x` being `a + v + e`. */
  lemma Rejoined(h: string, s: string, x: string, a: string, v: string, e: string)
    requires x == a + v + e
    ensures h + (s + x) == h + s + (a + v) + e
  {
  }

  /** A table with rows ends its data part with the last `INSERT`'s `);`,
      its line break and the blank line. */
  lemma DataEndsWithInsert(t: TableData, numText: real -> string)
    requires t.rows != []
    ensures var row := t.rows[|t.rows| - 1];
      Data(t, numText)
        == DataComment(t.name) + InsertLines(t.name, t.rows[..|t.rows| - 1], numText)
         + ("INSERT INTO `" + t.name + "` (`" + Join(ColumnNames(row), "`, `") + "`) VALUES (")
         + Join(ValueTexts(row, numText), ", ") + ");\n\n"
  {
    var row := t.rows[|t.rows| - 1];
    var open := "INSERT INTO `" + t.name + "` (`" + Join(ColumnNames(row), "`, `") + "`) VALUES (";
    var values := Join(ValueTexts(row, numText), ", ");
    assert t.rows[..|t.rows| - 1] + [row] == t.rows;
    LastLineRegroup(DataComment(t.name), InsertLines(t.name, t.rows[..|t.rows| - 1], numText), open, values);
  }

  /** The data part read left to right, its last line split open. */
  lemma LastLineRegroup(d: string, l: string, o: string, v: string)
    ensures d + (l + (o + v + ");\n")) + "\n" == d + l + o + v + ");\n\n"
  {
  }

  /** The last character of `a + (o + v)` is `v`'s, or `o`'s when `v` is
      empty; `o` ends with the opening parenthesis. */
  lemma EndOf(a: string, o: string, v: string)
    requires o != [] && o[|o| - 1] == '(' && OffLineEnd(v)
    ensures var b := a + (o + v); b != [] && b[|b| - 1] != '\n'
  {
    var b := a + (o + v);
    if v == [] {
      assert b[|b| - 1] == o[|o| - 1];
    } else {
      assert b[|b| - 1] == v[|v| - 1];
    }
  }
  /** A value literal ends with a quote, with `L`, or as its number
      text does. */
  lemma ValueOffLine(v: SqlValue, numText: real -> string)
    requires NumbersOffLine(numText)
    ensures OffLineEnd(ValueLiteral(v, numText))
  {
    if v.SqlText? {
      assert ValueLiteral(v, numText) == "'" + Escape(v.t) + "'";
    }
  }

  /** Parts and separator that do not end a line give a join that does
      not either. */
  lemma {:induction false} JoinOffLine(parts: seq<string>, sep: string)
    requires sep != [] && sep[|sep| - 1] != '\n'
    requires forall i :: 0 <= i < |parts| ==> OffLineEnd(parts[i])
    ensures OffLineEnd(Join(parts, sep))
  {
    if |parts| > 1 {
      JoinOffLine(parts[1..], sep);
      var rest := Join(parts[1..], sep);
      if rest == [] {
        assert Join(parts, sep) == parts[0] + sep;
      } else {
        assert Join(parts, sep) == (parts[0] + sep) + rest;
      }
    }
  }
}

=== FILE: filters.dfy ===
/** Dynamic WHERE-clause composition for `GET /api/orders` and
    `GET /api/products`: each truthy query parameter appends one condition
    and its bound parameters; the conditions are joined with AND. */
module Filters {
  import opened Values
  import opened Text
  import opened SqlLike
  import opened Schema

  /** One appended condition, by the SQL text it contributes. */
  datatype Condition =
    | StatusIs               // o.status = ?
    | UserIdIs               // o.user_id = ?
    | CategoryIs             // category = ?
    | PriceAtLeast           // price >= ?
    | PriceAtMost            // price <= ?
    | NameOrDescriptionLike  // (name LIKE ? OR description LIKE ?)

  function ConditionSql(c: Condition): string
  {
    match c
    case StatusIs => "o.status = ?"
    case UserIdIs => "o.user_id = ?"
    case CategoryIs => "category = ?"
    case PriceAtLeast => "price >= ?"
    case PriceAtMost => "price <= ?"
    case NameOrDescriptionLike => "(name LIKE " + "?" + " OR description LIKE " + "?" + ")"
  }

  /** How many parameters a condition binds. */
  function Arity(c: Condition): nat
  {
    if c == NameOrDescriptionLike then 2 else 1
  }

  lemma ArityIsPlaceholderCount(c: Condition)
    ensures Count(ConditionSql(c), '?') == Arity(c)
  {
    match c {
      case StatusIs => { assert ConditionSql(c) == "o.status = " + "?"; OnePlaceholder("o.status = "); }
      case UserIdIs => { assert ConditionSql(c) == "o.user_id = " + "?"; OnePlaceholder("o.user_id = "); }
      case CategoryIs => { assert ConditionSql(c) == "category = " + "?"; OnePlaceholder("category = "); }
      case PriceAtLeast => { assert ConditionSql(c) == "price >= " + "?"; OnePlaceholder("price >= "); }
      case PriceAtMost => { assert ConditionSql(c) == "price <= " + "?"; OnePlaceholder("price <= "); }
      case NameOrDescriptionLike => TwoPlaceholders();
    }
  }

  lemma OnePlaceholder(before: string)
    requires '?' !in before
    ensures Count(before + "?", '?') == 1
  {
    CountOnce(before, '?', "");
    assert before + "?" == before + ['?'] + "";
  }

  lemma TwoPlaceholders()
    ensures Count(ConditionSql(NameOrDescriptionLike), '?') == 2
  {
    TwoPlaceholdersBetween("(name LIKE ", " OR description LIKE ", ")");
  }

  lemma TwoPlaceholdersBetween(a: string, b: string, c: string)
    requires '?' !in a && '?' !in b && '?' !in c
    ensures Count(a + "?" + b + "?" + c, '?') == 2
  {
    CountOnce(a, '?', "");
    CountOnce(b, '?', c);
    assert a + "?" == a + ['?'] + "";
    assert a + "?" + b + "?" + c == (a + ['?'] + "") + (b + ['?'] + c);
    CountAppend(a + ['?'] + "", b + ['?'] + c, '?');
  }

  function Placeholders(conds: seq<Condition>): nat
  {
    if conds == [] then 0 else Arity(conds[0]) + Placeholders(conds[1..])
  }

  lemma {:induction false} PlaceholdersAppend(conds: seq<Condition>, c: Condition)
    ensures Placeholders(conds + [c]) == Placeholders(conds) + Arity(c)
  {
    if conds == [] {
      assert [] + [c] == [c];
    } else {
      assert (conds + [c])[1..] == conds[1..] + [c];
      PlaceholdersAppend(conds[1..], c);
    }
  }

  function ConditionTexts(conds: seq<Condition>): (r: seq<string>)
    ensures |r| == |conds|
    ensures forall i :: 0 <= i < |conds| ==> r[i] == ConditionSql(conds[i])
  {
    if conds == [] then [] else [ConditionSql(conds[0])] + ConditionTexts(conds[1..])
  }

  /** `' WHERE ' + conditions.join(' AND ')`, only when a condition exists. */
  function WhereClause(conds: seq<Condition>): string
  {
    if conds == [] then "" else " WHERE " + Join(ConditionTexts(conds), " AND ")
  }

  /** The composed WHERE clause holds exactly one `?` per bound parameter
      slot of its conditions, and is empty exactly when no condition was
      appended. */
  lemma WherePlaceholders(conds: seq<Condition>)
    ensures Count(WhereClause(conds), '?') == Placeholders(conds)
    ensures WhereClause(conds) == "" <==> conds == []
  {
    if conds != [] {
      CountJoin(ConditionTexts(conds), " AND ", '?');
      assert Count(" AND ", '?') == 0;
      assert Count(" WHERE ", '?') == 0;
      CountAppend(" WHERE ", Join(ConditionTexts(conds), " AND "), '?');
      SumCountsTexts(conds);
    }
  }

  lemma {:induction false} SumCountsTexts(conds: seq<Condition>)
    ensures SumCounts(ConditionTexts(conds), '?') == Placeholders(conds)
  {
    if conds != [] {
      ArityIsPlaceholderCount(conds[0]);
      assert ConditionTexts(conds)[1..] == ConditionTexts(conds[1..]);
      SumCountsTexts(conds[1..]);
    }
  }

  /** A query-string parameter: `None` when absent from the URL. */
  type QueryParam = Option<string>

  /** `if (param)`: present and not the empty string. */
  predicate Given(q: QueryParam)
  {
    q.Some? && q.value != ""
  }

  /** `parseFloat(text)` as bound by node-sqlite3; NaN binds as NULL. */
  function PriceParam(text: string): SqlValue
  {
    NumberParam(ParseFloat(text))
  }

  /** A JavaScript number as bound: NaN becomes NULL. */
  function NumberParam(n: Option<real>): SqlValue
  {
    match n
    case Some(x) => SqlNum(x)
    case None => SqlNull
  }

  /** What the price parameters bind for a few query strings: a decimal,
      a negative number, leading blanks, an exponent, trailing junk, and a
      text that is not a number. */
  lemma PriceParamDecimal()
    ensures PriceParam("49.99") == SqlNum(49.99)
  {
    DigitsOf("49", 49);
    ParseFloatDecimal("49", "99", "");
    assert "49" + "." + "99" + "" == "49.99";
    assert FracValue("99") == 0.99 by {
      assert "99"[1..] == "9" && "9"[1..] == "";
    }
  }

  lemma PriceParamNegative()
    ensures PriceParam("-1") == SqlNum(-1.0)
  {
    DigitsOf("1", 1);
    ParseFloatInteger("1", "");
    assert "1" + "" == "1";
    ParseFloatSign("1");
    assert "-" + "1" == "-1";
  }

  lemma PriceParamBlank()
    ensures PriceParam(" 5") == SqlNum(5.0)
  {
    DigitsOf("5", 5);
    ParseFloatInteger("5", "");
    assert "5" + "" == "5";
    ParseFloatSkipsSpace(" ", "5");
    assert " " + "5" == " 5";
  }

  lemma PriceParamExponent()
    ensures PriceParam("5e1") == SqlNum(50.0)
  {
    DigitsOf("5", 5);
    DigitsOf("1", 1);
    ParseFloatExponent("5", "1", "");
    assert "5" + "e" + "1" + "" == "5e1";
  }

  lemma PriceParamTrailing()
    ensures PriceParam("12abc") == SqlNum(12.0)
  {
    DigitsOf("12", 12);
    ParseFloatInteger("12", "abc");
    assert "12" + "abc" == "12abc";
  }

  lemma PriceParamNaN()
    ensures PriceParam("abc") == SqlNull
  {
    ParseFloatNaN("abc");
  }

  lemma DigitsOf(s: string, n: nat)
    requires (|s| == 1 && IsDigit(s[0]) && n == DigitValue(s[0]))
          || (|s| == 2 && IsDigit(s[0]) && IsDigit(s[1]) && n == DigitValue(s[0]) * 10 + DigitValue(s[1]))
    ensures DigitsValue(s) == n && AllDigits(s)
  {
    if |s| == 2 {
      var h := s[..1];
      assert h == [s[0]] && h[..0] == [];
      assert DigitsValue(h) == DigitValue(s[0]);
      assert DigitsValue(s) == DigitsValue(h) * 10 + DigitValue(s[1]);
    } else {
      assert s[..0] == [];
    }
  }

  // ---------------------------------------------------------------------
  // Meaning of the bound conditions, parameters consumed left to right.

  /** `o.user_id = ?` with a text parameter: INTEGER affinity turns a digit
      string into a number before the comparison. */
  predicate UserIdEquals(userId: SqlValue, p: SqlValue)
  {
    match p
    case SqlText(t) => IntegerAffinity(t).Some? && Refers(userId, IntegerAffinity(t).value)
    case _ => SqlEquals(userId, p)
  }

  /** A LIKE on a column: NULL (and, here, a non-text value) never matches. */
  predicate LikeValue(v: SqlValue, p: SqlValue)
  {
    v.SqlText? && p.SqlText? && Like(v.t, p.t)
  }

  predicate OrderConditionHolds(c: Condition, args: seq<SqlValue>, o: Order)
  {
    |args| == Arity(c) &&
    match c
    case StatusIs => SqlEquals(o.status, args[0])
    case UserIdIs => UserIdEquals(o.userId, args[0])
    case _ => false
  }

  predicate ProductConditionHolds(c: Condition, args: seq<SqlValue>, p: Product)
  {
    |args| == Arity(c) &&
    match c
    case CategoryIs => SqlEquals(p.category, args[0])
    case PriceAtLeast => p.price != SqlNull && args[0] != SqlNull && SqlAtMost(args[0], p.price)
    case PriceAtMost => p.price != SqlNull && args[0] != SqlNull && SqlAtMost(p.price, args[0])
    case NameOrDescriptionLike => LikeValue(p.name, args[0]) || LikeValue(p.description, args[1])
    case _ => false
  }

  /** The row passes every condition, each reading its own parameters in
      order; `holds` gives one condition its meaning on one row. */
  predicate Satisfies<R>(conds: seq<Condition>, params: seq<SqlValue>, row: R,
                         holds: (Condition, seq<SqlValue>, R) -> bool)
  {
    if conds == [] then params == []
    else
      var k := Arity(conds[0]);
      k <= |params| && holds(conds[0], params[..k], row)
      && Satisfies(conds[1..], params[k..], row, holds)
  }

  /** Appending one condition with its parameters conjoins its meaning. */
  lemma {:induction false} SatisfiesAppend<R>(conds: seq<Condition>, params: seq<SqlValue>, c: Condition,
                                              args: seq<SqlValue>, row: R, holds: (Condition, seq<SqlValue>, R) -> bool)
    requires |params| == Placeholders(conds) && |args| == Arity(c)
    ensures Placeholders(conds + [c]) == |params + args|
    ensures Satisfies(conds + [c], params + args, row, holds)
        <==> Satisfies(conds, params, row, holds) && holds(c, args, row)
  {
    if conds == [] {
      assert [] + [c] == [c];
      assert params == [];
      assert (params + args)[..Arity(c)] == args;
    } else {
      var k := Arity(conds[0]);
      assert (conds + [c])[1..] == conds[1..] + [c];
      assert (params + args)[..k] == params[..k];
      assert (params + args)[k..] == params[k..] + args;
      SatisfiesAppend(conds[1..], params[k..], c, args, row, holds);
    }
  }

  // ---------------------------------------------------------------------
  // Reference definitions: what each filter means for a row.

  datatype OrderFilters = OrderFilters(status: QueryParam, userId: QueryParam)

  datatype ProductFilters = ProductFilters(
    category: QueryParam, minPrice: QueryParam, maxPrice: QueryParam, search: QueryParam)

  predicate OrderMatches(f: OrderFilters, o: Order)
  {
    && (Given(f.status) ==> o.status == SqlText(f.status.value))
    && (Given(f.userId) ==>
          IntegerAffinity(f.userId.value).Some? && Refers(o.userId, IntegerAffinity(f.userId.value).value))
  }

  /** `price >= bound` in SQLite: a numeric price compares numerically, a
      text price sorts after every number; a NaN bound (NULL) matches
      nothing. */
  predicate AtLeast(price: SqlValue, bound: Option<real>)
  {
    bound.Some? && (price.SqlText? || (price.SqlNum? && price.n >= bound.value))
  }

  predicate AtMost(price: SqlValue, bound: Option<real>)
  {
    bound.Some? && price.SqlNum? && price.n <= bound.value
  }

  predicate Mentions(v: SqlValue, term: string)
  {
    v.SqlText? && Like(v.t, SubstringPattern(term))
  }

  predicate CategoryFilter(f: ProductFilters, p: Product)
  {
    Given(f.category) ==> p.category == SqlText(f.category.value)
  }

  predicate MinPriceFilter(f: ProductFilters, p: Product)
  {
    Given(f.minPrice) ==> AtLeast(p.price, ParseFloat(f.minPrice.value))
  }

  predicate MaxPriceFilter(f: ProductFilters, p: Product)
  {
    Given(f.maxPrice) ==> AtMost(p.price, ParseFloat(f.maxPrice.value))
  }

  predicate SearchFilter(f: ProductFilters, p: Product)
  {
    Given(f.search) ==> Mentions(p.name, f.search.value) || Mentions(p.description, f.search.value)
  }

  /** A product is listed when it passes every present filter. */
  predicate ProductMatches(f: ProductFilters, p: Product)
  {
    CategoryFilter(f, p) && MinPriceFilter(f, p) && MaxPriceFilter(f, p) && SearchFilter(f, p)
  }

  /** For a search term without LIKE wildcards, the search filter is plain
      substring containment in the name or the description. */
  lemma SearchIsSubstring(v: SqlValue, term: string)
    requires WildcardFree(term)
    ensures Mentions(v, term) <==> v.SqlText? && Contains(Lower(v.t), Lower(term))
  {
    if v.SqlText? {
      SubstringPatternIsContains(v.t, term);
    }
  }

  // ---------------------------------------------------------------------
  // Each appended condition, with the parameters its route binds, means
  // its filter.

  lemma CategoryMeaning(f: ProductFilters, p: Product)
    requires Given(f.category)
    ensures ProductConditionHolds(CategoryIs, [SqlText(f.category.value)], p) <==> CategoryFilter(f, p)
  {
  }

  lemma MinPriceMeaning(f: ProductFilters, p: Product)
    requires Given(f.minPrice)
    ensures ProductConditionHolds(PriceAtLeast, [PriceParam(f.minPrice.value)], p) <==> MinPriceFilter(f, p)
  {
    BoundMeaning(p, ParseFloat(f.minPrice.value));
  }

  lemma MaxPriceMeaning(f: ProductFilters, p: Product)
    requires Given(f.maxPrice)
    ensures ProductConditionHolds(PriceAtMost, [PriceParam(f.maxPrice.value)], p) <==> MaxPriceFilter(f, p)
  {
    BoundMeaning(p, ParseFloat(f.maxPrice.value));
  }

  lemma BoundMeaning(p: Product, bound: Option<real>)
    ensures ProductConditionHolds(PriceAtLeast, [NumberParam(bound)], p) <==> AtLeast(p.price, bound)
    ensures ProductConditionHolds(PriceAtMost, [NumberParam(bound)], p) <==> AtMost(p.price, bound)
  {
  }

  /** `maxPrice=49.99` keeps a product priced exactly 49.99, and
      `minPrice=abc` (NaN, bound as NULL) drops every product. */
  lemma PriceBoundsExamples(f: ProductFilters, p: Product)
    ensures f.maxPrice == Some("49.99") && p.price == SqlNum(49.99) ==> MaxPriceFilter(f, p)
    ensures f.minPrice == Some("abc") ==> !MinPriceFilter(f, p)
  {
    PriceParamDecimal();
    PriceParamNaN();
  }

  lemma SearchMeaning(f: ProductFilters, p: Product)
    requires Given(f.search)
    ensures var pattern := SqlText(SubstringPattern(f.search.value));
      ProductConditionHolds(NameOrDescriptionLike, [pattern, pattern], p) <==> SearchFilter(f, p)
  {
  }

  // ---------------------------------------------------------------------
  // The builders, as written in the two routes.

  const OrdersSelect: string :=
    "SELECT o.*, u.name as user_name, u.email as user_email FROM orders o LEFT JOIN users u ON o.user_id = u.id"
  const OrdersOrderBy: string := " ORDER BY o.created_at DESC"
  const ProductsSelect: string := "SELECT * FROM products"
  const ProductsOrderBy: string := " ORDER BY created_at DESC"

  /** The conditions `GET /api/orders` appends, in order, and the
      parameters it binds for them. */
  function OrderConditions(f: OrderFilters): seq<Condition>
  {
    (if Given(f.status) then [StatusIs] else []) + (if Given(f.userId) then [UserIdIs] else [])
  }

  function OrderParams(f: OrderFilters): seq<SqlValue>
  {
    (if Given(f.status) then [SqlText(f.status.value)] else []) +
    (if Given(f.userId) then [SqlText(f.userId.value)] else [])
  }

  /** The composed query binds one parameter per placeholder, and an order
      satisfies it exactly when it passes both present filters. */
  lemma OrderQueryMeaning(f: OrderFilters, o: Order)
    ensures |OrderParams(f)| == Placeholders(OrderConditions(f))
    ensures Satisfies(OrderConditions(f), OrderParams(f), o, OrderConditionHolds) <==> OrderMatches(f, o)
  {
    var c0: seq<Condition> := if Given(f.status) then [StatusIs] else [];
    var p0: seq<SqlValue> := if Given(f.status) then [SqlText(f.status.value)] else [];
    if Given(f.status) {
      SatisfiesAppend([], [], StatusIs, p0, o, OrderConditionHolds);
      assert [] + [StatusIs] == c0 && [] + p0 == p0;
    }
    if Given(f.userId) {
      SatisfiesAppend(c0, p0, UserIdIs, [SqlText(f.userId.value)], o, OrderConditionHolds);
    } else {
      assert OrderConditions(f) == c0 && OrderParams(f) == p0;
    }
  }

  /** `sql += ' WHERE ' + conditions.join(' AND ')` when a condition was
      appended. */
  method AppendWhere(before: string, conds: seq<Condition>) returns (sql: string)
    ensures sql == before + WhereClause(conds)
    ensures Count(WhereClause(conds), '?') == Placeholders(conds)
  {
    sql := before;
    if |conds| > 0 {
      sql := sql + " WHERE " + Join(ConditionTexts(conds), " AND ");
    }
    WherePlaceholders(conds);
  }

  method BuildOrderQuery(f: OrderFilters) returns (sql: string, conds: seq<Condition>, params: seq<SqlValue>)
    ensures conds == OrderConditions(f) && params == OrderParams(f)
    ensures |params| == Placeholders(conds) == Count(WhereClause(conds), '?')
    ensures sql == OrdersSelect + WhereClause(conds) + OrdersOrderBy
    ensures forall o :: Satisfies(conds, params, o, OrderConditionHolds) <==> OrderMatches(f, o)
  {
    conds, params := [], [];
    if Given(f.status) {
      conds := conds + [StatusIs];
      params := params + [SqlText(f.status.value)];
    }
    if Given(f.userId) {
      conds := conds + [UserIdIs];
      params := params + [SqlText(f.userId.value)];
    }
    sql := AppendWhere(OrdersSelect, conds);
    sql := sql + OrdersOrderBy;
    forall o: Order
      ensures Satisfies(conds, params, o, OrderConditionHolds) <==> OrderMatches(f, o)
    {
      OrderQueryMeaning(f, o);
    }
    OrderQueryMeaning(f, Order(SqlNull, SqlNull, SqlNull, 0));
  }

  function ProductConditions(f: ProductFilters): seq<Condition>
  {
    (if Given(f.category) then [CategoryIs] else []) +
    (if Given(f.minPrice) then [PriceAtLeast] else []) +
    (if Given(f.maxPrice) then [PriceAtMost] else []) +
    (if Given(f.search) then [NameOrDescriptionLike] else [])
  }

  /** The parameters it binds: `parseFloat` for the prices, `%term%` twice
      for the search. */
  function ProductParams(f: ProductFilters): seq<SqlValue>
  {
    (if Given(f.category) then [SqlText(f.category.value)] else []) +
    (if Given(f.minPrice) then [PriceParam(f.minPrice.value)] else []) +
    (if Given(f.maxPrice) then [PriceParam(f.maxPrice.value)] else []) +
    (if Given(f.search) then [SqlText(SubstringPattern(f.search.value)), SqlText(SubstringPattern(f.search.value))] else [])
  }

  /** Three conditional appends, one after the other. */
  lemma AppendsShape<T>(x1: seq<T>, x2: seq<T>, x3: seq<T>, x4: seq<T>, b2: bool, b3: bool, b4: bool,
                        y2: seq<T>, y3: seq<T>, y4: seq<T>)
    requires x2 == (if b2 then x1 + y2 else x1)
    requires x3 == (if b3 then x2 + y3 else x2)
    requires x4 == (if b4 then x3 + y4 else x3)
    ensures x4 == x1 + (if b2 then y2 else []) + (if b3 then y3 else []) + (if b4 then y4 else [])
  {
  }

  /** The composed query binds one parameter per placeholder, and a product
      satisfies it exactly when it passes every present filter. */
  lemma ProductQueryMeaning(f: ProductFilters, p: Product)
    ensures |ProductParams(f)| == Placeholders(ProductConditions(f))
    ensures Satisfies(ProductConditions(f), ProductParams(f), p, ProductConditionHolds) <==> ProductMatches(f, p)
  {
    var c0: seq<Condition> := if Given(f.category) then [CategoryIs] else [];
    var p0: seq<SqlValue> := if Given(f.category) then [SqlText(f.category.value)] else [];
    if Given(f.category) {
      SatisfiesAppend([], [], CategoryIs, p0, p, ProductConditionHolds);
      assert [] + [CategoryIs] == c0 && [] + p0 == p0;
      CategoryMeaning(f, p);
    }
    assert |p0| == Placeholders(c0);
    assert Satisfies(c0, p0, p, ProductConditionHolds) <==> CategoryFilter(f, p);
    var c1 := c0 + if Given(f.minPrice) then [PriceAtLeast] else [];
    var p1 := p0 + if Given(f.minPrice) then [PriceParam(f.minPrice.value)] else [];
    if Given(f.minPrice) {
      SatisfiesAppend(c0, p0, PriceAtLeast, [PriceParam(f.minPrice.value)], p, ProductConditionHolds);
      MinPriceMeaning(f, p);
    } else {
      assert c1 == c0 && p1 == p0;
    }
    assert Satisfies(c1, p1, p, ProductConditionHolds) <==> CategoryFilter(f, p) && MinPriceFilter(f, p);
    var c2 := c1 + if Given(f.maxPrice) then [PriceAtMost] else [];
    var p2 := p1 + if Given(f.maxPrice) then [PriceParam(f.maxPrice.value)] else [];
    if Given(f.maxPrice) {
      SatisfiesAppend(c1, p1, PriceAtMost, [PriceParam(f.maxPrice.value)], p, ProductConditionHolds);
      MaxPriceMeaning(f, p);
    } else {
      assert c2 == c1 && p2 == p1;
    }
    assert Satisfies(c2, p2, p, ProductConditionHolds)
       <==> CategoryFilter(f, p) && MinPriceFilter(f, p) && MaxPriceFilter(f, p);
    if Given(f.search) {
      var pattern := SqlText(SubstringPattern(f.search.value));
      SatisfiesAppend(c2, p2, NameOrDescriptionLike, [pattern, pattern], p, ProductConditionHolds);
      SearchMeaning(f, p);
      assert ProductConditions(f) == c2 + [NameOrDescriptionLike];
      assert ProductParams(f) == p2 + [pattern, pattern];
    } else {
      assert ProductConditions(f) == c2 && ProductParams(f) == p2;
    }
  }

  /** The four `if` blocks of `GET /api/products`, each appending its
      condition and parameters. */
  method ProductFilterList(f: ProductFilters) returns (conds: seq<Condition>, params: seq<SqlValue>)
    ensures conds == ProductConditions(f) && params == ProductParams(f)
  {
    conds, params := [], [];
    if Given(f.category) {
      conds := conds + [CategoryIs];
      params := params + [SqlText(f.category.value)];
    }
    ghost var c1, p1 := conds, params;
    if Given(f.minPrice) {
      conds := conds + [PriceAtLeast];
      params := params + [PriceParam(f.minPrice.value)];
    }
    ghost var c2, p2 := conds, params;
    if Given(f.maxPrice) {
      conds := conds + [PriceAtMost];
      params := params + [PriceParam(f.maxPrice.value)];
    }
    ghost var c3, p3 := conds, params;
    if Given(f.search) {
      var pattern := SubstringPattern(f.search.value);
      conds := conds + [NameOrDescriptionLike];
      params := params + [SqlText(pattern), SqlText(pattern)];
    }
    ProductListShape(f, c1, p1, c2, p2, c3, p3, conds, params);
  }

  /** The four steps of `ProductFilterList` compose to the whole lists. */
  lemma ProductListShape(f: ProductFilters, c1: seq<Condition>, p1: seq<SqlValue>,
                         c2: seq<Condition>, p2: seq<SqlValue>, c3: seq<Condition>, p3: seq<SqlValue>,
                         c4: seq<Condition>, p4: seq<SqlValue>)
    requires c1 == (if Given(f.category) then [CategoryIs] else [])
    requires p1 == (if Given(f.category) then [SqlText(f.category.value)] else [])
    requires c2 == (if Given(f.minPrice) then c1 + [PriceAtLeast] else c1)
    requires p2 == (if Given(f.minPrice) then p1 + [PriceParam(f.minPrice.value)] else p1)
    requires c3 == (if Given(f.maxPrice) then c2 + [PriceAtMost] else c2)
    requires p3 == (if Given(f.maxPrice) then p2 + [PriceParam(f.maxPrice.value)] else p2)
    requires c4 == (if Given(f.search) then c3 + [NameOrDescriptionLike] else c3)
    requires p4 == (if Given(f.search) then p3 + [SqlText(SubstringPattern(f.search.value)), SqlText(SubstringPattern(f.search.value))] else p3)
    ensures c4 == ProductConditions(f) && p4 == ProductParams(f)
  {
    AppendsShape(p1, p2, p3, p4, Given(f.minPrice), Given(f.maxPrice), Given(f.search),
                 if Given(f.minPrice) then [PriceParam(f.minPrice.value)] else [],
                 if Given(f.maxPrice) then [PriceParam(f.maxPrice.value)] else [],
                 if Given(f.search) then [SqlText(SubstringPattern(f.search.value)), SqlText(SubstringPattern(f.search.value))] else []);
    AppendsShape(c1, c2, c3, c4, Given(f.minPrice), Given(f.maxPrice), Given(f.search),
                 [PriceAtLeast], [PriceAtMost], [NameOrDescriptionLike]);
  }

  method BuildProductQuery(f: ProductFilters) returns (sql: string, conds: seq<Condition>, params: seq<SqlValue>)
    ensures conds == ProductConditions(f) && params == ProductParams(f)
    ensures |params| == Placeholders(conds) == Count(WhereClause(conds), '?')
    ensures sql == ProductsSelect + WhereClause(conds) + ProductsOrderBy
    ensures forall p :: Satisfies(conds, params, p, ProductConditionHolds) <==> ProductMatches(f, p)
  {
    conds, params := ProductFilterList(f);
    sql := AppendWhere(ProductsSelect, conds);
    sql := sql + ProductsOrderBy;
    forall p: Product
      ensures Satisfies(conds, params, p, ProductConditionHolds) <==> ProductMatches(f, p)
    {
      ProductQueryMeaning(f, p);
    }
    ProductQueryMeaning(f, Product(SqlNull, SqlNull, SqlNull, SqlNull, SqlNull, 0));
  }

}

=== FILE: init.dfy ===
/** database/init.js: `CREATE TABLE IF NOT EXISTS` for the three tables,
    then three loops that insert the sample rows one by one, each insert
    in its own try/catch so a failing row is logged and skipped. */
module Seed {
  import opened Values
  import opened Schema
  import opened Database

  datatype SampleUser = SampleUser(name: string, email: string, age: int)
  datatype SampleProduct = SampleProduct(name: string, description: string, price: real, category: string, stock: int)
  datatype SampleOrder = SampleOrder(userId: int, total: real, status: string)

  const SampleUsers: seq<SampleUser> := [
    SampleUser("John Doe", "john@example.com", 30),
    SampleUser("Jane Smith", "jane@example.com", 25),
    SampleUser("Bob Johnson", "bob@example.com", 35),
    SampleUser("Alice Brown", "alice@example.com", 28),
    SampleUser("Charlie Wilson", "charlie@example.com", 32)
  ]

  const SampleProducts: seq<SampleProduct> := [
    SampleProduct("Laptop", "High-performance laptop for work and gaming", 999.99, "Electronics", 50),
    SampleProduct("Smartphone", "Latest smartphone with advanced features", 699.99, "Electronics", 100),
    SampleProduct("Coffee Maker", "Automatic coffee maker for home use", 89.99, "Home & Kitchen", 25),
    SampleProduct("Running Shoes", "Comfortable running shoes for athletes", 129.99, "Sports", 75),
    SampleProduct("Backpack", "Durable backpack for daily use", 49.99, "Fashion", 60),
    SampleProduct("Wireless Headphones", "Noise-cancelling wireless headphones", 199.99, "Electronics", 40),
    SampleProduct("Yoga Mat", "Non-slip yoga mat for fitness", 29.99, "Sports", 100),
    SampleProduct("Desk Lamp", "LED desk lamp with adjustable brightness", 39.99, "Home & Kitchen", 30)
  ]

  const SampleOrders: seq<SampleOrder> := [
    SampleOrder(1, 999.99, "delivered"),
    SampleOrder(2, 89.99, "shipped"),
    SampleOrder(3, 129.99, "processing"),
    SampleOrder(1, 199.99, "pending"),
    SampleOrder(4, 49.99, "delivered")
  ]

  function UserRow(s: SampleUser, now: int): User
  {
    User(SqlText(s.name), SqlText(s.email), SqlNum(s.age as real), now)
  }

  function ProductRow(s: SampleProduct, now: int): Product
  {
    Product(SqlText(s.name), SqlText(s.description), SqlNum(s.price), SqlText(s.category), SqlNum(s.stock as real), now)
  }

  function OrderRow(s: SampleOrder, now: int): Order
  {
    Order(SqlNum(s.userId as real), SqlNum(s.total), SqlText(s.status), now)
  }

  // ---------------------------------------------------------------------
  // One insert of each loop, on a table and its AUTOINCREMENT counter.

  /** `INSERT OR IGNORE INTO users`: a taken email leaves the table alone,
      but the counter still moves on, because the AUTOINCREMENT rowid is
      allocated before the UNIQUE check turns the row away. */
  function SeedUser(users: map<int, User>, counter: int, s: SampleUser, now: int): (map<int, User>, int)
  {
    if EmailInUse(users, SqlText(s.email)) then (users, counter + 1)
    else (users[counter + 1 := UserRow(s, now)], counter + 1)
  }

  /** `INSERT OR IGNORE INTO products`: nothing to conflict with, so the
      row is always added. */
  function SeedProduct(products: map<int, Product>, counter: int, s: SampleProduct, now: int): (map<int, Product>, int)
  {
    (products[counter + 1 := ProductRow(s, now)], counter + 1)
  }

  /** `INSERT OR IGNORE INTO orders`: OR IGNORE does not cover foreign
      keys, so a sample naming a missing user throws; the loop logs it and
      goes on, and the failed statement consumes no id. */
  function SeedOrder(orders: map<int, Order>, counter: int, users: map<int, User>, s: SampleOrder, now: int)
    : (map<int, Order>, int)
  {
    if s.userId in users then (orders[counter + 1 := OrderRow(s, now)], counter + 1)
    else (orders, counter)
  }

  // ---------------------------------------------------------------------
  // The three loops, as folds over the sample lists.

  function SeedUsers(users: map<int, User>, counter: int, samples: seq<SampleUser>, now: int): (map<int, User>, int)
  {
    if samples == [] then (users, counter)
    else
      var t := SeedUsers(users, counter, samples[..|samples| - 1], now);
      SeedUser(t.0, t.1, samples[|samples| - 1], now)
  }

  function SeedProducts(products: map<int, Product>, counter: int, samples: seq<SampleProduct>, now: int)
    : (map<int, Product>, int)
  {
    if samples == [] then (products, counter)
    else
      var t := SeedProducts(products, counter, samples[..|samples| - 1], now);
      SeedProduct(t.0, t.1, samples[|samples| - 1], now)
  }

  function SeedOrders(orders: map<int, Order>, counter: int, users: map<int, User>, samples: seq<SampleOrder>, now: int)
    : (map<int, Order>, int)
  {
    if samples == [] then (orders, counter)
    else
      var t := SeedOrders(orders, counter, users, samples[..|samples| - 1], now);
      SeedOrder(t.0, t.1, users, samples[|samples| - 1], now)
  }

  // ---------------------------------------------------------------------
  // What the loops promise.

  /** Seeding users never touches an existing row, and keeps the table
      valid: ids stay issued, names and emails non-null, emails unique.
      The counter moves by one per sample, inserted or ignored. */
  lemma {:induction false} SeedUsersKeeps(users: map<int, User>, counter: int, samples: seq<SampleUser>, now: int)
    requires UsersValid(users, counter)
    ensures var r := SeedUsers(users, counter, samples, now);
      && UsersValid(r.0, r.1) && r.1 == counter + |samples|
      && forall k :: k in users ==> k in r.0 && r.0[k] == users[k]
  {
    if samples != [] {
      var t := SeedUsers(users, counter, samples[..|samples| - 1], now);
      SeedUsersKeeps(users, counter, samples[..|samples| - 1], now);
      var s := samples[|samples| - 1];
      if !EmailInUse(t.0, SqlText(s.email)) {
        InsertUserKeepsUsersValid(t.0, t.1, UserRow(s, now));
      }
    }
  }

  /** After the users loop, every sample email is taken. */
  lemma {:induction false} SeedUsersCovers(users: map<int, User>, counter: int, samples: seq<SampleUser>, now: int)
    requires UsersValid(users, counter)
    ensures forall s :: s in samples ==> EmailInUse(SeedUsers(users, counter, samples, now).0, SqlText(s.email))
  {
    if samples != [] {
      var init := samples[..|samples| - 1];
      var t := SeedUsers(users, counter, init, now);
      var last := samples[|samples| - 1];
      SeedUsersCovers(users, counter, init, now);
      SeedUsersKeeps(users, counter, init, now);
      var r := SeedUser(t.0, t.1, last, now);
      forall s | s in samples ensures EmailInUse(r.0, SqlText(s.email)) {
        if s == last {
          if !EmailInUse(t.0, SqlText(s.email)) {
            assert r.0[t.1 + 1].email == SqlText(s.email);
          }
        } else {
          assert s in init by {
            var i :| 0 <= i < |samples| && samples[i] == s;
            assert i < |samples| - 1;
            assert init[i] == s;
          }
          var id :| id in t.0 && t.0[id].email == SqlText(s.email);
          assert id <= t.1;
          assert r.0[id] == t.0[id];
        }
      }
    }
  }

  /** When every sample email is already taken, the users loop inserts
      nothing; the counter still moves by one per sample. */
  lemma {:induction false} SeedUsersNoop(users: map<int, User>, counter: int, samples: seq<SampleUser>, now: int)
    requires forall s :: s in samples ==> EmailInUse(users, SqlText(s.email))
    ensures SeedUsers(users, counter, samples, now).0 == users
    ensures SeedUsers(users, counter, samples, now).1 == counter + |samples|
  {
    if samples != [] {
      var init := samples[..|samples| - 1];
      assert forall s :: s in init ==> s in samples;
      SeedUsersNoop(users, counter, init, now);
      assert samples[|samples| - 1] in samples;
    }
  }

  /** Re-running the seed leaves the users table as the first run left it:
      `INSERT OR IGNORE` meets the UNIQUE email on every sample. Only the
      counter moves, by the number of samples, so the next id handed out
      is that many higher. */
  lemma SeedUsersIdempotent(users: map<int, User>, counter: int, samples: seq<SampleUser>, now: int, later: int)
    requires UsersValid(users, counter)
    ensures var r := SeedUsers(users, counter, samples, now);
      SeedUsers(r.0, r.1, samples, later) == (r.0, r.1 + |samples|)
  {
    var r := SeedUsers(users, counter, samples, now);
    SeedUsersCovers(users, counter, samples, now);
    SeedUsersNoop(r.0, r.1, samples, later);
  }

  /** The products loop appends every sample under a fresh id and keeps
      existing rows: the table grows by exactly the number of samples. */
  lemma {:induction false} SeedProductsAppends(products: map<int, Product>, counter: int, samples: seq<SampleProduct>, now: int)
    requires ProductsValid(products, counter)
    ensures var r := SeedProducts(products, counter, samples, now);
      && ProductsValid(r.0, r.1)
      && r.1 == counter + |samples|
      && |r.0| == |products| + |samples|
      && (forall k :: k in products ==> k in r.0 && r.0[k] == products[k])
  {
    if samples != [] {
      var init := samples[..|samples| - 1];
      SeedProductsAppends(products, counter, init, now);
      var t := SeedProducts(products, counter, init, now);
      assert t.1 + 1 !in t.0;
    }
  }

  /** The new rows are the samples, in order, under ids counter + 1 ..
      counter + |samples|. */
  lemma {:induction false} SeedProductsRows(products: map<int, Product>, counter: int, samples: seq<SampleProduct>, now: int)
    ensures var r := SeedProducts(products, counter, samples, now);
      && r.1 == counter + |samples|
      && forall k :: counter < k <= counter + |samples| ==> k in r.0 && r.0[k] == ProductRow(samples[k - counter - 1], now)
  {
    if samples != [] {
      var init := samples[..|samples| - 1];
      SeedProductsRows(products, counter, init, now);
      var t := SeedProducts(products, counter, init, now);
      var r := SeedProduct(t.0, t.1, samples[|samples| - 1], now);
      assert SeedProducts(products, counter, samples, now) == r;
      forall k | counter < k <= counter + |samples|
        ensures k in r.0 && r.0[k] == ProductRow(samples[k - counter - 1], now)
      {
        if k < counter + |samples| {
          assert init[k - counter - 1] == samples[k - counter - 1];
        }
      }
    }
  }

  /** Re-running the seed appends the sample products again: they have no
      natural key for `OR IGNORE` to meet. */
  lemma SeedProductsTwice(products: map<int, Product>, counter: int, now: int, later: int)
    requires ProductsValid(products, counter)
    ensures var r := SeedProducts(products, counter, SampleProducts, now);
      |SeedProducts(r.0, r.1, SampleProducts, later).0| == |products| + 2 * |SampleProducts|
  {
    SeedProductsAppends(products, counter, SampleProducts, now);
    var r := SeedProducts(products, counter, SampleProducts, now);
    SeedProductsAppends(r.0, r.1, SampleProducts, later);
  }

  /** The orders loop keeps the order table valid: a sample is stored only
      when its user exists, and every sample status is one of the five. */
  lemma {:induction false} SeedOrdersKeeps(orders: map<int, Order>, counter: int, users: map<int, User>,
                                           samples: seq<SampleOrder>, now: int)
    requires OrdersValid(orders, counter, users)
    requires forall s :: s in samples ==> s.status in OrderStatuses
    ensures var r := SeedOrders(orders, counter, users, samples, now);
      && OrdersValid(r.0, r.1, users) && r.1 >= counter
      && forall k :: k in orders ==> k in r.0 && r.0[k] == orders[k]
  {
    if samples != [] {
      var init := samples[..|samples| - 1];
      assert forall s :: s in init ==> s in samples;
      SeedOrdersKeeps(orders, counter, users, init, now);
      var last := samples[|samples| - 1];
      assert last in samples;
      var t := SeedOrders(orders, counter, users, init, now);
      if last.userId in users {
        assert Owner(OrderRow(last, now).userId, users) == Some(last.userId);
      }
    }
  }

  /** The orders loop stores exactly the samples whose user exists, each
      under the next id. */
  lemma {:induction false} SeedOrdersCount(orders: map<int, Order>, counter: int, users: map<int, User>,
                                           samples: seq<SampleOrder>, now: int)
    requires IdsIssued(orders, counter)
    ensures var r := SeedOrders(orders, counter, users, samples, now);
      && IdsIssued(r.0, r.1)
      && r.1 - counter == |r.0| - |orders| == Stored(samples, users)
  {
    if samples != [] {
      var init := samples[..|samples| - 1];
      SeedOrdersCount(orders, counter, users, init, now);
      var t := SeedOrders(orders, counter, users, init, now);
      assert t.1 + 1 !in t.0;
    }
  }

  /** How many samples name an existing user. */
  function Stored(samples: seq<SampleOrder>, users: map<int, User>): nat
  {
    if samples == [] then 0
    else Stored(samples[..|samples| - 1], users) + if samples[|samples| - 1].userId in users then 1 else 0
  }

  /** On a fresh database every sample user is inserted, under ids 1 to 5,
      so every sample order finds its user and all five are stored. */
  lemma FreshSeed(now: int)
    ensures var u := SeedUsers(map[], 0, SampleUsers, now);
      && u.0.Keys == {1, 2, 3, 4, 5} && u.1 == 5
      && Stored(SampleOrders, u.0) == 5
  {
    var u0: map<int, User> := map[];
    var u1 := u0[1 := UserRow(SampleUsers[0], now)];
    var u2 := u1[2 := UserRow(SampleUsers[1], now)];
    var u3 := u2[3 := UserRow(SampleUsers[2], now)];
    var u4 := u3[4 := UserRow(SampleUsers[3], now)];
    var u5 := u4[5 := UserRow(SampleUsers[4], now)];
    assert SeedUsers(map[], 0, SampleUsers[..1], now) == (u1, 1) by {
      assert SampleUsers[..1][..0] == [];
    }
    assert SeedUsers(map[], 0, SampleUsers[..2], now) == (u2, 2) by {
      assert SampleUsers[..2][..1] == SampleUsers[..1];
      assert !EmailInUse(u1, SqlText(SampleUsers[1].email));
    }
    assert SeedUsers(map[], 0, SampleUsers[..3], now) == (u3, 3) by {
      assert SampleUsers[..3][..2] == SampleUsers[..2];
      assert !EmailInUse(u2, SqlText(SampleUsers[2].email));
    }
    assert SeedUsers(map[], 0, SampleUsers[..4], now) == (u4, 4) by {
      assert SampleUsers[..4][..3] == SampleUsers[..3];
      assert !EmailInUse(u3, SqlText(SampleUsers[3].email));
    }
    assert SeedUsers(map[], 0, SampleUsers, now) == (u5, 5) by {
      assert SampleUsers[..4] == SampleUsers[..|SampleUsers| - 1];
      assert !EmailInUse(u4, SqlText(SampleUsers[4].email));
    }
    assert u5.Keys == {1, 2, 3, 4, 5};
    assert Stored(SampleOrders[..1], u5) == 1 by { assert SampleOrders[..1][..0] == []; }
    assert Stored(SampleOrders[..2], u5) == 2 by { assert SampleOrders[..2][..1] == SampleOrders[..1]; }
    assert Stored(SampleOrders[..3], u5) == 3 by { assert SampleOrders[..3][..2] == SampleOrders[..2]; }
    assert Stored(SampleOrders[..4], u5) == 4 by { assert SampleOrders[..4][..3] == SampleOrders[..3]; }
    assert SampleOrders[..4] == SampleOrders[..|SampleOrders| - 1];
  }

  // ---------------------------------------------------------------------
  // The script.

  /** `initializeDatabase()` on an open store: the `CREATE TABLE IF NOT
      EXISTS` statements leave existing tables alone (a fresh file starts
      from `Store()`), then the three loops run in order with the same
      timestamp. */
  method Initialize(db: Store, now: int)
    requires db.Valid()
    modifies db
    ensures db.Valid()
    ensures (db.users, db.userSeq) == SeedUsers(old(db.users), old(db.userSeq), SampleUsers, now)
    ensures (db.products, db.productSeq) == SeedProducts(old(db.products), old(db.productSeq), SampleProducts, now)
    ensures (db.orders, db.orderSeq) == SeedOrders(old(db.orders), old(db.orderSeq), db.users, SampleOrders, now)
  {
    InsertSampleUsers(db, now);
    InsertSampleProducts(db, now);
    InsertSampleOrders(db, now);
  }

  /** The users loop (`for (const user of sampleUsers)`). */
  method InsertSampleUsers(db: Store, now: int)
    requires db.Valid()
    modifies db`users, db`userSeq
    ensures db.Valid()
    ensures (db.users, db.userSeq) == SeedUsers(old(db.users), old(db.userSeq), SampleUsers, now)
  {
    var i := 0;
    while i < |SampleUsers|
      invariant 0 <= i <= |SampleUsers|
      invariant (db.users, db.userSeq) == SeedUsers(old(db.users), old(db.userSeq), SampleUsers[..i], now)
    {
      var s := SampleUsers[i];
      if !EmailInUse(db.users, SqlText(s.email)) {
        db.users := db.users[db.userSeq + 1 := UserRow(s, now)];
      }
      db.userSeq := db.userSeq + 1;
      assert SampleUsers[..i + 1][..i] == SampleUsers[..i];
      i := i + 1;
    }
    assert SampleUsers[..i] == SampleUsers;
    SeedUsersKeeps(old(db.users), old(db.userSeq), SampleUsers, now);
    assert forall k :: k in old(db.users) ==> k in db.users;
    MoreUsersKeepOrdersValid(db.orders, db.orderSeq, old(db.users), db.users);
  }

  /** The products loop (`for (const product of sampleProducts)`). */
  method InsertSampleProducts(db: Store, now: int)
    requires db.Valid()
    modifies db`products, db`productSeq
    ensures db.Valid()
    ensures (db.products, db.productSeq) == SeedProducts(old(db.products), old(db.productSeq), SampleProducts, now)
  {
    var i := 0;
    while i < |SampleProducts|
      invariant 0 <= i <= |SampleProducts|
      invariant (db.products, db.productSeq) == SeedProducts(old(db.products), old(db.productSeq), SampleProducts[..i], now)
    {
      db.products := db.products[db.productSeq + 1 := ProductRow(SampleProducts[i], now)];
      db.productSeq := db.productSeq + 1;
      assert SampleProducts[..i + 1][..i] == SampleProducts[..i];
      i := i + 1;
    }
    assert SampleProducts[..i] == SampleProducts;
    SeedProductsAppends(old(db.products), old(db.productSeq), SampleProducts, now);
  }

  /** The orders loop (`for (const order of sampleOrders)`). */
  method InsertSampleOrders(db: Store, now: int)
    requires db.Valid()
    modifies db`orders, db`orderSeq
    ensures db.Valid()
    ensures (db.orders, db.orderSeq) == SeedOrders(old(db.orders), old(db.orderSeq), db.users, SampleOrders, now)
  {
    var i := 0;
    while i < |SampleOrders|
      invariant 0 <= i <= |SampleOrders|
      invariant (db.orders, db.orderSeq) == SeedOrders(old(db.orders), old(db.orderSeq), db.users, SampleOrders[..i], now)
    {
      var s := SampleOrders[i];
      if s.userId in db.users {
        db.orders := db.orders[db.orderSeq + 1 := OrderRow(s, now)];
        db.orderSeq := db.orderSeq + 1;
      }
      assert SampleOrders[..i + 1][..i] == SampleOrders[..i];
      i := i + 1;
    }
    assert SampleOrders[..i] == SampleOrders;
    SeedOrdersKeeps(old(db.orders), old(db.orderSeq), db.users, SampleOrders, now);
  }
}

=== FILE: like.dfy ===
/** The SQL `LIKE` predicate (ISO/IEC 9075-2, subclause 8.5): `%` matches any
    run of characters, `_` any single character, every other pattern
    character itself. As in SQLite, letters match without regard to case,
    for the ASCII letters only. */
module SqlLike {
  import opened Text

  function Like(s: string, p: string): bool
    decreases |s| + |p|
  {
    if p == [] then s == []
    else if p[0] == '%' then Like(s, p[1..]) || (s != [] && Like(s[1..], p))
    else s != [] && (p[0] == '_' || LowerChar(p[0]) == LowerChar(s[0])) && Like(s[1..], p[1..])
  }

  predicate WildcardFree(t: string)
  {
    '%' !in t && '_' !in t
  }

  /** The pattern that `products` search builds from a term: `%term%`. */
  function SubstringPattern(term: string): (p: string)
    ensures |p| == |term| + 2 && p[0] == '%' && p[|p| - 1] == '%'
  {
    "%" + term + "%"
  }

  lemma {:induction false} PercentMatchesAll(s: string)
    ensures Like(s, "%")
  {
    if s != [] {
      PercentMatchesAll(s[1..]);
    }
  }

  /** `t%` matches exactly the strings that start with `t`, ignoring
      ASCII case. */
  lemma {:induction false} LikePrefix(s: string, t: string)
    requires WildcardFree(t)
    ensures Like(s, t + "%") <==> StartsWith(Lower(s), Lower(t))
  {
    if t == [] {
      assert t + "%" == "%";
      PercentMatchesAll(s);
    } else {
      assert (t + "%")[1..] == t[1..] + "%";
      assert (t + "%")[0] == t[0];
      if s != [] {
        LikePrefix(s[1..], t[1..]);
        StartsWithCons(Lower(s), Lower(t));
        assert Lower(s)[1..] == Lower(s[1..]);
        assert Lower(t)[1..] == Lower(t[1..]);
      }
    }
  }

  lemma StartsWithCons(s: string, t: string)
    requires s != [] && t != []
    ensures StartsWith(s, t) <==> s[0] == t[0] && StartsWith(s[1..], t[1..])
  {
    if |t| <= |s| {
      assert s[..|t|] == [s[0]] + s[1..][..|t| - 1];
      assert t == [t[0]] + t[1..];
    }
  }

  /** `%q` matches `s` exactly when `q` matches some suffix of `s`. */
  lemma {:induction false} LikeLeadingPercent(s: string, q: string)
    ensures Like(s, "%" + q) <==> exists k :: 0 <= k <= |s| && Like(s[k..], q)
  {
    var p := "%" + q;
    assert p[1..] == q;
    if s == [] {
      assert Like(s, p) == Like(s, q);
      assert s[0..] == s;
    } else {
      LikeLeadingPercent(s[1..], q);
      if Like(s, p) {
        if Like(s, q) {
          assert s[0..] == s;
        } else {
          var k :| 0 <= k <= |s[1..]| && Like(s[1..][k..], q);
          assert s[1..][k..] == s[k + 1..];
        }
      }
      if exists k :: 0 <= k <= |s| && Like(s[k..], q) {
        var k :| 0 <= k <= |s| && Like(s[k..], q);
        if k == 0 {
          assert s[0..] == s;
        } else {
          assert s[1..][k - 1..] == s[k..];
        }
      }
    }
  }

  /** For a term without wildcards, `%term%` is substring search, ignoring
      ASCII case. */
  lemma SubstringPatternIsContains(s: string, term: string)
    requires WildcardFree(term)
    ensures Like(s, SubstringPattern(term)) <==> Contains(Lower(s), Lower(term))
  {
    var q := term + "%";
    assert SubstringPattern(term) == "%" + q;
    LikeLeadingPercent(s, q);
    forall k | 0 <= k <= |s|
      ensures Like(s[k..], q) <==> OccursAt(Lower(s), Lower(term), k)
    {
      PrefixAt(s, term, k);
    }
  }

  /** `term%` matches the suffix from `k` exactly when `term` occurs at `k`,
      ignoring ASCII case. */
  lemma PrefixAt(s: string, term: string, k: int)
    requires WildcardFree(term) && 0 <= k <= |s|
    ensures Like(s[k..], term + "%") <==> OccursAt(Lower(s), Lower(term), k)
  {
    LikePrefix(s[k..], term);
    LowerSlice(s, k);
    var l := Lower(s);
    if k + |term| <= |s| {
      assert l[k..][..|term|] == l[k..k + |term|];
    }
  }

  lemma LowerSlice(s: string, k: int)
    requires 0 <= k <= |s|
    ensures Lower(s[k..]) == Lower(s)[k..]
  {
  }

  /** Folding the case of the text or of the pattern changes no answer. */
  lemma {:induction false} LikeIgnoresCase(s: string, p: string)
    ensures Like(Lower(s), p) == Like(s, p)
    ensures Like(s, Lower(p)) == Like(s, p)
    decreases |s| + |p|
  {
    if p != [] {
      var lp := Lower(p);
      assert lp[1..] == Lower(p[1..]);
      if s != [] {
        assert Lower(s)[1..] == Lower(s[1..]);
        LikeIgnoresCase(s[1..], p[1..]);
      }
      if p[0] == '%' {
        LikeIgnoresCase(s, p[1..]);
        if s != [] {
          assert Lower(s)[1..] == Lower(s[1..]);
          LikeIgnoresCase(s[1..], p);
        }
      }
    }
  }
}

=== FILE: orders.dfy ===
/** The `/api/orders` router (routes/orders.js). */
module OrderRoutes {
  import opened Values
  import opened Text
  import opened Schema
  import opened Query
  import opened Filters
  import opened Database

  /** `SELECT * FROM users WHERE id = ?` finds a row for this body value. */
  predicate NamesUser(v: JsValue, users: map<int, User>)
  {
    Owner(Bind(v), users).Some?
  }

  /** The 400 message of the status route, built as the route builds it. */
  function InvalidStatusMessage(): string
  {
    "Invalid status. Must be one of: " + Join(OrderStatuses, ", ")
  }

  /** `GET /api/orders?status&userId`: the filtered orders, latest first,
      each joined with its user's name and email. */
  method ListOrders(db: Store, f: OrderFilters) returns (rows: seq<(int, Order)>, views: seq<OrderView>)
    requires db.Valid()
    ensures IsSelection(rows, db.orders, (o: Order) => OrderMatches(f, o), OrderStamp)
    ensures views == EnrichAll(rows, db.users)
  {
    var sql, conds, params := BuildOrderQuery(f);
    rows := SelectOrdered(db.orders, db.orderSeq,
                          (o: Order) => Satisfies(conds, params, o, OrderConditionHolds), OrderStamp);
    SelectionByEquivalent(rows, db.orders,
                          (o: Order) => Satisfies(conds, params, o, OrderConditionHolds),
                          (o: Order) => OrderMatches(f, o), OrderStamp);
    views := EnrichAll(rows, db.users);
  }

  /** `GET /api/orders/:id`. */
  method GetOrder(db: Store, id: int) returns (r: Reply<OrderView>)
    ensures id !in db.orders ==> r == Reply(404, "Order not found", None)
    ensures id in db.orders ==> r == Reply(200, "", Some(Enrich(id, db.orders[id], db.users)))
  {
    if id !in db.orders {
      return Reply(404, "Order not found", None);
    }
    r := Reply(200, "", Some(Enrich(id, db.orders[id], db.users)));
  }

  /** `POST /api/orders`: the amount must be truthy, a truthy user id must
      name a user; a falsy user id is stored as NULL and a falsy status as
      'pending'. The handler does not check the status: a value outside the
      five is stopped by the CHECK constraint, a 500. */
  method CreateOrder(db: Store, userId: JsValue, totalAmount: JsValue, status: JsValue, now: int)
    returns (r: Reply<OrderView>)
    requires db.Valid()
    modifies db
    ensures db.Valid()
    ensures db.users == old(db.users) && db.products == old(db.products)
    ensures db.userSeq == old(db.userSeq) && db.productSeq == old(db.productSeq)
    ensures !Truthy(totalAmount) ==> r == Reply(400, "Total amount is required", None) && unchanged(db)
    ensures Truthy(totalAmount) && Truthy(userId) && !NamesUser(userId, old(db.users)) ==>
      r == Reply(400, "User not found", None) && unchanged(db)
    ensures Truthy(totalAmount) && (Truthy(userId) ==> NamesUser(userId, old(db.users))) ==>
      var s := if Truthy(status) then Bind(status) else SqlText(DefaultStatus);
      if !IsStatus(s) then
        r == Reply(500, "Error creating order", None) && unchanged(db)
      else
        var id := old(db.orderSeq) + 1;
        var o := Order(if Truthy(userId) then Bind(userId) else SqlNull, Bind(totalAmount), s, now);
        && (forall k :: k in old(db.orders) ==> k < id)
        && db.orderSeq == id
        && db.orders == old(db.orders)[id := o]
        && r == Reply(201, "Order created successfully", Some(Enrich(id, o, db.users)))
  {
    if !Truthy(totalAmount) {
      return Reply(400, "Total amount is required", None);
    }
    if Truthy(userId) && !NamesUser(userId, db.users) {
      return Reply(400, "User not found", None);
    }
    var s := if Truthy(status) then Bind(status) else SqlText(DefaultStatus);
    if !IsStatus(s) {
      return Reply(500, "Error creating order", None);
    }
    var id := db.orderSeq + 1;
    var o := Order(if Truthy(userId) then Bind(userId) else SqlNull, Bind(totalAmount), s, now);
    db.orders := db.orders[id := o];
    db.orderSeq := id;
    r := Reply(201, "Order created successfully", Some(Enrich(id, o, db.users)));
  }

  /** `PUT /api/orders/:id`: existence first, then a truthy user id must
      name a user. `user_id` falls back only when absent, so an explicit
      null detaches the order, while a defined falsy id (0 or "") names no
      user and trips the foreign key, a 500. Amount and status fall back on
      any falsy value; a status outside the five trips the CHECK. */
  method UpdateOrder(db: Store, id: int, userId: JsValue, totalAmount: JsValue, status: JsValue)
    returns (r: Reply<OrderView>)
    requires db.Valid()
    modifies db
    ensures db.Valid()
    ensures db.users == old(db.users) && db.products == old(db.products)
    ensures db.userSeq == old(db.userSeq) && db.productSeq == old(db.productSeq) && db.orderSeq == old(db.orderSeq)
    ensures id !in old(db.orders) ==> r == Reply(404, "Order not found", None) && unchanged(db)
    ensures id in old(db.orders) && Truthy(userId) && !NamesUser(userId, old(db.users)) ==>
      r == Reply(400, "User not found", None) && unchanged(db)
    ensures id in old(db.orders) && (Truthy(userId) ==> NamesUser(userId, old(db.users))) ==>
      var was := old(db.orders)[id];
      var o := Order(IfDefined(userId, was.userId), OrElse(totalAmount, was.totalAmount),
                     OrElse(status, was.status), was.createdAt);
      if !IsStatus(o.status) || !ForeignKeyHolds(o.userId, old(db.users)) then
        r == Reply(500, "Error updating order", None) && unchanged(db)
      else
        db.orders == old(db.orders)[id := o] && r == Reply(200, "Order updated successfully", Some(Enrich(id, o, db.users)))
  {
    if id !in db.orders {
      return Reply(404, "Order not found", None);
    }
    if Truthy(userId) && !NamesUser(userId, db.users) {
      return Reply(400, "User not found", None);
    }
    var was := db.orders[id];
    var o := Order(IfDefined(userId, was.userId), OrElse(totalAmount, was.totalAmount),
                   OrElse(status, was.status), was.createdAt);
    if !IsStatus(o.status) || !ForeignKeyHolds(o.userId, db.users) {
      return Reply(500, "Error updating order", None);
    }
    OrElseKeepsNotNull(totalAmount, was.totalAmount);
    db.orders := db.orders[id := o];
    r := Reply(200, "Order updated successfully", Some(Enrich(id, o, db.users)));
  }

  /** The foreign key outcome of `PUT /api/orders/:id` for each kind of
      `user_id`: absent keeps the link, null detaches, a defined falsy
      value names no user. */
  lemma UpdateUserIdOutcome(userId: JsValue, stored: SqlValue, users: map<int, User>, counter: int)
    requires ForeignKeyHolds(stored, users)
    requires IdsIssued(users, counter)
    ensures userId == Undefined ==> ForeignKeyHolds(IfDefined(userId, stored), users)
    ensures userId == Null ==> IfDefined(userId, stored) == SqlNull
    ensures Truthy(userId) && NamesUser(userId, users) ==> ForeignKeyHolds(IfDefined(userId, stored), users)
    ensures (userId == Num(0.0) || userId == Str("")) ==> !ForeignKeyHolds(IfDefined(userId, stored), users)
  {
  }

  /** `DELETE /api/orders/:id`: removes that order only. */
  method DeleteOrder(db: Store, id: int) returns (r: Reply<OrderView>)
    requires db.Valid()
    modifies db
    ensures db.Valid()
    ensures db.users == old(db.users) && db.products == old(db.products)
    ensures db.userSeq == old(db.userSeq) && db.productSeq == old(db.productSeq) && db.orderSeq == old(db.orderSeq)
    ensures id !in old(db.orders) ==> r == Reply(404, "Order not found", None) && unchanged(db)
    ensures id in old(db.orders) ==>
      db.orders == old(db.orders) - {id} && r == Reply(200, "Order deleted successfully", None)
  {
    if id !in db.orders {
      return Reply(404, "Order not found", None);
    }
    db.orders := db.orders - {id};
    r := Reply(200, "Order deleted successfully", None);
  }

  /** `PUT /api/orders/:id/status`: the status is validated (present, then
      one of the five) before the order is looked up; on success only the
      status changes. */
  method UpdateOrderStatus(db: Store, id: int, status: JsValue) returns (r: Reply<OrderView>)
    requires db.Valid()
    modifies db
    ensures db.Valid()
    ensures db.users == old(db.users) && db.products == old(db.products)
    ensures db.userSeq == old(db.userSeq) && db.productSeq == old(db.productSeq) && db.orderSeq == old(db.orderSeq)
    ensures !Truthy(status) ==> r == Reply(400, "Status is required", None) && unchanged(db)
    ensures Truthy(status) && !(status.Str? && status.s in OrderStatuses) ==>
      r == Reply(400, InvalidStatusMessage(), None) && unchanged(db)
    ensures status.Str? && status.s in OrderStatuses && id !in old(db.orders) ==>
      r == Reply(404, "Order not found", None) && unchanged(db)
    ensures status.Str? && status.s in OrderStatuses && id in old(db.orders) ==>
      var o := old(db.orders)[id].(status := SqlText(status.s));
      db.orders == old(db.orders)[id := o] && r == Reply(200, "Order status updated successfully", Some(Enrich(id, o, db.users)))
  {
    if !Truthy(status) {
      return Reply(400, "Status is required", None);
    }
    if !(status.Str? && status.s in OrderStatuses) {
      return Reply(400, InvalidStatusMessage(), None);
    }
    if id !in db.orders {
      return Reply(404, "Order not found", None);
    }
    var o := db.orders[id].(status := SqlText(status.s));
    db.orders := db.orders[id := o];
    r := Reply(200, "Order status updated successfully", Some(Enrich(id, o, db.users)));
  }

  /** `GET /api/orders/status/:status`: the orders with exactly that status,
      latest first, joined with their users. */
  method OrdersByStatus(db: Store, status: string) returns (rows: seq<(int, Order)>, views: seq<OrderView>)
    requires db.Valid()
    ensures IsSelection(rows, db.orders, (o: Order) => o.status == SqlText(status), OrderStamp)
    ensures views == EnrichAll(rows, db.users)
    ensures status !in OrderStatuses ==> rows == []
  {
    rows := SelectOrdered(db.orders, db.orderSeq, (o: Order) => SqlEquals(o.status, SqlText(status)), OrderStamp);
    SelectionByEquivalent(rows, db.orders,
                          (o: Order) => SqlEquals(o.status, SqlText(status)),
                          (o: Order) => o.status == SqlText(status), OrderStamp);
    if rows != [] {
      assert rows[0] in rows;
    }
    views := EnrichAll(rows, db.users);
  }
}

=== FILE: products.dfy ===
/** The `/api/products` router (routes/products.js). */
module ProductRoutes {
  import opened Values
  import opened Schema
  import opened Query
  import opened Filters
  import opened Database

  /** `GET /api/products?category&minPrice&maxPrice&search`: the query the
      filters compose, evaluated over the table, latest first. */
  method ListProducts(db: Store, f: ProductFilters) returns (rows: seq<(int, Product)>)
    requires db.Valid()
    ensures IsSelection(rows, db.products, (p: Product) => ProductMatches(f, p), ProductStamp)
  {
    var sql, conds, params := BuildProductQuery(f);
    rows := SelectOrdered(db.products, db.productSeq,
                          (p: Product) => Satisfies(conds, params, p, ProductConditionHolds), ProductStamp);
    SelectionByEquivalent(rows, db.products,
                          (p: Product) => Satisfies(conds, params, p, ProductConditionHolds),
                          (p: Product) => ProductMatches(f, p), ProductStamp);
  }

  /** `GET /api/products/:id`. */
  method GetProduct(db: Store, id: int) returns (r: Reply<(int, Product)>)
    ensures id !in db.products ==> r == Reply(404, "Product not found", None)
    ensures id in db.products ==> r == Reply(200, "", Some((id, db.products[id])))
  {
    if id !in db.products {
      return Reply(404, "Product not found", None);
    }
    r := Reply(200, "", Some((id, db.products[id])));
  }

  /** `POST /api/products`: name and price must be truthy (so a price of 0
      is refused); a falsy stock quantity is stored as 0. */
  method CreateProduct(db: Store, name: JsValue, description: JsValue, price: JsValue,
                       category: JsValue, stockQuantity: JsValue, now: int)
    returns (r: Reply<(int, Product)>)
    requires db.Valid()
    modifies db
    ensures db.Valid()
    ensures db.users == old(db.users) && db.orders == old(db.orders)
    ensures db.userSeq == old(db.userSeq) && db.orderSeq == old(db.orderSeq)
    ensures !Truthy(name) || !Truthy(price) ==>
      r == Reply(400, "Name and price are required", None) && unchanged(db)
    ensures Truthy(name) && Truthy(price) ==>
      var id := old(db.productSeq) + 1;
      var p := Product(Bind(name), Bind(description), Bind(price), Bind(category),
                       if Truthy(stockQuantity) then Bind(stockQuantity) else SqlNum(0.0), now);
      && (forall k :: k in old(db.products) ==> k < id)
      && db.productSeq == id
      && db.products == old(db.products)[id := p]
      && r == Reply(201, "Product created successfully", Some((id, p)))
  {
    if !Truthy(name) || !Truthy(price) {
      return Reply(400, "Name and price are required", None);
    }
    var stock := if Truthy(stockQuantity) then Bind(stockQuantity) else SqlNum(0.0);
    var id := db.productSeq + 1;
    var p := Product(Bind(name), Bind(description), Bind(price), Bind(category), stock, now);
    db.products := db.products[id := p];
    db.productSeq := id;
    r := Reply(201, "Product created successfully", Some((id, p)));
  }

  /** `PUT /api/products/:id`: name, price and category fall back on any
      falsy value (`x || old`), description and stock quantity only on an
      absent one (`x !== undefined ? x : old`). */
  method UpdateProduct(db: Store, id: int, name: JsValue, description: JsValue, price: JsValue,
                       category: JsValue, stockQuantity: JsValue)
    returns (r: Reply<(int, Product)>)
    requires db.Valid()
    modifies db
    ensures db.Valid()
    ensures db.users == old(db.users) && db.orders == old(db.orders)
    ensures db.userSeq == old(db.userSeq) && db.productSeq == old(db.productSeq) && db.orderSeq == old(db.orderSeq)
    ensures id !in old(db.products) ==> r == Reply(404, "Product not found", None) && unchanged(db)
    ensures id in old(db.products) ==>
      var was := old(db.products)[id];
      var p := Product(OrElse(name, was.name), IfDefined(description, was.description),
                       OrElse(price, was.price), OrElse(category, was.category),
                       IfDefined(stockQuantity, was.stockQuantity), was.createdAt);
      db.products == old(db.products)[id := p] && r == Reply(200, "Product updated successfully", Some((id, p)))
  {
    if id !in db.products {
      return Reply(404, "Product not found", None);
    }
    var was := db.products[id];
    var p := Product(OrElse(name, was.name), IfDefined(description, was.description),
                     OrElse(price, was.price), OrElse(category, was.category),
                     IfDefined(stockQuantity, was.stockQuantity), was.createdAt);
    OrElseKeepsNotNull(name, was.name);
    OrElseKeepsNotNull(price, was.price);
    db.products := db.products[id := p];
    r := Reply(200, "Product updated successfully", Some((id, p)));
  }

  /** `DELETE /api/products/:id`: removes that product only (no table
      references products). */
  method DeleteProduct(db: Store, id: int) returns (r: Reply<(int, Product)>)
    requires db.Valid()
    modifies db
    ensures db.Valid()
    ensures db.users == old(db.users) && db.orders == old(db.orders)
    ensures db.userSeq == old(db.userSeq) && db.productSeq == old(db.productSeq) && db.orderSeq == old(db.orderSeq)
    ensures id !in old(db.products) ==> r == Reply(404, "Product not found", None) && unchanged(db)
    ensures id in old(db.products) ==>
      db.products == old(db.products) - {id} && r == Reply(200, "Product deleted successfully", None)
  {
    if id !in db.products {
      return Reply(404, "Product not found", None);
    }
    db.products := db.products - {id};
    r := Reply(200, "Product deleted successfully", None);
  }

  /** `GET /api/products/category/:category`: the products of exactly that
      category, latest first. */
  method ProductsByCategory(db: Store, category: string) returns (rows: seq<(int, Product)>)
    requires db.Valid()
    ensures IsSelection(rows, db.products, (p: Product) => p.category == SqlText(category), ProductStamp)
  {
    rows := SelectOrdered(db.products, db.productSeq,
                          (p: Product) => SqlEquals(p.category, SqlText(category)), ProductStamp);
    SelectionByEquivalent(rows, db.products,
                          (p: Product) => SqlEquals(p.category, SqlText(category)),
                          (p: Product) => p.category == SqlText(category), ProductStamp);
  }

  /** `GET /api/products/categories/list`: `SELECT DISTINCT category ...
      WHERE category IS NOT NULL`, scanned in rowid order. */
  method Categories(db: Store) returns (cats: seq<SqlValue>)
    requires db.Valid()
    ensures forall c :: c in cats <==> c != SqlNull && exists id :: id in db.products && db.products[id].category == c
    ensures forall i, j :: 0 <= i < j < |cats| ==> cats[i] != cats[j]
  {
    cats := [];
    var next := 1;
    while next <= db.productSeq
      invariant 1 <= next <= db.productSeq + 1
      invariant forall c :: c in cats <==>
        c != SqlNull && exists id :: id in db.products && id < next && db.products[id].category == c
      invariant forall i, j :: 0 <= i < j < |cats| ==> cats[i] != cats[j]
    {
      if next in db.products {
        var c := db.products[next].category;
        if c != SqlNull && c !in cats {
          cats := cats + [c];
        }
      }
      next := next + 1;
    }
  }
}

=== FILE: query.dfy ===
/** How SQLite answers `SELECT ... WHERE <cond> ORDER BY created_at DESC` over
    one table: every row satisfying the condition, once, latest first. The
    order among rows with equal timestamps is left open. */
module Query {

  predicate SortedDesc<R>(rows: seq<(int, R)>, stamp: R -> int)
  {
    forall i, j :: 0 <= i < j < |rows| ==> stamp(rows[i].1) >= stamp(rows[j].1)
  }

  predicate DistinctIds<R>(rows: seq<(int, R)>)
  {
    forall i, j :: 0 <= i < j < |rows| ==> rows[i].0 != rows[j].0
  }

  /** `rows` is the answer to the query over `table`: exactly the rows that
      satisfy `keep`, each once, ordered by `stamp` descending. */
  predicate IsSelection<R(==,!new)>(rows: seq<(int, R)>, table: map<int, R>, keep: R -> bool, stamp: R -> int)
  {
    && (forall y :: y in rows ==> y.0 in table && y.1 == table[y.0] && keep(y.1))
    && (forall id :: id in table && keep(table[id]) ==> (id, table[id]) in rows)
    && DistinctIds(rows)
    && SortedDesc(rows, stamp)
  }

  /** Insert `x` into a descending list after every row at least as recent. */
  function InsertDesc<R(==,!new)>(rows: seq<(int, R)>, x: (int, R), stamp: R -> int): (r: seq<(int, R)>)
    requires SortedDesc(rows, stamp) && DistinctIds(rows)
    requires forall y :: y in rows ==> y.0 != x.0
    ensures |r| == |rows| + 1
    ensures forall y :: y in r <==> y in rows || y == x
    ensures SortedDesc(r, stamp) && DistinctIds(r)
  {
    if rows == [] then [x]
    else if stamp(x.1) >= stamp(rows[0].1) then
      assert forall j :: 0 <= j < |rows| ==> rows[j] in rows;
      ConsSorted(x, rows, stamp);
      [x] + rows
    else
      assert rows[0] in rows;
      HeadDominates(rows, stamp);
      var t := InsertDesc(rows[1..], x, stamp);
      assert forall j :: 0 <= j < |t| ==> t[j] in rows[1..] || t[j] == x;
      ConsSorted(rows[0], t, stamp);
      [rows[0]] + t
  }

  /** A row at least as recent as every row of a sorted list, and with an
      id none of them has, can go in front. */
  lemma ConsSorted<R>(h: (int, R), t: seq<(int, R)>, stamp: R -> int)
    requires SortedDesc(t, stamp) && DistinctIds(t)
    requires forall j :: 0 <= j < |t| ==> stamp(t[j].1) <= stamp(h.1) && t[j].0 != h.0
    ensures SortedDesc([h] + t, stamp) && DistinctIds([h] + t)
  {
    var r := [h] + t;
    forall i, j | 0 <= i < j < |r|
      ensures stamp(r[i].1) >= stamp(r[j].1) && r[i].0 != r[j].0
    {
      if i > 0 {
        assert r[i] == t[i - 1] && r[j] == t[j - 1];
      } else {
        assert r[j] == t[j - 1];
      }
    }
  }

  /** The head of a descending list with distinct ids is at least as recent
      as every other row and has an id of its own. */
  lemma HeadDominates<R>(rows: seq<(int, R)>, stamp: R -> int)
    requires rows != [] && SortedDesc(rows, stamp) && DistinctIds(rows)
    ensures forall y :: y in rows[1..] ==> stamp(y.1) <= stamp(rows[0].1) && y.0 != rows[0].0
  {
    forall y | y in rows[1..]
      ensures stamp(y.1) <= stamp(rows[0].1) && y.0 != rows[0].0
    {
      var j :| 0 <= j < |rows[1..]| && rows[1..][j] == y;
      assert rows[j + 1] == y;
    }
  }

  /** The store's evaluation of the query: a scan of the table in rowid
      order (every id lies in 1..counter), keeping the answer sorted as it
      grows. */
  method SelectOrdered<R(==,!new)>(table: map<int, R>, counter: int, keep: R -> bool, stamp: R -> int)
    returns (rows: seq<(int, R)>)
    requires forall id :: id in table ==> 1 <= id <= counter
    ensures IsSelection(rows, table, keep, stamp)
  {
    rows := [];
    var next := 1;
    while next <= counter
      invariant 1 <= next <= counter + 1 || (counter < 1 && next == 1)
      invariant forall y :: y in rows ==> y.0 in table && y.0 < next && y.1 == table[y.0] && keep(y.1)
      invariant forall id :: id in table && id < next && keep(table[id]) ==> (id, table[id]) in rows
      invariant DistinctIds(rows)
      invariant SortedDesc(rows, stamp)
    {
      if next in table && keep(table[next]) {
        rows := InsertDesc(rows, (next, table[next]), stamp);
      }
      next := next + 1;
    }
  }
}

=== FILE: schema.dfy ===
/** The three tables created by database/init.js: their rows, their
    constraints, and the LEFT JOIN that enriches an order with its user. */
module Schema {
  import opened Values

  /** `users(id INTEGER PRIMARY KEY AUTOINCREMENT, name TEXT NOT NULL,
      email TEXT UNIQUE NOT NULL, age INTEGER, created_at DATETIME)`. */
  datatype User = User(name: SqlValue, email: SqlValue, age: SqlValue, createdAt: int)

  /** `products(..., name NOT NULL, description, price REAL NOT NULL,
      category, stock_quantity INTEGER DEFAULT 0, created_at)`. */
  datatype Product = Product(
    name: SqlValue, description: SqlValue, price: SqlValue,
    category: SqlValue, stockQuantity: SqlValue, createdAt: int)

  /** `orders(..., user_id INTEGER REFERENCES users(id) ON DELETE SET NULL,
      total_amount REAL NOT NULL, status TEXT DEFAULT 'pending' CHECK (...),
      created_at)`. */
  datatype Order = Order(userId: SqlValue, totalAmount: SqlValue, status: SqlValue, createdAt: int)

  /** An order row with `u.name as user_name, u.email as user_email`. */
  datatype OrderView = OrderView(id: int, order: Order, userName: SqlValue, userEmail: SqlValue)

  const OrderStatuses: seq<string> := ["pending", "processing", "shipped", "delivered", "cancelled"]

  const DefaultStatus: string := "pending"

  /** The CHECK constraint on `orders.status`: like every SQL CHECK, it is
      satisfied by NULL. */
  predicate StatusCheck(v: SqlValue)
  {
    v == SqlNull || (v.SqlText? && v.t in OrderStatuses)
  }

  predicate IsStatus(v: SqlValue)
  {
    v.SqlText? && v.t in OrderStatuses
  }

  /** The value `v` names the row with id `id`. */
  predicate Refers(v: SqlValue, id: int)
  {
    v == SqlNum(id as real)
  }

  /** The user row `v` names, if any: the LEFT JOIN `o.user_id = u.id`. */
  function Owner(v: SqlValue, users: map<int, User>): (r: Option<int>)
    ensures r.Some? ==> r.value in users && Refers(v, r.value)
    ensures forall id :: id in users && Refers(v, id) ==> r == Some(id)
  {
    if v.SqlNum? && v.n.Floor as real == v.n && v.n.Floor in users then Some(v.n.Floor) else None
  }

  /** The FOREIGN KEY on `orders.user_id`: NULL or the id of an existing user. */
  predicate ForeignKeyHolds(v: SqlValue, users: map<int, User>)
  {
    v == SqlNull || Owner(v, users).Some?
  }

  /** The order with the columns the LEFT JOIN adds: those of the user
      whose id equals `user_id`, or NULLs when there is none. */
  function Enrich(id: int, o: Order, users: map<int, User>): (r: OrderView)
    ensures r.id == id && r.order == o
    ensures forall u :: u in users && Refers(o.userId, u) ==>
      r.userName == users[u].name && r.userEmail == users[u].email
    ensures (forall u :: u in users ==> !Refers(o.userId, u)) ==> r.userName == SqlNull && r.userEmail == SqlNull
  {
    match Owner(o.userId, users)
    case None => OrderView(id, o, SqlNull, SqlNull)
    case Some(u) => OrderView(id, o, users[u].name, users[u].email)
  }

  /** AUTOINCREMENT: every id lies in 1..counter, where `counter` is the largest id
      the table has ever issued (its `sqlite_sequence` entry). */
  predicate IdsIssued<R>(table: map<int, R>, counter: int)
  {
    counter >= 0 && forall id :: id in table ==> 1 <= id <= counter
  }

  predicate UsersValid(users: map<int, User>, counter: int)
  {
    && IdsIssued(users, counter)
    && (forall id :: id in users ==> users[id].name != SqlNull && users[id].email != SqlNull)
    && EmailsUnique(users)
  }

  predicate EmailsUnique(users: map<int, User>)
  {
    forall a, b :: a in users && b in users && a != b ==> users[a].email != users[b].email
  }

  /** Some stored user has this email. */
  predicate EmailInUse(users: map<int, User>, email: SqlValue)
  {
    exists id :: id in users && users[id].email == email
  }

  /** Some user other than `except` already has `email`. */
  predicate EmailTaken(users: map<int, User>, email: SqlValue, except: int)
  {
    exists id :: id in users && id != except && users[id].email == email
  }

  predicate ProductsValid(products: map<int, Product>, counter: int)
  {
    && IdsIssued(products, counter)
    && forall id :: id in products ==> products[id].name != SqlNull && products[id].price != SqlNull
  }

  /** The order table's invariant. The handlers never write a NULL status,
      so every stored status is one of the five values, not merely one the
      CHECK constraint admits. */
  predicate OrdersValid(orders: map<int, Order>, counter: int, users: map<int, User>)
  {
    && IdsIssued(orders, counter)
    && forall id :: id in orders ==>
         && orders[id].totalAmount != SqlNull
         && IsStatus(orders[id].status)
         && ForeignKeyHolds(orders[id].userId, users)
  }

  /** `ON DELETE SET NULL`: the orders table after user `uid` is deleted. */
  function DetachUser(orders: map<int, Order>, uid: int): (r: map<int, Order>)
    ensures r.Keys == orders.Keys
    ensures forall id :: id in r ==> !Refers(r[id].userId, uid)
    ensures forall id :: id in r ==> r[id] == orders[id] || r[id] == orders[id].(userId := SqlNull)
    ensures forall id :: id in r && r[id] != orders[id] ==> Refers(orders[id].userId, uid)
  {
    map id | id in orders :: if Refers(orders[id].userId, uid) then orders[id].(userId := SqlNull) else orders[id]
  }

  /** Deleting a user with the cascade keeps the order table valid. */
  lemma DetachUserKeepsOrdersValid(orders: map<int, Order>, counter: int, users: map<int, User>, uid: int)
    requires OrdersValid(orders, counter, users)
    ensures OrdersValid(DetachUser(orders, uid), counter, users - {uid})
  {
    var r := DetachUser(orders, uid);
    forall id | id in r
      ensures ForeignKeyHolds(r[id].userId, users - {uid})
    {
      if !Refers(orders[id].userId, uid) && orders[id].userId != SqlNull {
        var o := Owner(orders[id].userId, users).value;
        assert o != uid;
        assert o in users - {uid} && Refers(r[id].userId, o);
      }
    }
  }

  /** Inserting or updating a user keeps every order's foreign key valid:
      the foreign key looks only at which ids exist. */
  lemma MoreUsersKeepOrdersValid(orders: map<int, Order>, counter: int, users: map<int, User>, users': map<int, User>)
    requires OrdersValid(orders, counter, users)
    requires users.Keys <= users'.Keys
    ensures OrdersValid(orders, counter, users')
  {
    forall id | id in orders
      ensures ForeignKeyHolds(orders[id].userId, users')
    {
      var v := orders[id].userId;
      if v != SqlNull {
        assert Owner(v, users).value in users';
      }
    }
  }

  /** An insert that takes the next id and brings a new, non-null email
      keeps the users table valid. */
  lemma InsertUserKeepsUsersValid(users: map<int, User>, counter: int, u: User)
    requires UsersValid(users, counter)
    requires u.name != SqlNull && u.email != SqlNull
    requires !EmailInUse(users, u.email)
    ensures UsersValid(users[counter + 1 := u], counter + 1)
  {
    var users' := users[counter + 1 := u];
    forall a, b | a in users' && b in users' && a != b
      ensures users'[a].email != users'[b].email
    {
      if a != counter + 1 && b != counter + 1 {
        assert users'[a] == users[a] && users'[b] == users[b];
      }
    }
  }
}

=== FILE: store.dfy ===
/** The SQLite database the three routers share: one map per table and one
    AUTOINCREMENT counter per table (its `sqlite_sequence` entry), under the
    constraints declared in database/init.js. Each handler runs as one
    atomic step against this store. */
module Database {
  import opened Values
  import opened Schema
  import opened Query

  /** What a handler answers: an HTTP status, the message of the JSON
      envelope (empty where the route sends none) and the row it returns. */
  datatype Reply<T> = Reply(status: int, message: string, data: Option<T>)

  class Store {
    var users: map<int, User>
    var products: map<int, Product>
    var orders: map<int, Order>
    var userSeq: int
    var productSeq: int
    var orderSeq: int

    /** Every declared constraint holds (foreign keys are enforced, since
        the connection runs `PRAGMA foreign_keys = ON`). */
    predicate Valid()
      reads this
    {
      && UsersValid(users, userSeq)
      && ProductsValid(products, productSeq)
      && OrdersValid(orders, orderSeq, users)
    }

    /** Three `CREATE TABLE`s on a fresh database file. */
    constructor ()
      ensures Valid()
      ensures users == map[] && products == map[] && orders == map[]
      ensures userSeq == 0 && productSeq == 0 && orderSeq == 0
    {
      users, products, orders := map[], map[], map[];
      userSeq, productSeq, orderSeq := 0, 0, 0;
    }
  }

  function UserStamp(u: User): int { u.createdAt }
  function ProductStamp(p: Product): int { p.createdAt }
  function OrderStamp(o: Order): int { o.createdAt }

  /** The LEFT JOIN applied to every selected order, in order. */
  function EnrichAll(rows: seq<(int, Order)>, users: map<int, User>): (r: seq<OrderView>)
    ensures |r| == |rows|
    ensures forall i :: 0 <= i < |rows| ==> r[i] == Enrich(rows[i].0, rows[i].1, users)
  {
    seq(|rows|, i requires 0 <= i < |rows| => Enrich(rows[i].0, rows[i].1, users))
  }

  /** A selection depends only on which rows the condition keeps. */
  lemma SelectionByEquivalent<R(!new)>(rows: seq<(int, R)>, table: map<int, R>, k1: R -> bool, k2: R -> bool, stamp: R -> int)
    requires IsSelection(rows, table, k1, stamp)
    requires forall r :: k1(r) <==> k2(r)
    ensures IsSelection(rows, table, k2, stamp)
  {
  }
}

=== FILE: text.dfy ===
/** String helpers shared by the query builder, the dump writer and the
    dialect rewriter. */
module Text {
  import opened Values

  /** `q` occurs in `s` starting at index `i`. */
  predicate OccursAt(s: string, q: string, i: int)
  {
    0 <= i && i + |q| <= |s| && s[i..i + |q|] == q
  }

  /** JavaScript `s.includes(q)`. */
  predicate Contains(s: string, q: string)
  {
    exists i :: 0 <= i <= |s| && OccursAt(s, q, i)
  }

  /** JavaScript `s.startsWith(q)`. */
  predicate StartsWith(s: string, q: string)
  {
    |q| <= |s| && s[..|q|] == q
  }

  /** A string none of whose characters is `c` has no occurrence of any
      string that contains `c`. */
  lemma AbsentCharExcludes(s: string, q: string, c: char)
    requires c in q
    requires c !in s
    ensures !Contains(s, q)
  {
    var j :| 0 <= j < |q| && q[j] == c;
    forall i | 0 <= i <= |s| ensures !OccursAt(s, q, i) {
      if i + |q| <= |s| {
        assert s[i..i + |q|][j] == s[i + j] != c;
      }
    }
  }

  /** Occurrences in the second half of a concatenation are occurrences
      of the second part, shifted. */
  lemma OccursShift(a: string, b: string, q: string, i: int)
    requires 0 <= i
    ensures OccursAt(a + b, q, |a| + i) <==> OccursAt(b, q, i)
  {
    if i + |q| <= |b| {
      assert (a + b)[|a| + i..|a| + i + |q|] == b[i..i + |q|];
    }
  }

  /** When `c` occurs once in `s`, as `s[|a|]`, and is `q[j]`, the only
      place `q` could start is `|a| - j`. */
  lemma OnlyCandidate(a: string, c: char, b: string, q: string, j: int)
    requires c !in a && c !in b
    requires 0 <= j < |q| && q[j] == c
    requires !OccursAt(a + [c] + b, q, |a| - j)
    ensures !Contains(a + [c] + b, q)
  {
    var s := a + [c] + b;
    forall i | 0 <= i <= |s| && i != |a| - j ensures !OccursAt(s, q, i) {
      if i + |q| <= |s| {
        var k := i + j;
        if k < |a| {
          assert s[k] == a[k];
        } else {
          assert s[k] == b[k - |a| - 1];
        }
        assert s[i..i + |q|][j] == s[k];
      }
    }
  }

  /** Number of occurrences of the character `c`. */
  function Count(s: string, c: char): nat
  {
    if s == [] then 0 else (if s[0] == c then 1 else 0) + Count(s[1..], c)
  }

  lemma {:induction false} CountAppend(a: string, b: string, c: char)
    ensures Count(a + b, c) == Count(a, c) + Count(b, c)
  {
    if a == [] {
      assert a + b == b;
    } else {
      assert (a + b)[1..] == a[1..] + b;
      CountAppend(a[1..], b, c);
    }
  }

  /** JavaScript `parts.join(sep)`. */
  function Join(parts: seq<string>, sep: string): string
  {
    if parts == [] then ""
    else if |parts| == 1 then parts[0]
    else parts[0] + sep + Join(parts[1..], sep)
  }

  lemma {:induction false} CountAbsent(s: string, c: char)
    requires c !in s
    ensures Count(s, c) == 0
  {
    if s != [] {
      assert forall x :: x in s[1..] ==> x in s;
      CountAbsent(s[1..], c);
    }
  }

  /** `c` once, between two stretches free of it. */
  lemma CountOnce(before: string, c: char, after: string)
    requires c !in before && c !in after
    ensures Count(before + [c] + after, c) == 1
  {
    CountAbsent(before, c);
    CountAbsent(after, c);
    CountAppend(before, [c], c);
    CountAppend(before + [c], after, c);
  }

  /** Occurrences of `c` in a joined string: those of the parts plus one
      separator's worth between each two neighbours. */
  lemma {:induction false} CountJoin(parts: seq<string>, sep: string, c: char)
    ensures Count(Join(parts, sep), c)
         == SumCounts(parts, c) + (if parts == [] then 0 else (|parts| - 1) * Count(sep, c))
  {
    if |parts| > 1 {
      var k := Count(sep, c);
      CountJoin(parts[1..], sep, c);
      CountAppend(parts[0], sep, c);
      CountAppend(parts[0] + sep, Join(parts[1..], sep), c);
      assert (|parts| - 1) * k == k + (|parts| - 2) * k;
    }
  }

  function SumCounts(parts: seq<string>, c: char): nat
  {
    if parts == [] then 0 else Count(parts[0], c) + SumCounts(parts[1..], c)
  }

  /** ASCII `toUpperCase`. */
  function Upper(s: string): (r: string)
    ensures |r| == |s|
    ensures forall i :: 0 <= i < |s| ==> r[i] == UpperChar(s[i])
  {
    if s == [] then [] else [UpperChar(s[0])] + Upper(s[1..])
  }

  function UpperChar(c: char): char
  {
    if 'a' <= c <= 'z' then (c as int - 32) as char else c
  }

  /** ASCII lower case, the folding SQLite's LIKE applies. */
  function Lower(s: string): (r: string)
    ensures |r| == |s|
    ensures forall i :: 0 <= i < |s| ==> r[i] == LowerChar(s[i])
  {
    if s == [] then [] else [LowerChar(s[0])] + Lower(s[1..])
  }

  function LowerChar(c: char): char
  {
    if 'A' <= c <= 'Z' then (c as int + 32) as char else c
  }

  predicate IsDigit(c: char)
  {
    '0' <= c <= '9'
  }

  /** The value of a string of decimal digits, read left to right (only
      ever applied to digit strings). */
  function DigitsValue(s: string): nat
  {
    if s == [] then 0
    else DigitsValue(s[..|s| - 1]) * 10 + DigitValue(s[|s| - 1])
  }

  function DigitValue(c: char): nat
  {
    if IsDigit(c) then c as int - '0' as int else 0
  }

  /** Length of the longest all-digit prefix. */
  function DigitPrefixLength(s: string): (n: nat)
    ensures n <= |s|
    ensures forall i :: 0 <= i < n ==> IsDigit(s[i])
    ensures n < |s| ==> !IsDigit(s[n])
  {
    if s == [] || !IsDigit(s[0]) then 0 else 1 + DigitPrefixLength(s[1..])
  }

  /** ECMAScript white space (`\s`, and the white space `parseFloat`
      skips): the WhiteSpace and LineTerminator code points. */
  predicate IsSpace(c: char)
  {
    || c == ' ' || c == '\t' || c == '\n' || c == '\r' || c == '\U{000B}' || c == '\U{000C}'
    || c == '\U{00A0}' || c == '\U{1680}' || '\U{2000}' <= c <= '\U{200A}'
    || c == '\U{2028}' || c == '\U{2029}' || c == '\U{202F}' || c == '\U{205F}'
    || c == '\U{3000}' || c == '\U{FEFF}'
  }

  /** Length of the leading run of white space, the greedy `\s*`. */
  function SpaceRun(u: string): (n: nat)
    ensures n <= |u|
    ensures forall k :: 0 <= k < n ==> IsSpace(u[k])
    ensures n < |u| ==> !IsSpace(u[n])
  {
    if u != [] && IsSpace(u[0]) then 1 + SpaceRun(u[1..]) else 0
  }

  /** 10 to the power `k`. */
  function Pow10(k: nat): (r: nat)
    ensures r >= 1
  {
    if k == 0 then 1 else 10 * Pow10(k - 1)
  }

  /** `x` times 10 to the power `e`, one factor of ten at a time. */
  function ScaleBy(x: real, e: int): real
    decreases if e >= 0 then e else -e
  {
    if e == 0 then x
    else if e > 0 then 10.0 * ScaleBy(x, e - 1)
    else ScaleBy(x, e + 1) / 10.0
  }

  /** The digits after a decimal point as tenths, hundredths, and so on. */
  function FracValue(f: string): real
  {
    if f == [] then 0.0 else (DigitValue(f[0]) as real + FracValue(f[1..])) / 10.0
  }

  predicate AllDigits(s: string)
  {
    forall i :: 0 <= i < |s| ==> IsDigit(s[i])
  }

  /** A text starts a decimal numeral: a digit, or a point and a digit. */
  predicate StartsNumeral(u: string)
  {
    (u != [] && IsDigit(u[0])) || (|u| >= 2 && u[0] == '.' && IsDigit(u[1]))
  }

  /** The exponent part at the front of `e`: `e` or `E`, an optional sign
      and at least one digit. Without one the exponent is 0. */
  function ExponentValue(e: string): int
  {
    if |e| >= 2 && (e[0] == 'e' || e[0] == 'E') then
      var k := if e[1] == '+' || e[1] == '-' then 2 else 1;
      var n := DigitPrefixLength(e[k..]);
      if n == 0 then 0
      else if e[1] == '-' then -(DigitsValue(e[k..][..n]) as int)
      else DigitsValue(e[k..][..n])
    else 0
  }

  /** The longest unsigned decimal literal at the front of `u`: digits, an
      optional point with more digits (at least one digit in all), and an
      optional exponent. */
  function UnsignedDecimal(u: string): Option<real>
  {
    var a := DigitPrefixLength(u);
    if a < |u| && u[a] == '.' then Fraction(u[..a], u[a + 1..])
    else if a == 0 then None
    else Some(ScaleBy(DigitsValue(u[..a]) as real, ExponentValue(u[a..])))
  }

  /** The literal once its whole part and the point are read: the digits
      of the fraction and the exponent after them. */
  function Fraction(whole: string, f: string): Option<real>
  {
    var b := DigitPrefixLength(f);
    if whole == [] && b == 0 then None
    else Some(ScaleBy(DigitsValue(whole) as real + FracValue(f[..b]), ExponentValue(f[b..])))
  }

  /** The sign in front of the literal: 1 for `-` or `+`, else 0. */
  function SignLength(t: string): nat
  {
    if t != [] && (t[0] == '-' || t[0] == '+') then 1 else 0
  }

  /** JavaScript `parseFloat(s)`: leading white space is skipped, then the
      longest prefix that is an optionally signed decimal literal is read;
      `None` stands for NaN. */
  function ParseFloat(s: string): Option<real>
  {
    SignedDecimal(s[SpaceRun(s)..])
  }

  /** An optionally signed decimal literal at the front of `t`. */
  function SignedDecimal(t: string): Option<real>
  {
    match UnsignedDecimal(t[SignLength(t)..])
    case None => None
    case Some(x) => Some(if t != [] && t[0] == '-' then -x else x)
  }

  /** Digits read left to right: the value of `a + b` shifts `a` by the
      length of `b`. */
  lemma {:induction false} DigitsValueAppend(a: string, b: string)
    ensures DigitsValue(a + b) == DigitsValue(a) * Pow10(|b|) + DigitsValue(b)
  {
    if b == [] {
      assert a + b == a;
    } else {
      var b' := b[..|b| - 1];
      assert (a + b)[..|a + b| - 1] == a + b';
      assert (a + b)[|a + b| - 1] == b[|b| - 1];
      DigitsValueAppend(a, b');
      ShiftDigit(DigitsValue(a), Pow10(|b'|), DigitsValue(b'), DigitValue(b[|b| - 1]));
    }
  }

  lemma ShiftDigit(x: nat, p: nat, y: nat, d: nat)
    ensures (x * p + y) * 10 + d == x * (10 * p) + (y * 10 + d)
  {
  }

  /** The digit run stops where the digits end. */
  lemma {:induction false} DigitRunEnds(a: string, rest: string)
    requires AllDigits(a)
    requires rest == [] || !IsDigit(rest[0])
    ensures DigitPrefixLength(a + rest) == |a|
  {
    if a == [] {
      assert a + rest == rest;
    } else {
      assert (a + rest)[1..] == a[1..] + rest;
      DigitRunEnds(a[1..], rest);
    }
  }

  /** The white-space run of `w + s` is `w` and that of `s`. */
  lemma {:induction false} SpaceRunAppend(w: string, s: string)
    requires forall i :: 0 <= i < |w| ==> IsSpace(w[i])
    ensures SpaceRun(w + s) == |w| + SpaceRun(s)
  {
    if w == [] {
      assert w + s == s;
    } else {
      assert (w + s)[1..] == w[1..] + s;
      SpaceRunAppend(w[1..], s);
    }
  }

  /** `parseFloat` skips leading white space. */
  lemma ParseFloatSkipsSpace(w: string, s: string)
    requires forall i :: 0 <= i < |w| ==> IsSpace(w[i])
    ensures ParseFloat(w + s) == ParseFloat(s)
  {
    SpaceRunAppend(w, s);
    SkipBoth(w, s, SpaceRun(s));
    SameRest(w + s, s, (w + s)[SpaceRun(w + s)..], s[SpaceRun(s)..]);
  }

  /** Two texts whose remainders after the white space agree parse alike. */
  lemma SameRest(x: string, y: string, rx: string, ry: string)
    requires rx == x[SpaceRun(x)..] && ry == y[SpaceRun(y)..] && rx == ry
    ensures ParseFloat(x) == ParseFloat(y)
  {
  }

  lemma SkipBoth(w: string, s: string, k: nat)
    requires k <= |s|
    ensures (w + s)[|w| + k..] == s[k..]
  {
  }

  /** A text that opens with a digit or a point is read from its start. */
  lemma ParseFloatPlain(u: string)
    requires u != [] && (IsDigit(u[0]) || u[0] == '.')
    ensures ParseFloat(u) == UnsignedDecimal(u)
  {
    NoLeadingSpace(u);
    Unspaced(u);
    Unsigned(u);
  }

  lemma NoLeadingSpace(u: string)
    requires u != [] && (IsDigit(u[0]) || u[0] == '.' || u[0] == '-' || u[0] == '+')
    ensures SpaceRun(u) == 0
  {
  }

  lemma Unspaced(u: string)
    requires SpaceRun(u) == 0
    ensures ParseFloat(u) == SignedDecimal(u)
  {
    assert u[0..] == u;
  }

  lemma Unsigned(u: string)
    requires u != [] && (IsDigit(u[0]) || u[0] == '.')
    ensures SignedDecimal(u) == UnsignedDecimal(u)
  {
    assert SignLength(u) == 0;
    assert u[0..] == u;
  }

  /** What `parseFloat` reads its numeral from: the text after the
      leading white space and an optional sign. */
  function AfterSpaceAndSign(s: string): string
  {
    var t := s[SpaceRun(s)..];
    t[SignLength(t)..]
  }

  /** `parseFloat` gives NaN exactly when, after white space and a sign,
      neither a digit nor a point followed by a digit comes. */
  lemma ParseFloatNaN(s: string)
    ensures ParseFloat(s) == None <==> !StartsNumeral(AfterSpaceAndSign(s))
  {
    UnsignedNone(AfterSpaceAndSign(s));
  }

  lemma UnsignedNone(u: string)
    ensures UnsignedDecimal(u) == None <==> !StartsNumeral(u)
  {
    var a := DigitPrefixLength(u);
    if a > 0 {
      assert |u[..a]| == a;
    } else if a < |u| && u[a] == '.' {
      assert u[1..] == [] || DigitPrefixLength(u[1..]) == 0 <==> !(|u| >= 2 && IsDigit(u[1]));
    }
  }

  /** A leading `-` negates the number read after it, a leading `+` leaves
      it as it is. */
  lemma ParseFloatSign(x: string)
    requires x != [] && (IsDigit(x[0]) || x[0] == '.')
    ensures ParseFloat("-" + x) == Negate(ParseFloat(x))
    ensures ParseFloat("+" + x) == ParseFloat(x)
  {
    ParseFloatPlain(x);
    NoLeadingSpace("-" + x);
    NoLeadingSpace("+" + x);
    Unspaced("-" + x);
    Unspaced("+" + x);
    SignedMinus(x);
    SignedPlus(x);
  }

  function Negate(r: Option<real>): Option<real>
  {
    if r.Some? then Some(-r.value) else None
  }

  lemma SignedMinus(x: string)
    ensures SignedDecimal("-" + x) == (if UnsignedDecimal(x).Some? then Some(-UnsignedDecimal(x).value) else None)
  {
    assert ("-" + x)[1..] == x;
  }

  lemma SignedPlus(x: string)
    ensures SignedDecimal("+" + x) == UnsignedDecimal(x)
  {
    assert ("+" + x)[1..] == x;
  }

  /** A decimal numeral `a.b` reads as `a` plus `b` tenths, hundredths, and
      so on, whatever follows it, unless an exponent follows. */
  lemma ParseFloatDecimal(a: string, b: string, tail: string)
    requires AllDigits(a) && AllDigits(b) && (a != [] || b != [])
    requires tail == [] || (!IsDigit(tail[0]) && tail[0] != 'e' && tail[0] != 'E')
    ensures ParseFloat(a + "." + b + tail) == Some(DigitsValue(a) as real + FracValue(b))
  {
    var u, f := a + "." + b + tail, b + tail;
    PointJoin(a, b, tail, f, u);
    PointFirst(u, a, f);
    PointParts(u, a, b, tail, f);
    ParseFloatPlain(u);
  }

  lemma PointJoin(a: string, b: string, tail: string, f: string, u: string)
    requires f == b + tail && u == a + "." + b + tail
    ensures u == a + (['.'] + f)
  {
  }

  /** The numeral `a.b` followed by no exponent is worth `a` and the
      fraction `b`. */
  lemma PointParts(u: string, a: string, b: string, tail: string, f: string)
    requires AllDigits(a) && AllDigits(b) && (a != [] || b != [])
    requires tail == [] || (!IsDigit(tail[0]) && tail[0] != 'e' && tail[0] != 'E')
    requires f == b + tail && u == a + (['.'] + f)
    ensures UnsignedDecimal(u) == Some(DigitsValue(a) as real + FracValue(b))
  {
    AtPoint(u, a, f);
    FractionDigits(a, f, b, tail);
    NoExponent(tail);
  }

  lemma PointFirst(u: string, a: string, f: string)
    requires AllDigits(a) && u == a + (['.'] + f)
    ensures u != [] && (IsDigit(u[0]) || u[0] == '.')
  {
    assert u[0] == (if a == [] then '.' else a[0]);
  }

  /** A whole part ended by a point hands the rest to `Fraction`. */
  lemma AtPoint(u: string, a: string, rest: string)
    requires u == a + (['.'] + rest) && AllDigits(a)
    ensures UnsignedDecimal(u) == Fraction(a, rest)
  {
    DigitRunEnds(a, ['.'] + rest);
    assert u[..|a|] == a && u[|a| + 1..] == rest;
  }

  lemma FractionDigits(w: string, f: string, d: string, rest: string)
    requires f == d + rest && AllDigits(d) && (rest == [] || !IsDigit(rest[0]))
    requires w != [] || d != []
    ensures Fraction(w, f) == Some(ScaleBy(DigitsValue(w) as real + FracValue(d), ExponentValue(rest)))
  {
    DigitRunEnds(d, rest);
    assert f[..|d|] == d && f[|d|..] == rest;
  }

  lemma NoExponent(tail: string)
    requires tail == [] || (tail[0] != 'e' && tail[0] != 'E')
    ensures ExponentValue(tail) == 0
  {
  }

  /** The fraction digits `b` are worth their integer value over 10 to
      the power of their count. */
  lemma {:induction false} FracValueIs(b: string)
    ensures FracValue(b) == DigitsValue(b) as real / Pow10(|b|) as real
  {
    if b != [] {
      var rest := b[1..];
      FracValueIs(rest);
      assert b == [b[0]] + rest;
      DigitsValueAppend([b[0]], rest);
      assert DigitsValue([b[0]]) == DigitValue(b[0]) by {
        assert [b[0]][..0] == [];
      }
      ShiftFraction(DigitValue(b[0]), DigitsValue(rest), Pow10(|rest|));
    }
  }

  lemma ShiftFraction(d: nat, v: nat, p: nat)
    requires p >= 1
    ensures (d as real + v as real / p as real) / 10.0 == (d * p + v) as real / (10 * p) as real
  {
    var P := p as real;
    assert (d * p + v) as real == d as real * P + v as real;
    assert (10 * p) as real == 10.0 * P;
    assert d as real + v as real / P == (d as real * P + v as real) / P;
  }

  /** Scaling by a non-negative exponent multiplies by that power of ten. */
  lemma {:induction false} ScaleUp(x: real, k: nat)
    ensures ScaleBy(x, k) == x * Pow10(k) as real
  {
    if k > 0 {
      ScaleUp(x, k - 1);
      assert (10 * Pow10(k - 1)) as real == 10.0 * Pow10(k - 1) as real;
    }
  }

  /** A run of digits reads as its value, whatever follows it, unless a
      point or an exponent follows. */
  lemma ParseFloatInteger(a: string, tail: string)
    requires AllDigits(a) && a != []
    requires tail == [] || (!IsDigit(tail[0]) && tail[0] != '.' && tail[0] != 'e' && tail[0] != 'E')
    ensures ParseFloat(a + tail) == Some(DigitsValue(a) as real)
  {
    assert (a + tail)[0] == a[0];
    ParseFloatPlain(a + tail);
    WholeOnly(a + tail, a, tail);
    NoExponent(tail);
  }

  /** A whole part not followed by a point is the mantissa. */
  lemma WholeOnly(u: string, a: string, rest: string)
    requires u == a + rest && AllDigits(a) && a != []
    requires rest == [] || (!IsDigit(rest[0]) && rest[0] != '.')
    ensures UnsignedDecimal(u) == Some(ScaleBy(DigitsValue(a) as real, ExponentValue(rest)))
  {
    DigitRunEnds(a, rest);
    assert u[..|a|] == a && u[|a|..] == rest;
  }

  /** Digits with an exponent `e` and more digits scale by that power of ten. */
  lemma ParseFloatExponent(a: string, d: string, tail: string)
    requires AllDigits(a) && a != [] && AllDigits(d) && d != []
    requires tail == [] || !IsDigit(tail[0])
    ensures ParseFloat(a + "e" + d + tail) == Some(ScaleBy(DigitsValue(a) as real, DigitsValue(d)))
  {
    var u, e := a + "e" + d + tail, "e" + (d + tail);
    ExponentJoin(a, d, tail, e, u);
    WholeFirst(u, a, e);
    WholeOnly(u, a, e);
    ExponentDigits(d, tail);
    ParseFloatPlain(u);
  }

  lemma ExponentJoin(a: string, d: string, tail: string, e: string, u: string)
    requires e == "e" + (d + tail) && u == a + "e" + d + tail
    ensures u == a + e
  {
  }

  lemma WholeFirst(u: string, a: string, e: string)
    requires AllDigits(a) && a != [] && u == a + e
    ensures u != [] && IsDigit(u[0])
  {
    assert u[0] == a[0];
  }

  lemma ExponentDigits(d: string, tail: string)
    requires AllDigits(d) && d != []
    requires tail == [] || !IsDigit(tail[0])
    ensures ExponentValue("e" + (d + tail)) == DigitsValue(d)
  {
    var e := "e" + (d + tail);
    assert e[1] == d[0];
    assert e[1..] == d + tail;
    DigitRunEnds(d, tail);
    assert (d + tail)[..|d|] == d;
  }

  /** INTEGER affinity applied to a text: a non-empty string of decimal
      digits becomes that integer; any other text stays a text. */
  function IntegerAffinity(s: string): (r: Option<int>)
    ensures r.Some? <==> (s != [] && forall i :: 0 <= i < |s| ==> IsDigit(s[i]))
  {
    if s != [] && forall i :: 0 <= i < |s| ==> IsDigit(s[i]) then Some(DigitsValue(s)) else None
  }

  /** Concatenation regrouped: the one step the solver needs told. */
  lemma Associate(a: string, b: string, c: string)
    ensures a + (b + c) == a + b + c
  {
  }
}

=== FILE: users.dfy ===
/** The `/api/users` router (routes/users.js). */
module UserRoutes {
  import opened Values
  import opened Schema
  import opened Query
  import opened Database

  /** `GET /api/users`: every user, latest first. */
  method ListUsers(db: Store) returns (rows: seq<(int, User)>)
    requires db.Valid()
    ensures IsSelection(rows, db.users, (u: User) => true, UserStamp)
    ensures |rows| == |db.users|
  {
    rows := SelectOrdered(db.users, db.userSeq, (u: User) => true, UserStamp);
    SelectionCoversTable(rows, db.users, UserStamp);
  }

  /** `GET /api/users/:id`. */
  method GetUser(db: Store, id: int) returns (r: Reply<(int, User)>)
    ensures id !in db.users ==> r == Reply(404, "User not found", None)
    ensures id in db.users ==> r == Reply(200, "", Some((id, db.users[id])))
  {
    if id !in db.users {
      return Reply(404, "User not found", None);
    }
    r := Reply(200, "", Some((id, db.users[id])));
  }

  /** `POST /api/users`: both name and email must be truthy; a duplicate
      email trips the UNIQUE constraint. The new row takes the next id. */
  method CreateUser(db: Store, name: JsValue, email: JsValue, age: JsValue, now: int)
    returns (r: Reply<(int, User)>)
    requires db.Valid()
    modifies db
    ensures db.Valid()
    ensures db.products == old(db.products) && db.orders == old(db.orders)
    ensures db.productSeq == old(db.productSeq) && db.orderSeq == old(db.orderSeq)
    ensures !Truthy(name) || !Truthy(email) ==>
      r == Reply(400, "Name and email are required", None) && unchanged(db)
    ensures Truthy(name) && Truthy(email) && EmailInUse(old(db.users), Bind(email)) ==>
      r == Reply(400, "Email already exists", None) && unchanged(db)
    ensures Truthy(name) && Truthy(email) && !EmailInUse(old(db.users), Bind(email)) ==>
      var id := old(db.userSeq) + 1;
      var u := User(Bind(name), Bind(email), Bind(age), now);
      && (forall k :: k in old(db.users) ==> k < id)
      && db.userSeq == id
      && db.users == old(db.users)[id := u]
      && r == Reply(201, "User created successfully", Some((id, u)))
  {
    if !Truthy(name) || !Truthy(email) {
      return Reply(400, "Name and email are required", None);
    }
    if EmailInUse(db.users, Bind(email)) {
      return Reply(400, "Email already exists", None);
    }
    var id := db.userSeq + 1;
    var u := User(Bind(name), Bind(email), Bind(age), now);
    InsertUserKeepsUsersValid(db.users, db.userSeq, u);
    db.users := db.users[id := u];
    db.userSeq := id;
    MoreUsersKeepOrdersValid(db.orders, db.orderSeq, old(db.users), db.users);
    r := Reply(201, "User created successfully", Some((id, u)));
  }

  /** `PUT /api/users/:id`: every field falls back on the stored value when
      the incoming one is falsy (`x || old`). */
  method UpdateUser(db: Store, id: int, name: JsValue, email: JsValue, age: JsValue)
    returns (r: Reply<(int, User)>)
    requires db.Valid()
    modifies db
    ensures db.Valid()
    ensures db.products == old(db.products) && db.orders == old(db.orders)
    ensures db.userSeq == old(db.userSeq) && db.productSeq == old(db.productSeq) && db.orderSeq == old(db.orderSeq)
    ensures id !in old(db.users) ==> r == Reply(404, "User not found", None) && unchanged(db)
    ensures id in old(db.users) ==>
      var was := old(db.users)[id];
      var u := User(OrElse(name, was.name), OrElse(email, was.email), OrElse(age, was.age), was.createdAt);
      if EmailTaken(old(db.users), u.email, id) then
        r == Reply(400, "Email already exists", None) && unchanged(db)
      else
        db.users == old(db.users)[id := u] && r == Reply(200, "User updated successfully", Some((id, u)))
  {
    if id !in db.users {
      return Reply(404, "User not found", None);
    }
    var was := db.users[id];
    var u := User(OrElse(name, was.name), OrElse(email, was.email), OrElse(age, was.age), was.createdAt);
    if EmailTaken(db.users, u.email, id) {
      return Reply(400, "Email already exists", None);
    }
    OrElseKeepsNotNull(name, was.name);
    OrElseKeepsNotNull(email, was.email);
    db.users := db.users[id := u];
    r := Reply(200, "User updated successfully", Some((id, u)));
    MoreUsersKeepOrdersValid(db.orders, db.orderSeq, old(db.users), db.users);
  }

  /** `PUT /api/users/:id` can never store a falsy age: a `0`, `null` or
      `""` age keeps whatever was stored. */
  lemma UpdateNeverClearsAge(age: JsValue, stored: SqlValue)
    requires !Truthy(age)
    ensures OrElse(age, stored) == stored
  {
  }

  /** `DELETE /api/users/:id`: the row goes, and `ON DELETE SET NULL`
      detaches every order that referenced it. */
  method DeleteUser(db: Store, id: int) returns (r: Reply<(int, User)>)
    requires db.Valid()
    modifies db
    ensures db.Valid()
    ensures db.products == old(db.products)
    ensures db.userSeq == old(db.userSeq) && db.productSeq == old(db.productSeq) && db.orderSeq == old(db.orderSeq)
    ensures id !in old(db.users) ==> r == Reply(404, "User not found", None) && unchanged(db)
    ensures id in old(db.users) ==>
      && r == Reply(200, "User deleted successfully", None)
      && db.users == old(db.users) - {id}
      && db.orders == DetachUser(old(db.orders), id)
  {
    if id !in db.users {
      return Reply(404, "User not found", None);
    }
    DetachUserKeepsOrdersValid(db.orders, db.orderSeq, db.users, id);
    db.users := db.users - {id};
    db.orders := DetachUser(db.orders, id);
    r := Reply(200, "User deleted successfully", None);
  }

  /** `GET /api/users/:id/orders`: the user's orders, latest first; an
      unknown id simply yields none. */
  method UserOrders(db: Store, id: int) returns (rows: seq<(int, Order)>)
    requires db.Valid()
    ensures IsSelection(rows, db.orders, (o: Order) => SqlEquals(o.userId, SqlNum(id as real)), OrderStamp)
    ensures id !in db.users ==> rows == []
  {
    rows := SelectOrdered(db.orders, db.orderSeq, (o: Order) => SqlEquals(o.userId, SqlNum(id as real)), OrderStamp);
    OrdersOfUserExist(rows, db.orders, db.orderSeq, db.users, id);
  }

  /** Under the foreign key, every order naming `id` means user `id` exists. */
  lemma OrdersOfUserExist(rows: seq<(int, Order)>, orders: map<int, Order>, counter: int, users: map<int, User>, id: int)
    requires OrdersValid(orders, counter, users)
    requires IsSelection(rows, orders, (o: Order) => SqlEquals(o.userId, SqlNum(id as real)), OrderStamp)
    ensures rows != [] ==> id in users
  {
    if rows != [] {
      var y := rows[0];
      assert y in rows;
      var k := y.0;
      assert k in orders;
      assert ForeignKeyHolds(orders[k].userId, users);
      assert orders[k].userId == SqlNum(id as real);
      var owner := Owner(orders[k].userId, users).value;
      assert owner as real == id as real;
    }
  }

  /** Selecting with a condition every row meets returns the whole table. */
  lemma SelectionCoversTable<R(!new)>(rows: seq<(int, R)>, table: map<int, R>, stamp: R -> int)
    requires IsSelection(rows, table, r => true, stamp)
    ensures |rows| == |table|
  {
    var ids := set y | y in rows :: y.0;
    forall k | k in table ensures k in ids {
      assert (k, table[k]) in rows;
    }
    assert ids == table.Keys;
    DistinctIdsCount(rows);
  }

  lemma {:induction false} DistinctIdsCount<R>(rows: seq<(int, R)>)
    requires DistinctIds(rows)
    ensures |set y | y in rows :: y.0| == |rows|
  {
    if rows != [] {
      var rest := rows[1..];
      DistinctIdsCount(rest);
      assert (set y | y in rows :: y.0) == {rows[0].0} + (set y | y in rest :: y.0);
      assert rows[0].0 !in (set y | y in rest :: y.0);
    }
  }
}

=== FILE: values.dfy ===
/** JavaScript request values, stored SQL values, and the two merge rules the
    route handlers use to combine an incoming field with a stored one. */
module Values {

  datatype Option<+T> = None | Some(value: T)

  /** A field of a parsed JSON request body: absent fields are `Undefined`. */
  datatype JsValue = Undefined | Null | Num(n: real) | Str(s: string)

  /** A value as SQLite stores it in a column. */
  datatype SqlValue = SqlNull | SqlNum(n: real) | SqlText(t: string)

  /** JavaScript truthiness: `undefined`, `null`, `0` and `""` are falsy. */
  predicate Truthy(v: JsValue)
    ensures Truthy(v) ==> Bind(v) != SqlNull && Bind(v) != SqlNum(0.0) && Bind(v) != SqlText("")
  {
    match v
    case Undefined => false
    case Null => false
    case Num(n) => n != 0.0
    case Str(s) => s != ""
  }

  /** How node-sqlite3 binds a JavaScript value to a `?` placeholder:
      `undefined` and `null` both become SQL NULL, and reading the column
      back gives the bound value again, with `undefined` come back as
      `null`. */
  function Bind(v: JsValue): (r: SqlValue)
    ensures r == SqlNull <==> (v == Undefined || v == Null)
    ensures Read(r) == (if v == Undefined then Null else v)
  {
    match v
    case Undefined => SqlNull
    case Null => SqlNull
    case Num(n) => SqlNum(n)
    case Str(s) => SqlText(s)
  }

  /** A column value as node-sqlite3 hands it to JavaScript in a row
      object: NULL as `null`, numbers and texts as themselves. */
  function Read(v: SqlValue): JsValue
  {
    match v
    case SqlNull => Null
    case SqlNum(n) => Num(n)
    case SqlText(t) => Str(t)
  }

  /** Every stored value is the binding of what reading it gives. */
  lemma BindRead(v: SqlValue)
    ensures Bind(Read(v)) == v
  {
  }

  /** `incoming || stored`: the stored value survives every falsy input. */
  function OrElse(incoming: JsValue, stored: SqlValue): (r: SqlValue)
    ensures r == SqlNull <==> !Truthy(incoming) && stored == SqlNull
    ensures Read(r) == (if Truthy(incoming) then incoming else Read(stored))
  {
    if Truthy(incoming) then Bind(incoming) else stored
  }

  /** `incoming !== undefined ? incoming : stored`: only an absent field keeps
      the stored value; an explicit `null`, `0` or `""` is written. */
  function IfDefined(incoming: JsValue, stored: SqlValue): (r: SqlValue)
    ensures r == SqlNull <==> incoming == Null || (incoming == Undefined && stored == SqlNull)
    ensures incoming != Undefined ==> Read(r) == incoming
  {
    if incoming != Undefined then Bind(incoming) else stored
  }

  /** The two merge rules differ exactly on defined falsy inputs. */
  lemma MergeRulesDiffer(incoming: JsValue, stored: SqlValue)
    ensures OrElse(incoming, stored) == stored || OrElse(incoming, stored) == Bind(incoming)
    ensures Truthy(incoming) ==> OrElse(incoming, stored) == IfDefined(incoming, stored) == Bind(incoming)
    ensures incoming == Undefined ==> OrElse(incoming, stored) == IfDefined(incoming, stored) == stored
    ensures incoming == Null ==> IfDefined(incoming, stored) == SqlNull && OrElse(incoming, stored) == stored
    ensures incoming == Num(0.0) ==> IfDefined(incoming, stored) == SqlNum(0.0) && OrElse(incoming, stored) == stored
  {
  }

  /** `incoming || stored` never yields NULL when the stored value is not NULL. */
  lemma OrElseKeepsNotNull(incoming: JsValue, stored: SqlValue)
    requires stored != SqlNull
    ensures OrElse(incoming, stored) != SqlNull
  {
  }

  /** SQL `a = b` in a WHERE clause: NULL on either side is never a match.
      Type affinity conversions are not modelled. */
  predicate SqlEquals(a: SqlValue, b: SqlValue)
  {
    a != SqlNull && b != SqlNull && a == b
  }

  /** SQLite's cross-type order for non-NULL values: every number sorts
      before every text; texts compare by code point (BINARY collation). */
  predicate SqlAtMost(a: SqlValue, b: SqlValue)
  {
    match (a, b)
    case (SqlNum(x), SqlNum(y)) => x <= y
    case (SqlNum(_), SqlText(_)) => true
    case (SqlText(_), SqlNum(_)) => false
    case (SqlText(x), SqlText(y)) => TextAtMost(x, y)
    case _ => false
  }

  predicate TextAtMost(x: string, y: string)
  {
    if x == [] then true
    else if y == [] then false
    else if x[0] != y[0] then x[0] < y[0]
    else TextAtMost(x[1..], y[1..])
  }
}
